=== FILE: README.md ===
# Ajax assistant: a Dafny model of its core logic

This project models the deterministic core of the "Ajax" assistant. The
assistant is a dual-persona helper for a business owner, Logan. The model
covers four parts:

- **The Python agent core.** A registry of named sub-agents that rejects
  duplicate names. Delegation, with a missing-name error. Replies framed by
  whether Logan is present. Four echo agents and four action-dispatch
  agents.
- **The Flask back end.** It has a chat-command dispatcher (`/loganin`,
  `/loganout`, `/delegate`, the fixed questions) and a status record whose
  history is capped at five entries. Chat memory is capped at ten entries.
  The task queue numbers tasks `len + 1`. An HTTP Basic credential gate
  follows section 2 of RFC 7617.
- **The `ajax_system` services.** The persisted personality mode defaults
  to 'Ajax'. Every service logs to an append-only task timeline. Projects
  and agents are created only if absent. Training uploads can be
  summarised by truncating to a word budget. Platform credentials are
  stored under derived environment keys. The REST handlers validate their
  requests.
- **The client-side state of the React and vanilla front ends.**
  - The pending-placeholder chat box.
  - Per-folder conversations.
  - The accordion and expand toggles, folder keys (slugs) and the theme.
  - The Running/Idle status line and the credential form.
  - Upload-list accumulation and the persona-styled chat bubbles.

The model also covers URL resolution in the web-browsing tool. A search
query is percent-encoded as section 2.1 of RFC 3986 describes. The model
proves the encoding can be undone and that it only produces safe
characters.

Every operation is a pure function over immutable values. Persisted state
is one explicit value:

- `SystemStore.Store` holds the JSON files, the project and agent
  folders, `.env` and the process environment.
- `BackendChat.Backend` holds the Flask back end's state.
- `AppShell.Storage` is the browser's localStorage.

Timestamps, network replies, decoded file text and user prompts are
parameters. An asynchronous request is split into a send step and a
resolve step, so that interleavings can be stated.

A few behaviours of the source are modelled as they are written and stated
as lemmas. None of them is corrected:

- In the React chat box, two sends before either answer leave the first
  placeholder pending forever (`PendingChat.OverlappingSends`).
- In the vanilla dashboard, switching project while a chat is in flight
  stores the old list under the new project (`VanillaDashboard.SwitchMidRequest`).
- In the chat endpoint, a successful delegation puts its reply in the
  history twice (`BackendChat.ChatDelegationPushesTwice`).
- The React `addProject` accepts a duplicate key (`AppShell.DuplicateKeyAccepted`).
- The training-upload alert is shown even for an unknown agent
  (`ProjectSidebar.AlertDespiteMissingAgent`).
- A credential that the form hides is still sent (`Social.HiddenTokenStillSent`).
- The linked-account label shows the six characters `\u2705` rather than
  a check mark (`BrandSidebar.LabelIsNotCheckMark`).
- The registry holds the echo support and growth agents, not the action
  dispatchers (`AjaxCore.DefaultSupportNeverPerforms`,
  `AjaxCore.DefaultGrowthNeverPerforms`).

Modules follow the source files:

| module | source |
|---|---|
| `Wrappers`, `Text` | shared: `Option`/`Result`/`Fetch`; Python and JavaScript string operations on ASCII |
| `EchoAgents`, `ActionAgents`, `AjaxCore` | `core/agents/*`, `core/ajax_ai.py` |
| `BackendChat`, `BasicAuth`, `Crm` | `backend/endpoints.py`, `backend/agent.py`, `core/crm.py` |
| `SystemStore`, `Memory`, `Projects`, `AgentManager`, `Persona`, `Server` | `ajax_system/core/*.py`, `ajax_system/main.py` |
| `WebBrowser` | `tools/web_browser.py` |
| `Ui`, `PendingChat`, `IndexPage`, `FolderSidebar`, `BrandSidebar`, `AppShell`, `UploadPanel`, `VanillaDashboard` | `frontend/` |
| `AjaxDashboard`, `ProjectSidebar`, `Social`, `ModeChat` | `ajax_system/frontend/components/` |

## Model

| member | source | states |
|---|---|---|
| EchoAgents.EchoReply | core/agents/investor_agent.py:18-30 | The reply is the agent's lead, then the task verbatim, then the agent's note. It is defined for every task, the empty one included. |
| EchoAgents.EchoRoundTrip | core/agents/investor_agent.py:27-30 | The task can be recovered from every echo reply: `ParseEcho` of the reply gives the task back. |
| EchoAgents.EchoParseSound | core/agents/fanpage_agent.py:27-30 | Every text that `ParseEcho` accepts is exactly the echo of the task it extracts. |
| EchoAgents.EchoInjective | core/agents/support_agent.py:28-31 | Different tasks give different replies. |
| EchoAgents.EchoMentions | tests/test_ajax.py:26-37 | Every echo reply starts with the agent's tag and contains both the tag and the task. |
| EchoAgents.InvestorHandleTask | core/agents/investor_agent.py:27-30 | The investor reply is exactly "[InvestorAgent] Processing task: ", the task and the stock-research note. |
| EchoAgents.FanpageHandleTask | core/agents/fanpage_agent.py:27-30 | The fan-page reply is exactly the "[FanpageAgent]" lead, the task and the social-posting note. |
| EchoAgents.SupportEchoHandleTask | core/agents/support_agent.py:28-31 | The registered support agent's reply is exactly the "[SupportAgent]" lead, the task and the customer-support note. |
| EchoAgents.GrowthEchoHandleTask | core/agents/growth_agent.py:28-31 | The registered growth agent's reply is exactly the "[GrowthAgent]" lead, the task and the growth-analysis note. |
| ActionAgents.Find | core/agents/dev.py:11-18 | The branch found tests the action. None is found exactly when no branch tests it. |
| ActionAgents.RunSpec | core/agents/dev.py:11-27 | A known action answers with its branch's lead and the payload or the default. An unknown action gives the unknown-action lead followed by the action's name. |
| ActionAgents.HandleTaskUsesTaskAsAction | core/agents/dev.py:29-30 | `handle_task` runs the task text as an action with no payload. An empty payload behaves the same. |
| ActionAgents.RunUnknownIff | core/agents/dev.py:18 | For a dispatcher whose leads all differ from the unknown lead, the reply is the unknown-action reply if and only if the action is unknown. |
| ActionAgents.EmptyPayloadIsMissing | core/agents/dev.py:20-27 | An empty payload gives the same reply as a missing one, because the defaults are chosen with `or`. |
| ActionAgents.DevReplies | core/agents/dev.py:11-27 | react_component, fix_backend_bug and tailwind_card give their texts with the defaults feature, issue and content. Every other action gives "[DevAgent] Unknown action: " followed by the action. |
| ActionAgents.GrowthActionsReplies | core/agents/growth.py:11-27 | slideshow, dm and scrape give their texts with the defaults general topic, target and profile. Any other action is unknown. |
| ActionAgents.OpsReplies | core/agents/ops.py:11-27 | queue_task and notify give their texts with the defaults task and message. stats ignores its payload. Any other action is unknown. |
| ActionAgents.SupportActionsReplies | core/agents/support.py:11-22 | reply_dm and reply_comment give their texts with the defaults message and comment. Any other action is unknown. |
| ActionAgents.PageActionsAreKnown | frontend/src/pages/agents/Dev.jsx:29-33 | Every action an agent page offers is known to its dispatcher, whatever the payload, and never gets the unknown-action reply. |
| AjaxCore.ChoosePhrase | core/ajax_ai.py:56-63 | The first example phrase, or "" when there is none. |
| AjaxCore.RegisterAgent | core/ajax_ai.py:133-145 | An unused name adds exactly that entry and keeps every other entry and the presence flag. A registered name fails with the already-registered error. |
| AjaxCore.Delegate | core/ajax_ai.py:147-163 | An unregistered name fails with the missing-name error. A registered name returns that agent's `handle_task` of the task. |
| AjaxCore.GenerateResponse | core/ajax_ai.py:165-194 | The reply is the selected personality's first phrase, then " — " when Logan is present or " " when he is away, then the prompt verbatim. |
| AjaxCore.AjaxHandleTaskIsResponse | core/ajax_ai.py:197-206 | Ajax's own `handle_task` is `generate_response`, so its reply ends with the task. |
| AjaxCore.ModesFrameThePrompt | tests/test_ajax.py:40-52 | In both modes the reply starts with that mode's first phrase and contains the prompt. The two modes never give the same reply. |
| AjaxCore.BuildDefaultAjax | core/ajax_ai.py:213-225 | Logan is present. The registry is exactly investor, fanpage, support and growth, bound to the four echo agents. |
| AjaxCore.DefaultDelegation | core/ajax_ai.py:220-225 | Delegating to each default agent returns exactly that agent's echo of the task. |
| AjaxCore.DefaultSupportNeverPerforms | core/ajax_ai.py:70 | Whatever the task, `reply_dm` included, `delegate("support", task)` returns the echo. It never returns any reply of the support.py dispatcher. |
| AjaxCore.DefaultGrowthNeverPerforms | core/ajax_ai.py:71 | Whatever the task, `slideshow` included, `delegate("growth", task)` returns the echo. It never returns any reply of the growth.py dispatcher. |
| AjaxCore.DefaultRejectsDuplicate | core/ajax_ai.py:143-144 | Registering "investor" again on a default Ajax fails with the already-registered error. |
| BackendChat.LastN | backend/endpoints.py:137 | Python's `s[-n:]` keeps the last n elements, or all of them when there are fewer. |
| BackendChat.PushHistory | backend/endpoints.py:136-137 | The history stays at five entries or fewer and ends with the new reply. It is the old history plus the reply, minus as many of the oldest entries as needed. |
| BackendChat.DelegationErrorText | backend/endpoints.py:103-105 | For plain agent names the error text is "Delegation error: " followed by the missing-name message in double quotes. This is how Python's repr quotes a message that holds single quotes. |
| BackendChat.ProcessChatMessage | backend/endpoints.py:78-115 | The registry never changes. Only the presence commands change the presence flag and the mode. Only a delegation changes the current task, the live status and the history, and the history only gains the reply. Conversation falls through to `generate_response` of the message. |
| BackendChat.PresenceCommands | backend/endpoints.py:79-88 | "/loganin" sets presence and mode 'ajax', and "/loganout" clears presence and sets mode 'logan'. Each answers its fixed sentence, and nothing else changes. |
| BackendChat.DelegateNeedsThreeParts | backend/endpoints.py:90-93 | "/delegate" without both an agent and a task answers the usage line and changes nothing. |
| BackendChat.DelegateOutcome | backend/endpoints.py:94-105 | A well-formed delegation sets the current task and ends with live status 'idle'. On success the agent's reply is returned and appended to the history. On failure the error is returned and the history is untouched. |
| BackendChat.FixedQuestions | backend/endpoints.py:106-112 | Exact greetings, the two capability questions and a "log a task" prefix answer their fixed replies and change nothing. |
| BackendChat.CommandsIgnoreCase | backend/endpoints.py:79 | Commands are matched after stripping and lower-casing, so "  /LOGANOUT " is the logout command. |
| BackendChat.LoganInThenConverse | backend/endpoints.py:81-115 | After "/loganin", plain conversation is framed by the Ajax personality's first phrase. |
| BackendChat.Field | backend/endpoints.py:121 | `(data.get(f) or '').strip()`: an absent field reads as "". |
| BackendChat.Remember | backend/endpoints.py:128-132 | The user entry and then the assistant entry, with the same timestamp, are appended, and only the last ten entries are kept. |
| BackendChat.ApiChat | backend/endpoints.py:119-139 | A missing or blank message fails with 400 "Empty message" if and only if it is blank, and then nothing changes. Otherwise the current task becomes the message, and the history and memory bounds are preserved. |
| BackendChat.ApiChatRecords | backend/endpoints.py:124-138 | An accepted chat returns the dispatcher's reply. Both halves of the exchange end the 'general' conversation and no other conversation changes. The task log gains one entry, the queue is untouched and the reply ends the history. |
| BackendChat.ChatDelegationPushesTwice | backend/endpoints.py:100-138 | A successful delegation through the chat endpoint appends the agent's reply to the history twice. The current task is overwritten by the whole message. |
| BackendChat.ApiTask | backend/endpoints.py:166-182 | An empty task fails with 400 and nothing changes. Otherwise a 'pending' entry whose id is the queue length plus one is appended at the end and logged as queued. |
| BackendChat.ApiUpload | backend/endpoints.py:186-200 | No file fails with 400. Otherwise, for filenames that are one path component, the saved names are returned, and one history line lists them, joined by ", ". |
| BackendChat.BoundsHold | backend/endpoints.py:128-137 | Under any sequence of chat, task and upload requests, the history keeps at most five entries, every conversation at most ten, and the queue ids stay 1..n. |
| BackendChat.InitialBackend | backend/endpoints.py:70-75 | The initial status record, empty memory and empty queue satisfy those bounds. |
| BasicAuth.GetEnv | backend/agent.py:37-38 | `os.getenv`: the variable when it is set, else the default. |
| BasicAuth.Configured | backend/agent.py:37-38 | The pair comes from BASIC_USER and BASIC_PASS, each falling back to its built-in value on its own. |
| BasicAuth.ParseUserPass | backend/agent.py:43 | A decoded user-pass has credentials if and only if it holds a colon. The user-id runs to the first colon and the password is the rest. |
| BasicAuth.ParseUserPassRoundTrip | backend/agent.py:43 | Parsing undoes the user-pass encoding for every user-id without a colon. |
| BasicAuth.Gate | backend/agent.py:40-51 | Without matching credentials the handler does not run, the state is kept, and 401 "Authentication required" is answered with the `Basic realm=Login` challenge. With them the handler's result is returned unchanged. It passes if and only if the credentials equal the configured pair. |
| BasicAuth.DefaultPairOnly | backend/agent.py:37-44 | With no environment variables set, exactly the built-in pair passes. |
| BasicAuth.ServeFrontend | backend/agent.py:63-68 | A non-empty path that exists, as a file or a directory, is served as that path. Anything else falls back to index.html. |
| Crm.Open | core/crm.py:11-24 | The stored data when the file exists, else the fresh data. |
| Crm.GetBrand | core/crm.py:52-53 | The stored brand, or an empty brand. |
| Wrappers.ListAt | core/crm.py:33 | A list that is not there reads as empty. The frontends read a folder's or project's conversation the same way. |
| Crm.Append | core/crm.py:32-50 | The record ends its list and earlier records stay. A missing brand or list is created. No other list of any brand changes. |
| Crm.FreshShape | core/crm.py:19-23 | A fresh CRM has exactly remote100k.subs, tradeview_ai.demos and app_304.leads, all empty. |
| Crm.AddsAreVisible | core/crm.py:32-53 | Reading a brand back after each of the three adds shows the new record at the end of its list, from any data. |
| Crm.AppendsCommute | core/crm.py:32-50 | Appends to different lists commute. |
| SystemStore.ReadJson | ajax_system/core/memory.py:34-41 | The stored value, or the default when the file is missing or is not valid JSON. |
| Memory.GetState | ajax_system/core/memory.py:51-57 | Mode 'Ajax' is added when absent, and every stored field is kept. |
| Memory.AddTask | ajax_system/core/memory.py:74-88 | The task gets id length plus one and is appended at the end and returned. Earlier tasks and every other file are unchanged. |
| Memory.AddPendingTask | ajax_system/core/memory.py:74 | The default status is 'pending'. |
| Memory.LogDone | ajax_system/core/memory.py:66 | Logging adds exactly one 'done' task and changes nothing else. |
| Memory.SetMode | ajax_system/core/memory.py:60-66 | The mode is recorded and every other state field is kept. One 'done' task "Switched mode to <mode>" is logged. |
| Memory.SetIdleBehaviors | ajax_system/core/memory.py:101-104 | The configuration is replaced and one 'done' task is logged. |
| Memory.SetThenGetMode | ajax_system/core/memory.py:60-71 | The mode written is the mode read back. |
| Memory.DefaultMode | ajax_system/core/memory.py:51-57 | With no state file, or one that cannot be parsed, the mode is 'Ajax'. |
| Memory.SetThenGetIdle | ajax_system/core/memory.py:96-104 | The idle configuration written is the one read back. |
| Memory.AddTaskKeepsIds | ajax_system/core/memory.py:77-86 | Appending keeps the timeline's ids 1..n. |
| Memory.CorruptTimelineRestarts | ajax_system/core/memory.py:77-93 | A timeline that cannot be parsed reads as empty, so the next task gets id 1 and replaces the file. |
| Projects.NewMetadata | ajax_system/core/tasks.py:51-62 | The metadata has the name, description '', and an empty list for each of the five categories and no other category. |
| Projects.CreateProject | ajax_system/core/tasks.py:31-65 | For a name that is one path component, it fails if and only if the project exists, and then nothing changes. Otherwise the project is added with its metadata and one 'done' task "Created project '<name>'" is logged. |
| Projects.AddTaskVia | ajax_system/core/tasks.py:68-71 | The task gets the next id, ends the timeline and is returned. Only the timeline changes. |
| Projects.CreateThenListed | ajax_system/core/tasks.py:24-47 | A created project whose name is one path component is listed, and creating it again fails without touching the store. |
| Projects.CreateKeepsOthers | ajax_system/core/tasks.py:44-65 | Creating a project never changes an existing project. |
| AgentManager.SummariseText | ajax_system/core/agent.py:81-87 | Text of at most the word budget is only stripped. Longer text is exactly the budget's worth of words, joined by single spaces with nothing around them, followed by "...". |
| AgentManager.SummaryWordCount | ajax_system/core/agent.py:87 | A cut summary keeps exactly the word budget before the ellipsis. |
| AgentManager.BlankTextHasEmptySummary | ajax_system/core/agent.py:84-86 | Whitespace-only text has an empty summary. |
| AgentManager.Ext | ajax_system/core/agent.py:108 | The extension is "" or a dotted suffix of the last path component with no further dot. Which of the two a path gets is stated for every path by ExtOfName and NoExtOfName. |
| AgentManager.ExtOfName | ajax_system/core/agent.py:108 | Under any directory, a last component with a dot after some non-dot character reports everything from its last dot: "archive.tar.gz" gives ".gz", "dir/a.txt" gives ".txt". |
| AgentManager.NoExtOfName | ajax_system/core/agent.py:108 | Under any directory, a last component with no dot after a non-dot character ("README", ".env", "..a") has no extension. |
| AgentManager.DotFileHasNoExt | ajax_system/core/agent.py:108 | A dot file such as ".env" has no extension. |
| AgentManager.InitialTraining | ajax_system/core/agent.py:62-66 | training.md starts "# Training for <name>". The "Base behaviour:" line is there only when the behaviour is non-empty. |
| AgentManager.CreateAgent | ajax_system/core/agent.py:39-67 | For a name that is one path component, it fails if and only if the agent exists, and then nothing changes. Otherwise the config has no permissions, the knowledge folder exists, and one 'done' task is logged. |
| AgentManager.ExtractedText | ajax_system/core/agent.py:107-116 | .txt and .md give the decoded text and .docx gives the extracted text. Other formats, or a failed extraction, give "". Extensions are compared lower-cased. |
| AgentManager.SummarySection | ajax_system/core/agent.py:123-126 | A non-empty summary becomes a "## Summary of <file>" section. An empty one adds nothing. |
| AgentManager.TrainingSection | ajax_system/core/agent.py:117-126 | A section is added only when there is text and summarising is on. |
| AgentManager.Receive | ajax_system/core/agent.py:102-128 | For a filename that is one path component, the raw file is stored, the section is appended to the agent's training.md, and "Training file received: <file>" is logged. No other agent or file changes. |
| AgentManager.UploadTrainingFile | ajax_system/core/agent.py:90-128 | An unknown agent fails before anything is written. For a filename that is one path component, a known agent receives the file whatever the format. |
| AgentManager.OtherFormatsLeaveTraining | ajax_system/core/agent.py:108-126 | Files of other formats never touch training.md. |
| AgentManager.NoSummaryWhenOff | ajax_system/core/agent.py:119-126 | With summarising off, training.md is never touched. |
| AgentManager.BlankUploadAddsNoSection | ajax_system/core/agent.py:118-126 | Blank extracted text adds no section. |
| AgentManager.CreateThenUpload | ajax_system/core/agent.py:39-101 | A created agent whose name is one path component is listed and accepts uploads, and creating it again fails. |
| Persona.Respond | ajax_system/core/ajax_ai.py:16-32 | Mode 'Logan' gives "[Logan] " followed by the message. Any other mode gives "[Ajax] I understand! " followed by the message. Exactly one 'done' task "Responded in <mode> mode" is logged and nothing else changes. |
| Persona.CurrentMode | ajax_system/core/ajax_ai.py:35-37 | The stored mode, or 'Ajax' when none is stored. |
| Persona.SwitchMode | ajax_system/core/ajax_ai.py:40-42 | The mode is stored, the rest of the state is kept, and the switch is logged. |
| Persona.SwitchThenCurrent | ajax_system/core/ajax_ai.py:35-42 | After switching to a mode, that mode is the current one. |
| Persona.ReplyRevealsMode | ajax_system/core/ajax_ai.py:23-29 | A reply carries the Logan tag if and only if the mode is 'Logan', and it always ends with the message. |
| Persona.RespondKeepsMode | ajax_system/core/ajax_ai.py:23-32 | Responding never changes the mode. |
| Server.SwitchModeRoute | ajax_system/main.py:30-43 | /loganin (mode 'Ajax') and /loganout (mode 'Logan') store the mode, return it, and log exactly one done "Switched mode to <mode>" task with the next id. |
| Server.CreateAgent | ajax_system/main.py:52-66 | A missing or empty name gives 400 "name is required". A duplicate gives 400 with the existence message. Either way nothing changes. Otherwise the agent is created, with a role and behaviour that default to "" when their fields are absent. |
| Server.SummariseFlag | ajax_system/main.py:79 | Summarising is off if and only if the flag is given and lower-cases to "false". |
| Server.SummariseFlagCases | ajax_system/main.py:79 | An absent flag leaves summarising on, as do "no", "0" and "". "FALSE" and "False" turn it off. |
| Server.UploadTraining | ajax_system/main.py:69-84 | No file field gives 400. An unknown agent gives 404 with nothing stored. Otherwise a file whose name is one path component is received with the query's summarise flag. |
| Server.CreateProject | ajax_system/main.py:93-104 | The same validation as for agents, then `create_project`. |
| Server.KeyPrefix | ajax_system/main.py:121 | The prefix is the upper-cased project, "_", then the upper-cased platform. |
| Server.Entry | ajax_system/main.py:123-128 | A credential gives an entry only when it is given and non-empty. |
| Server.EnvUpdates | ajax_system/main.py:122-128 | There are no entries if and only if no credential is given. There are at most three. |
| Server.SetEnvOther | ajax_system/main.py:137-138 | A variable no entry names keeps its value, or stays unset. |
| Server.SetEnvLast | ajax_system/main.py:137-138 | A variable gets the value of the last entry that names it. |
| Server.SuffixesDiffer | ajax_system/main.py:124-128 | The _TOKEN, _USERNAME and _PASSWORD keys of one prefix never collide. |
| Server.ConnectPlatform | ajax_system/main.py:107-139 | A missing project or platform gives 400, and so does no credential. Nothing is written in either case. Otherwise each entry is appended to `.env` as KEY=value followed by a newline, set in the environment, and its key is returned. |
| Server.ConnectStoresCredentials | ajax_system/main.py:121-138 | Every credential given can be read back from the environment under PROJECT_PLATFORM_TOKEN, _USERNAME or _PASSWORD, and every other variable keeps its value. |
| Server.EnvUpdatesKeys | ajax_system/main.py:123-128 | For every combination of credentials, the keys are PREFIX_TOKEN, PREFIX_USERNAME and PREFIX_PASSWORD in that order, each present exactly when its value is given and non-empty. |
| Server.ConnectKeysInOrder | ajax_system/main.py:123-139 | For every combination with some credential, the answer lists the saved keys in token, username, password order, skipping the ones not given. |
| Server.AddTask | ajax_system/main.py:148-158 | A missing or empty description gives 400. Otherwise the task is added and returned, with status 'pending' when the field is absent. |
| Server.SetIdle | ajax_system/main.py:167-172 | The configuration is replaced and the handler answers "updated". |
| Server.Respond | ajax_system/main.py:175-183 | The persona reply to the message, which defaults to "" when the field is absent. The mode is kept and one task is logged. |
| Server.Handle | ajax_system/main.py:24-183 | The read-only routes leave the store unchanged and answer 200. |
| Server.HandleLogsAtMostOne | ajax_system/main.py:24-183 | Every request leaves the timeline alone or appends one task carrying the next id. |
| Server.ServeKeepsIds | ajax_system/core/memory.py:77-86 | Under any sequence of requests, timeline ids that are 1..n stay 1..n. |
| WebBrowser.Utf8Char | tools/web_browser.py:16 | A character encodes to one to four bytes, one exactly for ASCII, and that byte is its code. |
| WebBrowser.QuoteByte | tools/web_browser.py:16 | Unreserved bytes and "/" are kept. Every other byte becomes "%XX" in upper-case hex. |
| WebBrowser.UnquoteQuoteBytes | tools/web_browser.py:16 | Percent-decoding undoes `quote` on every byte string. |
| WebBrowser.UnquoteQuote | tools/web_browser.py:16 | Decoding the quoted query gives back its UTF-8 bytes. |
| WebBrowser.QuotedChars | tools/web_browser.py:16 | Quoted text holds only unreserved characters and '%'. |
| WebBrowser.QuoteOfSafe | tools/web_browser.py:16 | Text of safe ASCII characters is its own quoted form. |
| WebBrowser.ResolveUrl | tools/web_browser.py:10-16 | A non-empty URL wins. Otherwise a query starting "http://" or "https://" (case-sensitive) is the URL. Otherwise the URL is the search prefix followed by a parameter that decodes back to the query. |
| WebBrowser.EmptyQuerySearches | tools/web_browser.py:10-16 | With no URL and no query, the tool searches for the empty string. |
| WebBrowser.SearchParameterIsQuoted | tools/web_browser.py:15-16 | A search URL's parameter is made only of quoted characters. |
| WebBrowser.Run | tools/web_browser.py:8-26 | The returned url is the resolved URL, together with the page's title and body. |
| Ui.Toggle | frontend/src/components/Sidebar.jsx:33-35 | The open folder closes and any other folder opens, so at most one folder is open. |
| Ui.ToggleOpensOnlyKey | frontend/src/components/Sidebar.jsx:33-35 | After a click, that folder is open exactly when it was closed, and every other folder is closed. |
| Ui.ToggleTwice | frontend/src/components/Sidebar.jsx:34 | Two clicks restore the earlier state if and only if that folder or no folder was open. |
| Ui.FlipTheme | frontend/src/App.jsx:105 | 'light' becomes 'dark' and anything else becomes 'light'. |
| Ui.FlipTwice | frontend/src/Sidebar.jsx:124 | Two flips are the identity exactly on 'light' and 'dark'. |
| Ui.Underscore | frontend/src/components/Sidebar.jsx:39 | After replacing whitespace runs with "_", no whitespace is left and the text is no longer. |
| Ui.Slug | frontend/src/components/Sidebar.jsx:39 | The folder key has no whitespace and is no longer than the name. What the key is, for every name, is stated by the four lemmas below. |
| Ui.SlugWordThen | frontend/src/components/Sidebar.jsx:39 | For any name, a whitespace-free head is lower-cased into the key and the rest of the name is keyed on its own. |
| Ui.SlugRunThen | frontend/src/components/Sidebar.jsx:39 | For any name, a whitespace run up to the next non-whitespace character or the end becomes exactly one "_". |
| Ui.SlugOfWord | frontend/src/components/Sidebar.jsx:39 | A name without whitespace keys as its lower-cased self. |
| Ui.SlugOfWordSpaceWord | frontend/src/components/Sidebar.jsx:39 | Any two words around any whitespace run key as the lower-cased words joined by one "_". |
| Ui.Reverse | frontend/src/App.jsx:187 | `slice().reverse()` is a reversed copy. |
| Ui.ReverseTwice | frontend/src/App.jsx:187 | Reversing twice gives the list back. |
| PendingChat.Send | frontend/src/components/ChatBox.jsx:20-31 | A blank input changes nothing and sends nothing. Otherwise the input is cleared, the user text and a pending placeholder are appended, and the placeholder's index is recorded. |
| PendingChat.Resolved | frontend/src/components/ChatBox.jsx:38-48 | The placeholder is replaced by a finished assistant entry: the reply with its timestamp, or "Error: " followed by the message. |
| PendingChat.Resolve | frontend/src/components/ChatBox.jsx:34-52 | Only the entry at the recorded index changes, and only if it is still pending. The length never changes and the index slot is cleared. |
| PendingChat.SendThenResolve | frontend/src/components/ChatBox.jsx:20-52 | A send and its answer add the user text and the resolved reply, with no placeholder left. |
| PendingChat.ResolveRemovesOnePending | frontend/src/components/ChatBox.jsx:37-41 | Resolving removes exactly one pending entry when the slot names one, and none otherwise. |
| PendingChat.SendAddsOnePending | frontend/src/components/ChatBox.jsx:24-31 | A send adds exactly one pending entry. |
| PendingChat.OverlappingSends | frontend/src/components/ChatBox.jsx:27-41 | With two sends before either answer, the first answer fills the second placeholder and the second answer is dropped. The first placeholder stays pending. |
| IndexPage.CurrentKey | frontend/src/pages/index.jsx:22 | The key is the project, "/", then the item. |
| IndexPage.CurrentKeyInjective | frontend/src/pages/index.jsx:22 | Folders whose brand key has no '/' get distinct conversation keys. |
| IndexPage.SlashInKeyCollides | frontend/src/pages/index.jsx:22 | A brand key holding '/' can share a key with another folder. |
| IndexPage.UpdateMessages | frontend/src/pages/index.jsx:24-30 | Only the current key's list is replaced by the updater's result. Every other key is unchanged. |
| IndexPage.UpdatesInDifferentFoldersCommute | frontend/src/pages/index.jsx:24-30 | Updates to different folders commute. |
| IndexPage.StatusText | frontend/src/pages/index.jsx:33-37 | "tiktok" in the lower-cased text gives the TikTok status. Otherwise "slideshow" gives the slideshow status. Otherwise the status is thinking. |
| IndexPage.TikTokWins | frontend/src/pages/index.jsx:33-37 | TikTok wins when both words appear, whatever their case. |
| IndexPage.SendMessage | frontend/src/pages/index.jsx:39-47 | The task runs while the request is out. Only a parsed reply resets it, so a failure leaves it running. |
| IndexPage.AddProject | frontend/src/pages/index.jsx:56 | The brand is appended and the existing brands are unchanged. |
| IndexPage.BrandName | frontend/src/pages/index.jsx:71 | The name of the first brand with the key, as `find` gives it, or "". |
| IndexPage.Header | frontend/src/pages/index.jsx:70-72 | "<brand name> / <item>" only when both are set, else "Select a folder". |
| FolderSidebar.ClickBrand | frontend/src/components/Sidebar.jsx:33-35 | A header click toggles that folder, and the other fields are kept. |
| FolderSidebar.HandleAdd | frontend/src/components/Sidebar.jsx:37-42 | A blank name does nothing. Otherwise the key is the slug of the untrimmed name, the name is the trimmed input, and the input is cleared. |
| FolderSidebar.ClickItem | frontend/src/components/Sidebar.jsx:80-83 | The (brand key, item) pair is reported and the sidebar closes. |
| BrandSidebar.ClickBrand | frontend/src/Sidebar.jsx:41-44 | The brand is selected and its open state toggles. |
| BrandSidebar.ClickItem | frontend/src/Sidebar.jsx:63-66 | The brand is selected and (brand, item) is marked active. |
| BrandSidebar.ClickHighlightsOnlyItem | frontend/src/Sidebar.jsx:67-70 | An item is highlighted if and only if both its brand and its item match the click. |
| BrandSidebar.NothingHighlightedInitially | frontend/src/Sidebar.jsx:29 | No item is highlighted before the first click. |
| BrandSidebar.ToggleLinks | frontend/src/Sidebar.jsx:89 | The Link Accounts flag flips and nothing else changes. |
| BrandSidebar.LinkedLabel | frontend/src/Sidebar.jsx:103 | The label is the six literal characters `\u2705`, a space, then the name. |
| BrandSidebar.AccountRow | frontend/src/Sidebar.jsx:100-106 | An account is shown as linked if and only if it is linked. Otherwise a button links that account. |
| BrandSidebar.AccountRows | frontend/src/Sidebar.jsx:100-106 | There is one row per social account, linked exactly when that account is. |
| BrandSidebar.LabelIsNotCheckMark | frontend/src/Sidebar.jsx:103 | The label does not start with the check-mark character. |
| BrandSidebar.LinkingOneAccount | frontend/src/Sidebar.jsx:100-106 | Linking one account changes only that account's row. |
| BrandSidebar.Checked | frontend/src/Sidebar.jsx:118 | The presence box is checked if and only if isPresent is true. |
| BrandSidebar.ThemeButtonLabel | frontend/src/Sidebar.jsx:127 | The button says "Dark" on the light theme and "Light" otherwise. |
| BrandSidebar.LabelNamesNextTheme | frontend/src/Sidebar.jsx:124-127 | The button names the theme a click switches to. |
| AppShell.StoredOr | frontend/src/App.jsx:27-28 | `getItem(k) \|\| fallback`: a stored empty string counts as absent. |
| AppShell.InitialTheme | frontend/src/App.jsx:27 | The stored theme, else 'light'. |
| AppShell.PersistTheme | frontend/src/App.jsx:33-36 | The theme is written back and no other key changes. |
| AppShell.ThemeSurvivesReload | frontend/src/App.jsx:27-36 | A persisted theme is the one a reload starts with. |
| AppShell.InitialOpenBrand | frontend/src/App.jsx:28 | The stored open brand, else "". |
| AppShell.PersistOpenBrand | frontend/src/App.jsx:38-44 | An empty open brand removes the key. Any other value is stored. No other key changes. |
| AppShell.OpenBrandSurvivesReload | frontend/src/App.jsx:28-44 | A persisted open brand is the one a reload starts with. |
| AppShell.Load | frontend/src/App.jsx:20-28 | The default brands, 'remote100k' selected, and the stored theme and open brand. |
| AppShell.ClickBrand | frontend/src/App.jsx:117-119 | A button click toggles the brand's open state. A click on the name also selects the brand. |
| AppShell.ToggleTheme | frontend/src/App.jsx:105 | The theme swaps between light and dark and nothing else changes. |
| AppShell.ToggleTwiceAfterFirst | frontend/src/App.jsx:105 | From the first toggle on, two toggles are the identity. |
| AppShell.AddProject | frontend/src/App.jsx:59-64 | A cancelled or empty prompt adds nothing. Otherwise {slug, name as typed} is appended. |
| AppShell.Send | frontend/src/App.jsx:72-76 | A blank input sends nothing. Otherwise the user message is appended at once and the input is cleared. |
| AppShell.Finish | frontend/src/App.jsx:83-88 | Exactly one assistant message is appended: the reply, or "Error contacting server.". |
| AppShell.SendThenFinish | frontend/src/App.jsx:72-89 | A send adds the user message and then one assistant message. |
| AppShell.UploadRequest | frontend/src/App.jsx:91-99 | No files means no request. Otherwise the brand and the files are sent. |
| AppShell.HistoryView | frontend/src/App.jsx:187 | History is shown newest first. |
| AppShell.HistoryViewNewestFirst | frontend/src/App.jsx:187 | The top line is the last entry, and the state is the view reversed. |
| UploadPanel.Initial | frontend/src/components/UploadPanel.jsx:9-10 | No files, not dragging. |
| UploadPanel.DragOver | frontend/src/components/UploadPanel.jsx:19-22 | Drag-over sets dragging and keeps the files. |
| UploadPanel.DragLeave | frontend/src/components/UploadPanel.jsx:23-25 | Drag-leave clears dragging and keeps the files. |
| UploadPanel.Drop | frontend/src/components/UploadPanel.jsx:12-18 | A drop clears dragging, appends the batch after the earlier files, and hands over only the batch. |
| UploadPanel.Select | frontend/src/components/UploadPanel.jsx:26-31 | A select appends the batch, an empty one included, and hands over only the batch. |
| UploadPanel.Step | frontend/src/components/UploadPanel.jsx:12-31 | Each event appends exactly the batch it hands to the callback. |
| UploadPanel.ListIsEarlierPlusBatches | frontend/src/components/UploadPanel.jsx:12-31 | Over any event sequence, the list is the earlier list followed by every batch handed over, in order. |
| UploadPanel.DragFlagFollowsLastDragEvent | frontend/src/components/UploadPanel.jsx:12-25 | Dragging is set by drag-over and cleared by drag-leave and drop. |
| UploadPanel.TwoDrops | frontend/src/components/UploadPanel.jsx:12-18 | Two drops give the list [a, b], and the callback sees [a] and then [b]. |
| VanillaDashboard.Loaded | frontend/app.js:59-75 | A failed load yields []. |
| VanillaDashboard.UpdateStatus | frontend/app.js:96-116 | "Running", with the next task being the first in the queue, if and only if the queue is non-empty. Otherwise "Idle" with "—". The last task is the final history entry, or "—". |
| VanillaDashboard.FailedQueueIsIdle | frontend/app.js:70-74 | A failed queue load shows Idle. |
| VanillaDashboard.HistoryLines | frontend/app.js:82-86 | History lines are rendered in reverse of the fetched order. |
| VanillaDashboard.HistoryTopIsLastTask | frontend/app.js:82-115 | The top history line is the last-task text. |
| VanillaDashboard.Submit | frontend/app.js:130-137 | A blank input does nothing. Otherwise the user entry is pushed onto the project's list, which is shared when the project was loaded, and the input is cleared. |
| VanillaDashboard.Reply | frontend/app.js:144-152 | A reply stores the list under the project active when the reply arrives. A failure only pushes onto the shared list. |
| VanillaDashboard.SwitchProject | frontend/app.js:39-44 | The switched-to project's list is the loaded one, and the others are kept. |
| VanillaDashboard.SwitchMidRequest | frontend/app.js:124-153 | A project switch during a chat puts the old project's list under the new project. |
| VanillaDashboard.UnloadedFailureShowsNothing | frontend/app.js:134-152 | A failed chat for an unloaded project shows nothing. |
| VanillaDashboard.SameProjectRoundTrip | frontend/app.js:130-153 | Without a switch, a chat appends the user entry and one assistant entry. |
| VanillaDashboard.UploadStart | frontend/app.js:156-169 | No files shows "No files selected." and sends nothing. Otherwise the status is "Uploading…". |
| VanillaDashboard.UploadDone | frontend/app.js:170-183 | "Uploaded: a, b", "No files uploaded." or "Upload failed.". |
| VanillaDashboard.UploadedNamesEveryFile | frontend/app.js:176-177 | The success message names every uploaded file. |
| AjaxDashboard.ModeOrDefault | ajax_system/frontend/components/Dashboard.jsx:20 | A missing or empty mode is 'Ajax'. |
| AjaxDashboard.LoadMode | ajax_system/frontend/components/Dashboard.jsx:17-21 | An answer sets the mode, defaulting to 'Ajax'. A failed fetch keeps it. |
| AjaxDashboard.LoadTasks | ajax_system/frontend/components/Dashboard.jsx:23-27 | Missing tasks become []. A failed fetch keeps the list. |
| AjaxDashboard.ToggleMode | ajax_system/frontend/components/Dashboard.jsx:49-56 | 'Logan' calls /loganin and anything else calls /loganout. Once that is answered the mode is reloaded, and a failed reload keeps the shown mode. A rejected switch changes neither the store nor the page. |
| AjaxDashboard.ToggleSwitchesPersona | ajax_system/frontend/components/Dashboard.jsx:49-56 | An answered toggle moves the server from Logan to Ajax and from anything else to Logan. The page shows the new mode only when the reload is answered, and otherwise keeps the old one. |
| AjaxDashboard.ToggleTwiceAlternates | ajax_system/frontend/components/Dashboard.jsx:49-56 | Two fully answered toggles restore the mode if and only if it was Ajax or Logan. |
| AjaxDashboard.ToggleLogsOneSwitch | ajax_system/frontend/components/Dashboard.jsx:49-56 | An answered toggle logs exactly one mode switch, and a rejected one logs nothing. |
| AjaxDashboard.ModeLabel | ajax_system/frontend/components/Dashboard.jsx:86 | The label is 'Logan / Ajax' in Logan mode and 'Ajax / Logan' otherwise. |
| AjaxDashboard.LabelStartsWithActive | ajax_system/frontend/components/Dashboard.jsx:85-86 | The active mode is listed first. |
| AjaxDashboard.StatusIcon | ajax_system/frontend/components/Dashboard.jsx:64-73 | done gives ✅, failed gives ❌ and anything else gives ⏳. |
| AjaxDashboard.IconsOfServerTasks | ajax_system/frontend/components/Dashboard.jsx:64-73 | Pending server tasks show ⏳ and logged ones show ✅. |
| AjaxDashboard.ToggleDark | ajax_system/frontend/components/Dashboard.jsx:89 | The dark flag flips and nothing else changes. |
| AjaxDashboard.ApplyDark | ajax_system/frontend/components/Dashboard.jsx:40-47 | The root has 'dark' if and only if darkMode is set, and its other classes are kept. |
| AjaxDashboard.DarkClassMatchesFlag | ajax_system/frontend/components/Dashboard.jsx:40-47 | After a toggle, the class follows the new flag. |
| ProjectSidebar.ToggleProject | ajax_system/frontend/components/Sidebar.jsx:35-37 | Only the named project flips. An unset flag counts as collapsed. |
| ProjectSidebar.ToggleTwiceRestores | ajax_system/frontend/components/Sidebar.jsx:35-37 | Two toggles restore every project's expansion. |
| ProjectSidebar.FoldersIndependent | ajax_system/frontend/components/Sidebar.jsx:35-37 | Toggling one project never affects another. |
| ProjectSidebar.CategoriesAreSubfolders | ajax_system/frontend/components/Sidebar.jsx:73 | The categories are exactly the five folders `create_project` makes. |
| ProjectSidebar.CategoryLabel | ajax_system/frontend/components/Sidebar.jsx:102 | The first letter is capitalised and the rest is unchanged. |
| ProjectSidebar.LabelsNameCategories | ajax_system/frontend/components/Sidebar.jsx:102 | For any category of lower-case letters, lower-casing its label gives the category back, so different categories get different labels. |
| ProjectSidebar.CategoriesAreLowerWords | ajax_system/frontend/components/Sidebar.jsx:73 | All five listed categories are lower-case words, so the label lemma covers each of them. |
| ProjectSidebar.LoadList | ajax_system/frontend/components/Sidebar.jsx:17-28 | A missing list becomes []. A failed fetch keeps the list. |
| ProjectSidebar.NewProject | ajax_system/frontend/components/Sidebar.jsx:39-48 | A cancelled or empty name sends no request. A rejected fetch changes nothing. Otherwise the create handler runs. |
| ProjectSidebar.NewProjectGuarded | ajax_system/frontend/components/Sidebar.jsx:40-41 | The guard means the server never answers "name is required", and a new name ends up listed. |
| ProjectSidebar.NewAgent | ajax_system/frontend/components/Sidebar.jsx:50-61 | A cancelled or empty name sends no request. A rejected fetch changes nothing. Otherwise the create handler runs. |
| ProjectSidebar.NewAgentListed | ajax_system/frontend/components/Sidebar.jsx:50-61 | An answered request leaves the agent listed, whether it was new or taken. A rejected one leaves the store as it was. |
| ProjectSidebar.ChooseTrainingFile | ajax_system/frontend/components/Sidebar.jsx:63-71 | No file does nothing. A rejected fetch shows no alert and stores nothing. Otherwise the upload runs and the alert follows, whatever the server answered. |
| ProjectSidebar.AlertDespiteMissingAgent | ajax_system/frontend/components/Sidebar.jsx:63-71 | The alert is shown even when the server rejects an unknown agent. |
| ProjectSidebar.SidebarUploadsSummarise | ajax_system/frontend/components/Sidebar.jsx:66 | The sidebar sends no flag, so summarising is on. |
| Social.LoadProjects | ajax_system/frontend/components/SocialIntegrations.jsx:19-28 | The project defaults to the first listed project when the list is non-empty. |
| Social.FieldsFor | ajax_system/frontend/components/SocialIntegrations.jsx:53-70 | No platform shows no fields. TikTok, Instagram or Facebook, in any case, show a token field. Anything else shows username and password. |
| Social.Filled | ajax_system/frontend/components/SocialIntegrations.jsx:33-35 | A field is sent if and only if it is non-empty. |
| Social.BodyOf | ajax_system/frontend/components/SocialIntegrations.jsx:32-35 | The body always has project and platform, and only the non-empty credentials. |
| Social.HiddenTokenStillSent | ajax_system/frontend/components/SocialIntegrations.jsx:32-70 | A token typed before switching to Gmail is hidden but still sent. |
| Social.Submit | ajax_system/frontend/components/SocialIntegrations.jsx:30-51 | The store becomes what `connect_platform` makes of the body. The project list and selection are kept. |
| Social.Answer | ajax_system/frontend/components/SocialIntegrations.jsx:42-50 | Success shows "Saved credentials for <platform> on <project>." and clears the three fields. A failure shows the server's error or "Failed to save credentials" and keeps the fields. |
| Social.SubmitOutcomes | ajax_system/frontend/components/SocialIntegrations.jsx:30-51 | With the real server, the form shows the two validation errors or the success message, never the fallback. |
| Social.SavedTokenReachesEnvironment | ajax_system/frontend/components/SocialIntegrations.jsx:30-47 | A submitted token can be read back from the environment under PROJECT_PLATFORM_TOKEN. |
| ModeChat.Send | ajax_system/frontend/components/ChatBox.jsx:25-30 | A blank input does nothing. Otherwise the user bubble is appended and the input is cleared. |
| ModeChat.Receive | ajax_system/frontend/components/ChatBox.jsx:32-41 | A delivered reply appends one AI bubble holding the server's reply text and refreshes the mode. An undelivered one changes nothing. |
| ModeChat.BubbleClass | ajax_system/frontend/components/ChatBox.jsx:55-60 | User bubbles get 'user'. AI bubbles get 'ai-logan' if and only if the current mode is 'Logan'. |
| ModeChat.AiBubblesShareStyle | ajax_system/frontend/components/ChatBox.jsx:55-60 | All AI bubbles share the current mode's style, so they restyle together. |
| ModeChat.StyleMatchesVoice | ajax_system/frontend/components/ChatBox.jsx:25-60 | Right after an exchange, the newest bubble is styled Logan if and only if it carries the Logan tag. It ends with the message sent. |
| ModeChat.FailureLeavesOnlyUserMessage | ajax_system/frontend/components/ChatBox.jsx:32-39 | With no error branch, a failed request leaves only the user message. |

## Left out

- **I/O and plumbing.** Flask routing, JSON parsing and `jsonify`, file writes, `os.makedirs`, and werkzeug's base64 decoding of the Authorization header are left out. Each handler is a function from parsed fields to a new state and a reply.
- **Clocks, network and timers.** Clocks (`datetime.now`, `new Date()`), `fetch` and `setInterval` polling are inputs: timestamps, reply values, `Fetch` outcomes and delivered flags. A rejected fetch is taken as a request the server never saw. A request the server handled but whose answer was lost is not modelled separately. There is no concurrency beyond the send/resolve split.
- **Foreign libraries.** Playwright page loading, the OpenAI image tool and `/api/image`, and python-docx extraction are left out. Their results are parameters. So is UTF-8 decoding of uploads.
- **The idle-behaviour thread.** It sleeps and chooses at random.
- **Rendering.** Views with no state logic are left out, as are CSS classes, scrolling, DOM string building and the mobile sidebar's open and close. The boolean state they reflect is modelled.
- **Unicode.** Python's and JavaScript's lower/upper case and whitespace are modelled on ASCII only. Other characters pass through case mapping unchanged, and only ASCII whitespace separates words.
- **Null request fields.** A JSON field that is null or not a string is treated like an absent field. Python's `data.get(key, default)` returns None for a null field, not the default, so the three handlers below differ from the model.
- Server.Respond: `{"message": null}` gets the reply "[Ajax] I understand! None" in the source, and "[Ajax] I understand! " in the model.
- Server.AddTask: `{"status": null}` stores a task whose status is None in the source, and 'pending' in the model.
- Server.CreateAgent: `{"role": null}` or `{"base_behavior": null}` is written to config.json as null in the source, and as "" in the model.
- BackendChat.ApiUpload: filenames are treated as one path component. The source saves each file to uploads/<filename> before it records anything. A filename of "" names the folder itself, so the save raises IsADirectoryError. "sub/x.txt" raises FileNotFoundError when that subfolder is missing. Both are uncaught, so the answer is 500 and no "Uploaded files:" history line is pushed. The model answers Success and pushes the line. "../x.txt" is saved outside the uploads folder, and the model does not show that either.
- ProjectSidebar.ChooseTrainingFile: the agent name is given as the server receives it. The page puts the name into `/agents/${agentName}/upload_training` without encoding it. A name with "?", "#" or "/", or the names "." and "..", reaches no upload route, so the answer is 404 and nothing is stored, while the model uploads to that agent. A "%41" in a name is decoded by the server, so "a%41" uploads to the agent "aA".
- SystemStore.ReadJson: `Corrupt` means a JSON syntax error only. `read_json` catches `FileNotFoundError` and `json.JSONDecodeError` and nothing else. A state, timeline or idle file that is not valid UTF-8 raises an uncaught `UnicodeDecodeError`, so every route that reads it answers 500. The model reads such a file as its default.
- **JSON types.** JSON values other than strings in the state and idle-behaviour files are not modelled. Those files are maps from strings to strings.
- Projects.CreateProject: project names are keys of a flat map, so every name is treated as one path component. The source joins the name into a path. "a/b" creates projects/a/b, after which "a" already exists. "." and ".." already exist. The model creates all three.
- Projects.CreateThenListed: for "a/b" the source lists "a", because the listing reads only the top directory. The model lists "a/b".
- AgentManager.CreateAgent: agent names are treated as one path component, as for projects. In the source "a/b" creates agents/a/b, after which "a" already exists and is listed in place of "a/b".
- AgentManager.CreateThenUpload: holds as stated only for agent names that are one path component, as above.
- AgentManager.Receive: uploaded filenames are keys of a flat map. The source writes knowledge/<agent>/<filename>, which the model does not reproduce: "" raises IsADirectoryError, "sub/x.txt" raises FileNotFoundError when that subfolder does not exist, and "../x.txt" writes outside the agent's folder. The model stores every filename.
- AgentManager.UploadTrainingFile: for the filenames above the source raises, while the model's known agent receives the file.
- Server.UploadTraining: for those filenames the source answers 404 "Agent <name> does not exist" (a missing subfolder's FileNotFoundError is caught as a missing agent) or 500 (IsADirectoryError is not caught). The model answers 200.
- BasicAuth.ParseUserPass: follows werkzeug before version 2.3, where a user-pass without a colon gives no credentials. Later versions split with `partition(":")`, so the whole text becomes the user-id and the password is "".
- BasicAuth.ServeFrontend: an existing path that is a directory is handed to `send_from_directory`, which answers 404. The model does not tell directories from files, and the answer's status is left out.
- Projects.ListProjects: directory listing order is not modelled. The listing is the set of project names. The same holds for AgentManager.ListAgents.
- BackendChat.DelegationErrorText: stated only for agent names of printable ASCII with no quote or backslash. Python's repr escapes for other characters are not modelled.
- VanillaDashboard.Reply: the aliasing of the pushed-to list is represented by a `stillShared` flag, not by the heap. A reload of the project between submit and reply is the flag being false.
- ProjectSidebar.NewAgent: a cancelled role or behaviour prompt gives null, and `JSON.stringify` sends it as a JSON null. The server's `data.get` returns None for it, so config.json stores null. The model sends no field, and the agent's config stores "" instead. The training.md header is the same either way, because a null behaviour is falsy like "".
- The `run` call that `/api/image` makes on a tool defining only `__call__` always raises. It is not modelled, because the whole image path is left out.
- The usage example in the agent core's docstring contradicts the code. The model follows the code and its tests.

=== FILE: action_agents.dfy ===
/**
 * The action-dispatching agents (core/agents/dev.py, growth.py, ops.py,
 * support.py). Each `run(action, payload=None)` tries its known actions in
 * order; a known action answers with a fixed lead followed by the payload
 * (or a default when the payload is missing or empty, Python's `or`), and
 * anything else answers "<tag> Unknown action: <action>". `handle_task(t)`
 * is `run(t)`: the task text is used as the action name.
 */
module ActionAgents {
  import opened Wrappers

  /** Python `payload or default` for an optional string. */
  function OrDefault(payload: Option<string>, default: string): string {
    if payload.Some? && payload.value != "" then payload.value else default
  }

  /**
   * One known action: its name, the complete reply text before the
   * payload, and the payload default (`None` when the branch ignores the
   * payload, as `stats` does).
   */
  datatype Branch = Branch(action: string, lead: string, default: Option<string>)

  /** An agent's `run`: its branches in test order and the reply text before an unknown action's name. */
  datatype Dispatcher = Dispatcher(branches: seq<Branch>, unknownLead: string)

  predicate Knows(d: Dispatcher, action: string) {
    exists i :: 0 <= i < |d.branches| && d.branches[i].action == action
  }

  /** The first branch testing `action`, if any. */
  function Find(bs: seq<Branch>, action: string): (r: Option<Branch>)
    ensures r.Some? ==> r.value in bs && r.value.action == action
    ensures r.None? <==> forall i :: 0 <= i < |bs| ==> bs[i].action != action
  {
    if bs == [] then None
    else if bs[0].action == action then Some(bs[0])
    else Find(bs[1..], action)
  }

  function Fill(default: Option<string>, payload: Option<string>): string {
    match default
    case None => ""
    case Some(d) => OrDefault(payload, d)
  }

  /**
   * `run(action, payload)`: a known action answers with its branch's lead
   * and filled payload; an unknown one names the action after the
   * unknown-action lead.
   */
  function Run(d: Dispatcher, action: string, payload: Option<string>): string {
    match Find(d.branches, action)
    case Some(b) => b.lead + Fill(b.default, payload)
    case None => d.unknownLead + action
  }

  /**
   * What `run` answers: an action none of the branches tests gets the
   * unknown-action reply naming it; a known one gets the lead and filled
   * payload of a branch testing it.
   */
  lemma RunSpec(d: Dispatcher, action: string, payload: Option<string>)
    ensures !Knows(d, action) ==> Run(d, action, payload) == d.unknownLead + action
    ensures Knows(d, action) ==>
      exists b :: b in d.branches && b.action == action && Run(d, action, payload) == b.lead + Fill(b.default, payload)
  {
  }

  /** `handle_task(task)`: `run(task)` with no payload. */
  function HandleTask(d: Dispatcher, task: string): string {
    Run(d, task, None)
  }

  /**
   * `handle_task` uses the task text as the action name: a task naming a
   * known action gets that branch's default reply, any other task gets the
   * unknown-action reply naming the task.
   */
  lemma HandleTaskUsesTaskAsAction(d: Dispatcher, task: string)
    ensures !Knows(d, task) ==> HandleTask(d, task) == d.unknownLead + task
    ensures Knows(d, task) ==>
      exists b :: b in d.branches && b.action == task && HandleTask(d, task) == b.lead + Fill(b.default, None)
    ensures HandleTask(d, task) == Run(d, task, Some(""))
  {
    RunSpec(d, task, None);
  }

  /** Two texts disagree at some position both of them have. */
  predicate Diverge(a: string, b: string) {
    exists i :: 0 <= i < |a| && i < |b| && a[i] != b[i]
  }

  /** No known branch's reply can be mistaken for an unknown-action reply. */
  predicate WellFormed(d: Dispatcher) {
    forall i :: 0 <= i < |d.branches| ==> Diverge(d.branches[i].lead, d.unknownLead)
  }

  lemma DivergeNotEqual(a: string, x: string, b: string, y: string)
    requires Diverge(a, b)
    ensures a + x != b + y
  {
    var i :| 0 <= i < |a| && i < |b| && a[i] != b[i];
    assert (a + x)[i] == a[i];
    assert (b + y)[i] == b[i];
  }

  /**
   * For a well-formed agent the reply is the unknown-action reply exactly
   * when the action is not one of the agent's branches.
   */
  lemma RunUnknownIff(d: Dispatcher, action: string, payload: Option<string>)
    requires WellFormed(d)
    ensures Run(d, action, payload) == d.unknownLead + action <==> !Knows(d, action)
  {
    RunSpec(d, action, payload);
    if Knows(d, action) {
      var b :| b in d.branches && b.action == action
        && Run(d, action, payload) == b.lead + Fill(b.default, payload);
      var i :| 0 <= i < |d.branches| && d.branches[i] == b;
      DivergeNotEqual(b.lead, Fill(b.default, payload), d.unknownLead, action);
    }
  }

  /** Because the defaults use `or`, an empty payload answers exactly like a missing one. */
  lemma EmptyPayloadIsMissing(d: Dispatcher, action: string)
    ensures Run(d, action, Some("")) == Run(d, action, None)
  {
  }

  /** The first branch testing `bs[i].action` is `bs[i]` when no earlier branch tests it. */
  lemma {:induction false} FindAt(bs: seq<Branch>, i: nat)
    requires i < |bs|
    requires forall j :: 0 <= j < i ==> bs[j].action != bs[i].action
    ensures Find(bs, bs[i].action) == Some(bs[i])
  {
    if i > 0 {
      assert bs[0].action != bs[i].action;
      FindAt(bs[1..], i - 1);
    }
  }

  /** A branch no earlier branch shadows answers with its lead and filled payload. */
  lemma RunAt(d: Dispatcher, i: nat, payload: Option<string>)
    requires i < |d.branches|
    requires forall j :: 0 <= j < i ==> d.branches[j].action != d.branches[i].action
    ensures Run(d, d.branches[i].action, payload) == d.branches[i].lead + Fill(d.branches[i].default, payload)
  {
    FindAt(d.branches, i);
  }

  /** An action equal to none of the listed names is unknown to an agent whose branches test exactly those names. */
  lemma RunUnknown(d: Dispatcher, names: seq<string>, action: string, payload: Option<string>)
    requires |names| == |d.branches|
    requires forall i :: 0 <= i < |names| ==> d.branches[i].action == names[i]
    requires action !in names
    ensures Run(d, action, payload) == d.unknownLead + action
  {
    assert Find(d.branches, action).None?;
  }

  /** When no lead, known or unknown, has character `c` at position `i`, no reply has it there either. */
  lemma RunCharAt(d: Dispatcher, action: string, payload: Option<string>, i: nat, c: char)
    requires forall j :: 0 <= j < |d.branches| ==> i < |d.branches[j].lead| && d.branches[j].lead[i] != c
    requires i < |d.unknownLead| && d.unknownLead[i] != c
    ensures i < |Run(d, action, payload)| && Run(d, action, payload)[i] != c
  {
    RunSpec(d, action, payload);
    if Knows(d, action) {
      var b :| b in d.branches && b.action == action && Run(d, action, payload) == b.lead + Fill(b.default, payload);
      var j :| 0 <= j < |d.branches| && d.branches[j] == b;
    }
  }

  // ---------------------------------------------------------------------
  // The four agents
  // ---------------------------------------------------------------------

  /** `DevAgent.run` (dev.py). */
  const Dev := Dispatcher([
    Branch("react_component", "[DevAgent] Writing React component for ", Some("feature")),
    Branch("fix_backend_bug", "[DevAgent] Fixing backend bug: ", Some("issue")),
    Branch("tailwind_card", "[DevAgent] Generating Tailwind card for ", Some("content"))
  ], "[DevAgent] Unknown action: ")

  /** `GrowthAgent.run` of growth.py (not the echo agent of growth_agent.py). */
  const GrowthActions := Dispatcher([
    Branch("slideshow", "[GrowthAgent] Creating slideshow for ", Some("general topic")),
    Branch("dm", "[GrowthAgent] Sending follow-up DM to ", Some("target")),
    Branch("scrape", "[GrowthAgent] Scraping competitor ", Some("profile"))
  ], "[GrowthAgent] Unknown action: ")

  /** `OpsAgent.run` (ops.py); `stats` ignores its payload. */
  const Ops := Dispatcher([
    Branch("queue_task", "[OpsAgent] Queued task: ", Some("task")),
    Branch("stats", "[OpsAgent] Reporting system stats", None),
    Branch("notify", "[OpsAgent] Sending notification: ", Some("message"))
  ], "[OpsAgent] Unknown action: ")

  /** `SupportAgent.run` of support.py (not the echo agent of support_agent.py). */
  const SupportActions := Dispatcher([
    Branch("reply_dm", "[SupportAgent] Replying to DM: ", Some("message")),
    Branch("reply_comment", "[SupportAgent] Replying to comment: ", Some("comment"))
  ], "[SupportAgent] Unknown action: ")

  /** The actions each agent page offers as buttons (the Dev, Growth, Ops and Support pages under frontend/src/pages/agents). */
  const DevPageActions: seq<string> := ["react_component", "fix_backend_bug", "tailwind_card"]
  const GrowthPageActions: seq<string> := ["slideshow", "dm", "scrape"]
  const OpsPageActions: seq<string> := ["queue_task", "stats", "notify"]
  const SupportPageActions: seq<string> := ["reply_dm", "reply_comment"]

  lemma DevWellFormed()
    ensures WellFormed(Dev)
  {
    var u := Dev.unknownLead;
    assert Dev.branches[0].lead[11] != u[11];
    assert Dev.branches[1].lead[11] != u[11];
    assert Dev.branches[2].lead[11] != u[11];
  }

  lemma GrowthActionsWellFormed()
    ensures WellFormed(GrowthActions)
  {
    var u := GrowthActions.unknownLead;
    assert GrowthActions.branches[0].lead[14] != u[14];
    assert GrowthActions.branches[1].lead[14] != u[14];
    assert GrowthActions.branches[2].lead[14] != u[14];
  }

  lemma OpsWellFormed()
    ensures WellFormed(Ops)
  {
    var u := Ops.unknownLead;
    assert Ops.branches[0].lead[11] != u[11];
    assert Ops.branches[1].lead[11] != u[11];
    assert Ops.branches[2].lead[11] != u[11];
  }

  lemma SupportActionsWellFormed()
    ensures WellFormed(SupportActions)
  {
    var u := SupportActions.unknownLead;
    assert SupportActions.branches[0].lead[15] != u[15];
    assert SupportActions.branches[1].lead[15] != u[15];
  }

  /** The Dev agent's replies, branch by branch. */
  lemma DevReplies(action: string, payload: Option<string>)
    ensures Run(Dev, "react_component", payload) == "[DevAgent] Writing React component for " + OrDefault(payload, "feature")
    ensures Run(Dev, "fix_backend_bug", payload) == "[DevAgent] Fixing backend bug: " + OrDefault(payload, "issue")
    ensures Run(Dev, "tailwind_card", payload) == "[DevAgent] Generating Tailwind card for " + OrDefault(payload, "content")
    ensures action !in DevPageActions ==> Run(Dev, action, payload) == "[DevAgent] Unknown action: " + action
  {
    RunAt(Dev, 0, payload);
    RunAt(Dev, 1, payload);
    RunAt(Dev, 2, payload);
    if action !in DevPageActions {
      RunUnknown(Dev, DevPageActions, action, payload);
    }
  }

  /** The growth.py agent's replies, branch by branch. */
  lemma GrowthActionsReplies(action: string, payload: Option<string>)
    ensures Run(GrowthActions, "slideshow", payload) == "[GrowthAgent] Creating slideshow for " + OrDefault(payload, "general topic")
    ensures Run(GrowthActions, "dm", payload) == "[GrowthAgent] Sending follow-up DM to " + OrDefault(payload, "target")
    ensures Run(GrowthActions, "scrape", payload) == "[GrowthAgent] Scraping competitor " + OrDefault(payload, "profile")
    ensures action !in GrowthPageActions ==> Run(GrowthActions, action, payload) == "[GrowthAgent] Unknown action: " + action
  {
    RunAt(GrowthActions, 0, payload);
    RunAt(GrowthActions, 1, payload);
    RunAt(GrowthActions, 2, payload);
    if action !in GrowthPageActions {
      RunUnknown(GrowthActions, GrowthPageActions, action, payload);
    }
  }

  /** The Ops agent's replies, branch by branch; `stats` is the same whatever the payload. */
  lemma OpsReplies(action: string, payload: Option<string>)
    ensures Run(Ops, "queue_task", payload) == "[OpsAgent] Queued task: " + OrDefault(payload, "task")
    ensures Run(Ops, "stats", payload) == "[OpsAgent] Reporting system stats"
    ensures Run(Ops, "notify", payload) == "[OpsAgent] Sending notification: " + OrDefault(payload, "message")
    ensures action !in OpsPageActions ==> Run(Ops, action, payload) == "[OpsAgent] Unknown action: " + action
  {
    RunAt(Ops, 0, payload);
    assert Run(Ops, "stats", payload) == "[OpsAgent] Reporting system stats" by {
      RunAt(Ops, 1, payload);
    }
    RunAt(Ops, 2, payload);
    if action !in OpsPageActions {
      RunUnknown(Ops, OpsPageActions, action, payload);
    }
  }

  /** The support.py agent's replies, branch by branch. */
  lemma SupportActionsReplies(action: string, payload: Option<string>)
    ensures Run(SupportActions, "reply_dm", payload) == "[SupportAgent] Replying to DM: " + OrDefault(payload, "message")
    ensures Run(SupportActions, "reply_comment", payload) == "[SupportAgent] Replying to comment: " + OrDefault(payload, "comment")
    ensures action !in SupportPageActions ==> Run(SupportActions, action, payload) == "[SupportAgent] Unknown action: " + action
  {
    RunAt(SupportActions, 0, payload);
    RunAt(SupportActions, 1, payload);
    if action !in SupportPageActions {
      RunUnknown(SupportActions, SupportPageActions, action, payload);
    }
  }

  /** Every button of every agent page reaches a known branch, never the unknown-action reply. */
  lemma PageActionsAreKnown(payload: Option<string>)
    ensures forall a :: a in DevPageActions ==> Knows(Dev, a) && Run(Dev, a, payload) != Dev.unknownLead + a
    ensures forall a :: a in GrowthPageActions ==> Knows(GrowthActions, a) && Run(GrowthActions, a, payload) != GrowthActions.unknownLead + a
    ensures forall a :: a in OpsPageActions ==> Knows(Ops, a) && Run(Ops, a, payload) != Ops.unknownLead + a
    ensures forall a :: a in SupportPageActions ==> Knows(SupportActions, a) && Run(SupportActions, a, payload) != SupportActions.unknownLead + a
  {
    DevPageKnown(payload);
    GrowthPageKnown(payload);
    OpsPageKnown(payload);
    SupportPageKnown(payload);
  }

  lemma DevPageKnown(payload: Option<string>)
    ensures forall a :: a in DevPageActions ==> Knows(Dev, a) && Run(Dev, a, payload) != Dev.unknownLead + a
  {
    DevWellFormed();
    forall a | a in DevPageActions ensures Knows(Dev, a) && Run(Dev, a, payload) != Dev.unknownLead + a {
      assert Find(Dev.branches, a).Some?;
      RunUnknownIff(Dev, a, payload);
    }
  }

  lemma GrowthPageKnown(payload: Option<string>)
    ensures forall a :: a in GrowthPageActions ==> Knows(GrowthActions, a) && Run(GrowthActions, a, payload) != GrowthActions.unknownLead + a
  {
    GrowthActionsWellFormed();
    forall a | a in GrowthPageActions
      ensures Knows(GrowthActions, a) && Run(GrowthActions, a, payload) != GrowthActions.unknownLead + a
    {
      assert Find(GrowthActions.branches, a).Some?;
      RunUnknownIff(GrowthActions, a, payload);
    }
  }

  lemma OpsPageKnown(payload: Option<string>)
    ensures forall a :: a in OpsPageActions ==> Knows(Ops, a) && Run(Ops, a, payload) != Ops.unknownLead + a
  {
    OpsWellFormed();
    forall a | a in OpsPageActions ensures Knows(Ops, a) && Run(Ops, a, payload) != Ops.unknownLead + a {
      assert Find(Ops.branches, a).Some?;
      RunUnknownIff(Ops, a, payload);
    }
  }

  lemma SupportPageKnown(payload: Option<string>)
    ensures forall a :: a in SupportPageActions ==> Knows(SupportActions, a) && Run(SupportActions, a, payload) != SupportActions.unknownLead + a
  {
    SupportActionsWellFormed();
    forall a | a in SupportPageActions
      ensures Knows(SupportActions, a) && Run(SupportActions, a, payload) != SupportActions.unknownLead + a
    {
      assert Find(SupportActions.branches, a).Some?;
      RunUnknownIff(SupportActions, a, payload);
    }
  }
}

=== FILE: agent_manager.dfy ===
/**
 * Agent folders of ajax_system/core/agent.py: create-if-absent agents
 * with a config and a training.md, word-truncation summaries, and
 * training uploads whose text (for .txt, .md and .docx files) may be
 * summarised into training.md. Decoding bytes and reading .docx files
 * happen outside the model: their results are parameters.
 */
module AgentManager {
  import opened Wrappers
  import opened Text
  import opened SystemStore
  import opened Memory

  // ---------------------------------------------------------------------
  // Summaries
  // ---------------------------------------------------------------------

  /** The default word budget of `_summarise_text`. */
  const DefaultMaxWords: nat := 200

  /**
   * `_summarise_text`: text with at most `maxWords` words is only
   * stripped; longer text is cut to its first `maxWords` words, joined by
   * single spaces, followed by "...".
   */
  function SummariseText(text: string, maxWords: nat): (r: string)
    ensures |Words(text)| <= maxWords ==> r == PyStrip(text)
    ensures |Words(text)| > maxWords ==>
      |r| >= 3 && r[|r| - 3..] == "..." && Words(r[..|r| - 3]) == Words(text)[..maxWords]
    ensures |Words(text)| > maxWords ==> r == Join(Words(text)[..maxWords], " ") + "..."
  {
    var words := Words(text);
    if |words| <= maxWords then PyStrip(text)
    else
      var kept := words[..maxWords];
      StripOfJoinedWords(kept);
      WordsOfJoin(kept);
      var r := PyStrip(Join(kept, " ")) + "...";
      assert r[..|r| - 3] == Join(kept, " ");
      r
  }

  /** A summary of long text keeps exactly the word budget before the ellipsis. */
  lemma SummaryWordCount(text: string, maxWords: nat)
    ensures |Words(text)| > maxWords ==>
      var r := SummariseText(text, maxWords);
      |Words(r[..|r| - 3])| == maxWords
  {
  }

  /** Whitespace-only text has no words, and its summary is empty. */
  lemma BlankTextHasEmptySummary(text: string, maxWords: nat)
    requires AllSatisfy(text, IsPyWs)
    ensures SummariseText(text, maxWords) == ""
  {
    assert LeadingCount(text, IsPyWs) == |text|;
    assert text[|text|..] == [];
  }

  // ---------------------------------------------------------------------
  // File extensions
  // ---------------------------------------------------------------------

  /** The index of the last `c` in `s`, or -1. */
  function LastIndex(s: string, c: char): (i: int)
    ensures -1 <= i < |s|
    ensures i >= 0 ==> s[i] == c
    ensures forall j :: i < j < |s| ==> s[j] != c
  {
    if s == [] then -1
    else if s[|s| - 1] == c then |s| - 1
    else LastIndex(s[..|s| - 1], c)
  }

  /**
   * The extension `os.path.splitext` reports: from the last dot of the
   * last path component, provided that component has a non-dot character
   * before it; otherwise "".
   */
  function Ext(p: string): (e: string)
    ensures |e| <= |p|
    ensures e == [] || (e[0] == '.' && e == p[|p| - |e|..])
    ensures e != [] ==> '.' !in e[1..] && '/' !in e
  {
    var sep := LastIndex(p, '/');
    var dot := LastIndex(p, '.');
    if dot > sep && exists i :: sep + 1 <= i < dot && p[i] != '.' then
      assert forall j :: dot < j < |p| ==> p[j] != '.' && p[j] != '/';
      assert forall j :: 0 <= j < |p| - dot - 1 ==> p[dot..][1..][j] == p[dot + 1 + j];
      p[dot..]
    else []
  }

  /**
   * A path whose last component has a dot with some non-dot character
   * before it reports everything from that last dot on: "archive.tar.gz"
   * gives ".gz", "dir/a.txt" gives ".txt", "a..b" gives ".b".
   */
  lemma {:induction false} ExtOfName(dir: string, stem: string, ext: string)
    requires dir == [] || dir[|dir| - 1] == '/'
    requires '/' !in stem && exists k :: 0 <= k < |stem| && stem[k] != '.'
    requires '.' !in ext && '/' !in ext
    ensures Ext(dir + stem + "." + ext) == "." + ext
  {
    var p := dir + stem + "." + ext;
    var dot := |dir| + |stem|;
    assert p[dot] == '.';
    assert forall j :: dot < j < |p| ==> p[j] == ext[j - dot - 1];
    assert LastIndex(p, '.') == dot;
    assert forall j :: |dir| <= j < |p| ==> p[j] != '/' by {
      forall j | |dir| <= j < |p| ensures p[j] != '/' {
        if j < dot { assert p[j] == stem[j - |dir|]; }
      }
    }
    if dir != [] { assert p[|dir| - 1] == '/'; }
    assert LastIndex(p, '/') == |dir| - 1;
    var k :| 0 <= k < |stem| && stem[k] != '.';
    assert p[|dir| + k] == stem[k];
    assert p[dot..] == "." + ext;
  }

  /**
   * A path whose last component has no dot after a non-dot character (no
   * dot at all, or only leading dots as in ".env" or "..") has no
   * extension.
   */
  lemma {:induction false} NoExtOfName(dir: string, name: string)
    requires dir == [] || dir[|dir| - 1] == '/'
    requires '/' !in name
    requires forall i, j :: 0 <= i < j < |name| && name[j] == '.' ==> name[i] == '.'
    ensures Ext(dir + name) == ""
  {
    var p := dir + name;
    assert forall j :: |dir| <= j < |p| ==> p[j] == name[j - |dir|];
    if dir != [] { assert p[|dir| - 1] == '/'; }
    assert LastIndex(p, '/') == |dir| - 1;
    var dot := LastIndex(p, '.');
    if dot > |dir| - 1 {
      assert name[dot - |dir|] == '.';
      assert forall i :: |dir| <= i < dot ==> p[i] == '.';
    }
  }

  /** A dot file such as ".env" has no extension. */
  lemma DotFileHasNoExt(name: string)
    requires '.' !in name && '/' !in name
    ensures Ext("." + name) == ""
  {
    var p := "." + name;
    assert p[0] == '.';
    assert forall j :: 1 <= j < |p| ==> p[j] == name[j - 1] && name[j - 1] in name;
    assert LastIndex(p, '.') == 0;
  }

  /** The extension read from the lowercased suffix, as the upload compares it. */
  function LowerExt(filename: string): string {
    Lower(Ext(filename))
  }

  // ---------------------------------------------------------------------
  // Agents
  // ---------------------------------------------------------------------

  /** `list_agents`: the agent directories (the source lists them in directory order). */
  function ListAgents(s: Store): set<string> {
    s.agents.Keys
  }

  /** The training.md a new agent starts with. */
  function InitialTraining(name: string, baseBehavior: string): (t: string)
    ensures "# Training for " + name + "\n\n" <= t
    ensures baseBehavior == "" ==> t == "# Training for " + name + "\n\n"
    ensures baseBehavior != "" ==>
      t == "# Training for " + name + "\n\n" + "Base behaviour: " + baseBehavior + "\n"
  {
    var header := "# Training for " + name + "\n\n";
    if baseBehavior != "" then header + ("Base behaviour: " + baseBehavior + "\n") else header
  }

  /**
   * `create_agent`: an existing agent fails with the `FileExistsError`
   * message and changes nothing. A new one gets a config with no
   * permissions and its initial training.md, keeps any knowledge folder
   * already there (or gets an empty one), and one 'done' task
   * "Created agent '<name>'" is logged.
   */
  function CreateAgent(s: Store, name: string, role: string, baseBehavior: string, createdAt: string, now: string)
    : (r: Result<Store, string>)
    ensures r.Failure? <==> name in ListAgents(s)
    ensures r.Failure? ==> r.error == "Agent '" + name + "' already exists"
    ensures r.Success? ==>
      && r.value.agents == s.agents[name := AgentDir(AgentConfig(name, role, baseBehavior, createdAt, []),
                                                     InitialTraining(name, baseBehavior))]
      && name in r.value.knowledge
      && (forall a :: a in s.knowledge ==> a in r.value.knowledge && r.value.knowledge[a] == s.knowledge[a])
      && (name !in s.knowledge ==> r.value.knowledge[name] == map[])
      && GetTasks(r.value) == GetTasks(s) + [Task(|GetTasks(s)| + 1, "Created agent '" + name + "'", "done", now)]
      && r.value == s.(agents := r.value.agents, knowledge := r.value.knowledge, tasks := r.value.tasks)
  {
    if name in s.agents then Failure("Agent '" + name + "' already exists")
    else
      var config := AgentConfig(name, role, baseBehavior, createdAt, []);
      var knowledge := if name in s.knowledge then s.knowledge else s.knowledge[name := map[]];
      var s1 := s.(agents := s.agents[name := AgentDir(config, InitialTraining(name, baseBehavior))], knowledge := knowledge);
      Success(LogDone(s1, "Created agent '" + name + "'", now))
  }

  /** The text an upload yields: .txt and .md decode, .docx extracts (None when extraction raised), anything else is "". */
  function ExtractedText(filename: string, decoded: string, docxText: Option<string>): (text: string)
    ensures LowerExt(filename) in {".txt", ".md"} ==> text == decoded
    ensures LowerExt(filename) == ".docx" ==> text == docxText.GetOr("")
    ensures LowerExt(filename) !in {".txt", ".md", ".docx"} ==> text == ""
  {
    var ext := LowerExt(filename);
    if ext in {".txt", ".md"} then decoded
    else if ext == ".docx" then docxText.GetOr("")
    else ""
  }

  /** The section an upload adds to training.md: empty when there is no summary. */
  function SummarySection(filename: string, summary: string): (sec: string)
    ensures summary == "" ==> sec == ""
    ensures summary != "" ==> sec == "\n## Summary of " + filename + "\n\n" + summary + "\n"
  {
    if summary == "" then "" else "\n## Summary of " + filename + "\n\n" + summary + "\n"
  }

  /**
   * The section an upload adds to training.md: the summary of the text
   * extracted from the file, when there is text, summarising is on and
   * the summary is non-empty; otherwise nothing.
   */
  function TrainingSection(filename: string, decoded: string, docxText: Option<string>, summarise: bool): (sec: string)
    ensures !summarise ==> sec == ""
    ensures ExtractedText(filename, decoded, docxText) == "" ==> sec == ""
    ensures summarise && ExtractedText(filename, decoded, docxText) != "" ==>
      sec == SummarySection(filename, SummariseText(ExtractedText(filename, decoded, docxText), DefaultMaxWords))
  {
    var text := ExtractedText(filename, decoded, docxText);
    var summary := if text != "" && summarise then SummariseText(text, DefaultMaxWords) else "";
    SummarySection(filename, summary)
  }

  /**
   * A received training file for a known agent: the raw bytes land in
   * the agent's knowledge folder, `section` is appended to its
   * training.md, and one 'done' task "Training file received: <filename>"
   * is logged; no other agent and no other stored file of the agent
   * changes.
   */
  function Receive(s: Store, agentName: string, filename: string, content: Bytes, section: string, now: string)
    : (s': Store)
    requires agentName in s.agents
    ensures agentName in s'.knowledge && filename in s'.knowledge[agentName]
    ensures s'.knowledge[agentName][filename] == content
    ensures agentName in s.knowledge ==>
      forall f :: f in s.knowledge[agentName] && f != filename ==> f in s'.knowledge[agentName] && s'.knowledge[agentName][f] == s.knowledge[agentName][f]
    ensures s'.agents.Keys == s.agents.Keys
    ensures s'.agents[agentName] == s.agents[agentName].(training := s.agents[agentName].training + section)
    ensures forall a :: a in s.agents && a != agentName ==> s'.agents[a] == s.agents[a]
    ensures GetTasks(s') == GetTasks(s) + [Task(|GetTasks(s)| + 1, "Training file received: " + filename, "done", now)]
  {
    var folder := if agentName in s.knowledge then s.knowledge[agentName] else map[];
    var knowledge := s.knowledge[agentName := folder[filename := content]];
    var dir := s.agents[agentName];
    var agents := s.agents[agentName := dir.(training := dir.training + section)];
    LogDone(s.(knowledge := knowledge, agents := agents), "Training file received: " + filename, now)
  }

  /**
   * `upload_training_file`: an unknown agent fails before anything is
   * written; a known one receives the file with the section its text
   * yields, whatever the format.
   */
  function UploadTrainingFile(s: Store, agentName: string, filename: string, content: Bytes,
                              decoded: string, docxText: Option<string>, summarise: bool, now: string)
    : (r: Result<Store, string>)
    ensures r.Failure? <==> agentName !in s.agents
    ensures r.Failure? ==> r.error == "Agent " + agentName + " not found"
    ensures r.Success? ==>
      r.value == Receive(s, agentName, filename, content, TrainingSection(filename, decoded, docxText, summarise), now)
  {
    if agentName !in s.agents then Failure("Agent " + agentName + " not found")
    else Success(Receive(s, agentName, filename, content, TrainingSection(filename, decoded, docxText, summarise), now))
  }

  /** Files of other formats are stored and logged, but never touch training.md. */
  lemma OtherFormatsLeaveTraining(s: Store, agentName: string, filename: string, content: Bytes,
                                  decoded: string, docxText: Option<string>, summarise: bool, now: string)
    requires agentName in s.agents
    requires LowerExt(filename) !in {".txt", ".md", ".docx"}
    ensures UploadTrainingFile(s, agentName, filename, content, decoded, docxText, summarise, now)
              .value.agents[agentName] == s.agents[agentName]
  {
    assert s.agents[agentName].training + "" == s.agents[agentName].training;
  }

  /** With summarising off, training.md is never touched either. */
  lemma NoSummaryWhenOff(s: Store, agentName: string, filename: string, content: Bytes,
                         decoded: string, docxText: Option<string>, now: string)
    requires agentName in s.agents
    ensures UploadTrainingFile(s, agentName, filename, content, decoded, docxText, false, now)
              .value.agents[agentName] == s.agents[agentName]
  {
    assert s.agents[agentName].training + "" == s.agents[agentName].training;
  }

  /** Text that is blank once extracted adds no section, whatever the format and flag. */
  lemma BlankUploadAddsNoSection(filename: string, decoded: string, docxText: Option<string>, summarise: bool)
    requires AllSatisfy(ExtractedText(filename, decoded, docxText), IsPyWs)
    ensures TrainingSection(filename, decoded, docxText, summarise) == ""
  {
    var text := ExtractedText(filename, decoded, docxText);
    if text != "" && summarise {
      BlankTextHasEmptySummary(text, DefaultMaxWords);
    }
  }

  /**
   * An agent that has just been created is listed and accepts uploads,
   * and creating it a second time fails.
   */
  lemma CreateThenUpload(s: Store, name: string, role: string, baseBehavior: string, createdAt: string, now: string,
                         filename: string, content: Bytes, decoded: string, docxText: Option<string>, summarise: bool)
    requires name !in ListAgents(s)
    ensures var s' := CreateAgent(s, name, role, baseBehavior, createdAt, now).value;
      && ListAgents(s') == ListAgents(s) + {name}
      && UploadTrainingFile(s', name, filename, content, decoded, docxText, summarise, now).Success?
      && CreateAgent(s', name, role, baseBehavior, createdAt, now) == Failure("Agent '" + name + "' already exists")
  {
  }
}

=== FILE: ajax_core.dfy ===
/**
 * The dual-personality Ajax agent (core/ajax_ai.py): a presence flag that
 * selects the Ajax or the Logan personality, replies framed by that
 * personality's first example phrase, and a registry of named sub-agents
 * to which tasks are delegated.
 */
module AjaxCore {
  import opened Wrappers
  import opened Text
  import opened EchoAgents
  import opened ActionAgents

  datatype Personality = Personality(description: string, examplePhrases: seq<string>)

  /** `Personality.choose_phrase`: the first example phrase, or "" when there is none. */
  function ChoosePhrase(p: Personality): (r: string)
    ensures p.examplePhrases != [] ==> r == p.examplePhrases[0]
    ensures p.examplePhrases == [] ==> r == ""
  {
    if p.examplePhrases != [] then p.examplePhrases[0] else ""
  }

  const AjaxPersonality := Personality(
    "Helpful, confident best friend.  Casual, bold, smart and real \U{2014}"
    + " acts like Logan\U{2019}s right\U{2011}hand person when he\U{2019}s present.",
    ["On it, boss!",
     "Got you.",
     "Here\U{2019}s what we\U{2019}ll do.",
     "Let me handle that while you crush the big stuff.",
     "I\U{2019}ll make it happen."])

  const LoganPersonality := Personality(
    "Direct, informal and competitive business owner.  Speaks with"
    + " authority, urgency and authenticity.",
    ["DM me now and let\U{2019}s make it happen.",
     "Here\U{2019}s how we\U{2019}ll hit that 10K/month.",
     "I built this from zero \U{2014} so can you.",
     "No gimmicks.  Just results."])

  /** Any agent that can sit in the registry: one of the echo agents or one of the action dispatchers. */
  datatype Agent = EchoAgent(kind: EchoKind) | ActionAgent(dispatcher: Dispatcher)

  /** `BaseAgent.handle_task`, dispatched on the concrete agent. */
  function AgentHandleTask(a: Agent, task: string): string {
    match a
    case EchoAgent(k) => EchoReply(k, task)
    case ActionAgent(d) => HandleTask(d, task)
  }

  datatype AjaxAI = AjaxAI(isLoganPresent: bool, registry: map<string, Agent>)

  datatype RegistryError =
    | AlreadyRegistered(name: string)   // ValueError
    | NotRegistered(name: string)       // KeyError

  /** The message the exception carries. */
  function ErrorMessage(e: RegistryError): string {
    match e
    case AlreadyRegistered(n) => "Agent '" + n + "' is already registered."
    case NotRegistered(n) => "No agent registered under name '" + n + "'."
  }

  /** `AjaxAI()`: Logan present by default, empty registry. */
  function NewAjax(isLoganPresent: bool): AjaxAI {
    AjaxAI(isLoganPresent, map[])
  }

  /**
   * `register_agent`: a new name adds exactly that entry; an existing name
   * fails and leaves the registry as it was.
   */
  function RegisterAgent(ai: AjaxAI, name: string, agent: Agent): (r: Result<AjaxAI, RegistryError>)
    ensures name in ai.registry <==> r.Failure?
    ensures r.Failure? ==> r.error == AlreadyRegistered(name)
    ensures r.Success? ==>
      && r.value.isLoganPresent == ai.isLoganPresent
      && r.value.registry.Keys == ai.registry.Keys + {name}
      && r.value.registry[name] == agent
      && (forall n :: n in ai.registry ==> r.value.registry[n] == ai.registry[n])
  {
    if name in ai.registry then Failure(AlreadyRegistered(name))
    else Success(ai.(registry := ai.registry[name := agent]))
  }

  /**
   * `delegate`: an unregistered name fails with the missing-name error; a
   * registered one answers with that agent's `handle_task`.
   */
  function Delegate(ai: AjaxAI, name: string, task: string): (r: Result<string, RegistryError>)
    ensures name !in ai.registry <==> r.Failure?
    ensures r.Failure? ==> r.error == NotRegistered(name)
    ensures r.Success? ==> r.value == AgentHandleTask(ai.registry[name], task)
  {
    if name !in ai.registry then Failure(NotRegistered(name))
    else Success(AgentHandleTask(ai.registry[name], task))
  }

  /** The lead-in phrase of the personality that the presence flag selects. */
  function LeadIn(isLoganPresent: bool): string {
    ChoosePhrase(if isLoganPresent then AjaxPersonality else LoganPersonality)
  }

  /** What separates the lead-in from the prompt: " — " for Ajax, " " for Logan. */
  function Separator(isLoganPresent: bool): string {
    if isLoganPresent then " \U{2014} " else " "
  }

  /**
   * `generate_response`: the selected personality's first phrase, the
   * mode's separator, then the prompt verbatim.
   */
  function GenerateResponse(isLoganPresent: bool, prompt: string): (r: string)
    ensures |r| == |LeadIn(isLoganPresent)| + |Separator(isLoganPresent)| + |prompt|
    ensures LeadIn(isLoganPresent) <= r
    ensures r[|r| - |prompt|..] == prompt
    ensures r[|LeadIn(isLoganPresent)|..|r| - |prompt|] == Separator(isLoganPresent)
  {
    LeadIn(isLoganPresent) + Separator(isLoganPresent) + prompt
  }

  /** `AjaxAI.handle_task`: processing a task addressed to Ajax is generating a response to it. */
  function AjaxHandleTask(ai: AjaxAI, task: string): string {
    GenerateResponse(ai.isLoganPresent, task)
  }

  lemma AjaxHandleTaskIsResponse(ai: AjaxAI, task: string)
    ensures AjaxHandleTask(ai, task) == GenerateResponse(ai.isLoganPresent, task)
    ensures AjaxHandleTask(ai, task)[|AjaxHandleTask(ai, task)| - |task|..] == task
  {
  }

  /**
   * In both modes the reply starts with that mode's first phrase and
   * contains the prompt; for the same prompt the two modes never agree.
   */
  lemma {:induction false} ModesFrameThePrompt(prompt: string)
    ensures AjaxPersonality.examplePhrases[0] <= GenerateResponse(true, prompt)
    ensures LoganPersonality.examplePhrases[0] <= GenerateResponse(false, prompt)
    ensures Contains(GenerateResponse(true, prompt), prompt)
    ensures Contains(GenerateResponse(false, prompt), prompt)
    ensures GenerateResponse(true, prompt) != GenerateResponse(false, prompt)
  {
    var ra := GenerateResponse(true, prompt);
    var rl := GenerateResponse(false, prompt);
    ContainsInfix(LeadIn(true) + Separator(true), prompt, []);
    assert ra == LeadIn(true) + Separator(true) + prompt + [];
    ContainsInfix(LeadIn(false) + Separator(false), prompt, []);
    assert rl == LeadIn(false) + Separator(false) + prompt + [];
    assert ra[0] == 'O' && rl[0] == 'D';
  }

  /** `build_default_ajax`. */
  function BuildDefaultAjax(): (ai: AjaxAI)
    ensures ai.isLoganPresent
    ensures ai.registry.Keys == {"investor", "fanpage", "support", "growth"}
    ensures ai.registry["investor"] == EchoAgent(Investor)
    ensures ai.registry["fanpage"] == EchoAgent(Fanpage)
    ensures ai.registry["support"] == EchoAgent(SupportEcho)
    ensures ai.registry["growth"] == EchoAgent(GrowthEcho)
  {
    var a0 := NewAjax(true);
    var a1 := RegisterAgent(a0, "investor", EchoAgent(Investor)).value;
    var a2 := RegisterAgent(a1, "fanpage", EchoAgent(Fanpage)).value;
    var a3 := RegisterAgent(a2, "support", EchoAgent(SupportEcho)).value;
    RegisterAgent(a3, "growth", EchoAgent(GrowthEcho)).value
  }

  /** Delegating on the default Ajax reaches the four echo agents its registry holds. */
  lemma DefaultDelegation(task: string)
    ensures Delegate(BuildDefaultAjax(), "investor", task) == Success(InvestorHandleTask(task))
    ensures Delegate(BuildDefaultAjax(), "fanpage", task) == Success(FanpageHandleTask(task))
    ensures Delegate(BuildDefaultAjax(), "support", task) == Success(SupportEchoHandleTask(task))
    ensures Delegate(BuildDefaultAjax(), "growth", task) == Success(GrowthEchoHandleTask(task))
  {
    var ai := BuildDefaultAjax();
    DelegateTo(ai, "investor", EchoAgent(Investor), task);
    DelegateTo(ai, "fanpage", EchoAgent(Fanpage), task);
    DelegateTo(ai, "support", EchoAgent(SupportEcho), task);
    DelegateTo(ai, "growth", EchoAgent(GrowthEcho), task);
  }

  lemma DelegateTo(ai: AjaxAI, name: string, agent: Agent, task: string)
    requires name in ai.registry && ai.registry[name] == agent
    ensures Delegate(ai, name, task) == Success(AgentHandleTask(agent, task))
  {
  }

  /**
   * The registry's "support" and "growth" are the echo agents, not the
   * dispatching agents of the same class name: whatever the task, even
   * one naming an action such as `reply_dm`, it is echoed and never
   * performed.
   */
  lemma DefaultSupportNeverPerforms(task: string)
    ensures Delegate(BuildDefaultAjax(), "support", task) != Success(Run(SupportActions, task, None))
  {
    DefaultDelegation(task);
    SupportEchoAt(task);
    SupportLeadsAt();
    RunCharAt(SupportActions, task, None, 15, 'P');
  }

  /** Position 15 tells the two support agents apart: 'P' of "Processing" in the echo... */
  lemma SupportEchoAt(task: string)
    ensures 15 < |SupportEchoHandleTask(task)| && SupportEchoHandleTask(task)[15] == 'P'
  {
    var r := SupportEchoHandleTask(task);
    assert r == EchoReply(SupportEcho, task);
    assert |Tag(SupportEcho)| == 14;
    assert r[15] == Lead(SupportEcho)[15] == " Processing task: "[1];
  }

  /** ...and 'R' or 'U' in every reply of support.py. */
  lemma SupportLeadsAt()
    ensures forall j :: 0 <= j < |SupportActions.branches| ==>
      15 < |SupportActions.branches[j].lead| && SupportActions.branches[j].lead[15] != 'P'
    ensures 15 < |SupportActions.unknownLead| && SupportActions.unknownLead[15] != 'P'
  {
  }

  /** Likewise "growth" echoes every task, `slideshow` included, and never runs the growth.py actions. */
  lemma DefaultGrowthNeverPerforms(task: string)
    ensures Delegate(BuildDefaultAjax(), "growth", task) != Success(Run(GrowthActions, task, None))
  {
    DefaultDelegation(task);
    GrowthEchoAt(task);
    GrowthLeadsAt();
    RunCharAt(GrowthActions, task, None, 14, 'P');
  }

  lemma GrowthEchoAt(task: string)
    ensures 14 < |GrowthEchoHandleTask(task)| && GrowthEchoHandleTask(task)[14] == 'P'
  {
    var r := GrowthEchoHandleTask(task);
    assert r == EchoReply(GrowthEcho, task);
    assert |Tag(GrowthEcho)| == 13;
    assert r[14] == Lead(GrowthEcho)[14] == " Processing task: "[1];
  }

  lemma GrowthLeadsAt()
    ensures forall j :: 0 <= j < |GrowthActions.branches| ==>
      14 < |GrowthActions.branches[j].lead| && GrowthActions.branches[j].lead[14] != 'P'
    ensures 14 < |GrowthActions.unknownLead| && GrowthActions.unknownLead[14] != 'P'
  {
  }

  /** Registering a name twice on the default Ajax fails and keeps the registry. */
  lemma DefaultRejectsDuplicate(agent: Agent)
    ensures RegisterAgent(BuildDefaultAjax(), "investor", agent) == Failure(AlreadyRegistered("investor"))
  {
  }
}

=== FILE: ajax_dashboard.dfy ===
/**
 * The dashboard of ajax_system/frontend/components/Dashboard.jsx: the
 * client's copy of the mode and the task timeline with their defaults,
 * the mode button that drives the server's /loganin and /loganout
 * handlers, the status icons, and the dark-mode class on the root.
 */
module AjaxDashboard {
  import opened Wrappers
  import opened SystemStore
  import opened Memory
  import Server

  /** The dashboard's own state. */
  datatype Dash = Dash(mode: string, tasks: seq<Task>, darkMode: bool)

  const Initial := Dash("Ajax", [], false)

  /** `data.mode || 'Ajax'`: an absent or empty mode reads as 'Ajax'. */
  function ModeOrDefault(m: Option<string>): (r: string)
    ensures r != ""
    ensures m.Some? && m.value != "" ==> r == m.value
    ensures m.None? || m.value == "" ==> r == "Ajax"
  {
    if m.Some? && m.value != "" then m.value else "Ajax"
  }

  /** `loadMode`: a failed fetch leaves the shown mode; an answer replaces it. */
  function LoadMode(d: Dash, f: Fetch<string>): (r: Dash)
    ensures r.tasks == d.tasks && r.darkMode == d.darkMode
    ensures f.FetchFailed? ==> r.mode == d.mode
    ensures f.Got? ==> r.mode == ModeOrDefault(f.field)
  {
    match f
    case FetchFailed => d
    case Got(m) => d.(mode := ModeOrDefault(m))
  }

  /** `loadTasks`: a failed fetch leaves the timeline; a missing `tasks` field reads as no tasks. */
  function LoadTasks(d: Dash, f: Fetch<seq<Task>>): (r: Dash)
    ensures r.mode == d.mode && r.darkMode == d.darkMode
    ensures f.FetchFailed? ==> r.tasks == d.tasks
    ensures f.Got? && f.field.None? ==> r.tasks == []
    ensures f.Got? && f.field.Some? ==> r.tasks == f.field.value
  {
    match f
    case FetchFailed => d
    case Got(ts) => d.(tasks := ts.GetOr([]))
  }

  /** The mode the server's /mode handler reports for a store. */
  function ServerMode(s: Store): (m: string)
    ensures m == GetMode(s)
  {
    match Server.Handle(s, Server.GetModeReq, "").1.body
    case ModeBody(m) => m
    case _ => assert false; ""
  }

  /**
   * `toggleMode` against the server: /loganin when the shown mode is
   * 'Logan', /loganout otherwise, then a fresh /mode fetch. `switched`
   * says whether the switch fetch was answered: a rejected one throws out
   * of the handler before `loadMode`, and is taken as a request the server
   * never saw. `reloaded` says whether the /mode fetch was answered.
   */
  function ToggleMode(d: Dash, s: Store, now: string, switched: bool, reloaded: bool): (r: (Dash, Store))
    ensures !switched ==> r == (d, s)
    ensures switched ==> r.1 == (if d.mode == "Logan" then Server.LoganIn(s, now).0 else Server.LoganOut(s, now).0)
    ensures switched && reloaded ==> r.0 == d.(mode := ModeOrDefault(Some(ServerMode(r.1))))
    ensures switched && !reloaded ==> r.0 == d
  {
    if !switched then (d, s)
    else
      var s' := if d.mode == "Logan" then Server.Handle(s, Server.LoganInReq, now).0
                else Server.Handle(s, Server.LoganOutReq, now).0;
      (LoadMode(d, if reloaded then Got(Some(ServerMode(s'))) else FetchFailed), s')
  }

  /**
   * Each answered click lands the server on the other persona: 'Ajax'
   * after 'Logan', 'Logan' after anything else. The page shows it once the
   * reload is answered, and keeps showing the old mode otherwise.
   */
  lemma ToggleSwitchesPersona(d: Dash, s: Store, now: string, switched: bool, reloaded: bool)
    ensures var (d', s') := ToggleMode(d, s, now, switched, reloaded);
      && (switched ==> GetMode(s') == (if d.mode == "Logan" then "Ajax" else "Logan"))
      && (switched && reloaded ==> d'.mode == GetMode(s'))
      && (!(switched && reloaded) ==> d'.mode == d.mode)
  {
  }

  /**
   * Two answered clicks restore the shown mode exactly when it was one of
   * the two personas; any other value (say a stale or unknown mode) comes
   * back as 'Ajax'.
   */
  lemma ToggleTwiceAlternates(d: Dash, s: Store, now1: string, now2: string)
    ensures var (d1, s1) := ToggleMode(d, s, now1, true, true);
      var (d2, s2) := ToggleMode(d1, s1, now2, true, true);
      && (d2.mode == d.mode <==> d.mode in {"Ajax", "Logan"})
      && (d.mode !in {"Ajax", "Logan"} ==> d2.mode == "Ajax")
  {
    ToggleSwitchesPersona(d, s, now1, true, true);
    var (d1, s1) := ToggleMode(d, s, now1, true, true);
    ToggleSwitchesPersona(d1, s1, now2, true, true);
  }

  /** Each answered click logs exactly one mode switch on the server's timeline; a rejected one logs nothing. */
  lemma ToggleLogsOneSwitch(d: Dash, s: Store, now: string, switched: bool, reloaded: bool)
    ensures var s' := ToggleMode(d, s, now, switched, reloaded).1;
      && (switched ==> GetTasks(s') == GetTasks(s) + [Task(|GetTasks(s)| + 1, "Switched mode to " + GetMode(s'), "done", now)])
      && (!switched ==> GetTasks(s') == GetTasks(s))
  {
  }

  /** The mode button's caption: the active persona first. */
  function ModeLabel(mode: string): (t: string)
    ensures mode == "Logan" ==> t == "Logan / Ajax"
    ensures mode != "Logan" ==> t == "Ajax / Logan"
  {
    if mode == "Logan" then "Logan / Ajax" else "Ajax / Logan"
  }

  /** For either persona the caption starts with it. */
  lemma LabelStartsWithActive(mode: string)
    requires mode in {"Ajax", "Logan"}
    ensures ModeLabel(mode)[..|mode|] == mode
  {
  }

  /** The icon shown beside a task of the timeline. */
  function StatusIcon(status: string): (icon: string)
    ensures status == "done" ==> icon == "✅"
    ensures status == "failed" ==> icon == "❌"
    ensures status != "done" && status != "failed" ==> icon == "⏳"
  {
    if status == "done" then "✅" else if status == "failed" then "❌" else "⏳"
  }

  /** A task the server has just added with its default status shows as waiting; one it logged as done shows a check. */
  lemma IconsOfServerTasks(s: Store, description: string, now: string)
    ensures StatusIcon(AddPendingTask(s, description, now).1.status) == "⏳"
    ensures StatusIcon(GetTasks(LogDone(s, description, now))[|GetTasks(s)|].status) == "✅"
  {
  }

  /** The dark-mode button. */
  function ToggleDark(d: Dash): (r: Dash)
    ensures r.darkMode != d.darkMode
    ensures r.(darkMode := d.darkMode) == d
  {
    d.(darkMode := !d.darkMode)
  }

  /** The dark-mode effect: the root's 'dark' class follows the flag; its other classes stay. */
  function ApplyDark(rootClasses: set<string>, darkMode: bool): (r: set<string>)
    ensures "dark" in r <==> darkMode
    ensures r - {"dark"} == rootClasses - {"dark"}
  {
    if darkMode then rootClasses + {"dark"} else rootClasses - {"dark"}
  }

  /** After the effect runs, the root is dark exactly when the flag says so, whatever it held before. */
  lemma DarkClassMatchesFlag(rootClasses: set<string>, d: Dash)
    ensures ("dark" in ApplyDark(rootClasses, ToggleDark(d).darkMode)) <==> !d.darkMode
  {
  }
}

=== FILE: app_shell.dfy ===
/**
 * The application shell of frontend/src/App.jsx: theme and open-brand
 * state that survive a reload through localStorage, the prompt that adds
 * a brand, the chat send with its single reply, and the newest-first
 * history view. localStorage is an explicit string map.
 */
module AppShell {
  import opened Wrappers
  import opened Text
  import opened Ui

  type Storage = map<string, string>

  /** `localStorage.getItem(key) || fallback`: a missing or empty entry gives the fallback. */
  function StoredOr(st: Storage, key: string, fallback: string): (v: string)
    ensures key in st && st[key] != "" ==> v == st[key]
    ensures key !in st || st[key] == "" ==> v == fallback
  {
    if key in st && st[key] != "" then st[key] else fallback
  }

  /** The theme on load: the stored one, else 'light'. */
  function InitialTheme(st: Storage): (t: string)
    ensures t != ""
    ensures "theme" in st && st["theme"] != "" ==> t == st["theme"]
  {
    StoredOr(st, "theme", "light")
  }

  /** The theme effect: every theme value is written back under 'theme'. */
  function PersistTheme(st: Storage, theme: string): (st': Storage)
    ensures "theme" in st' && st'["theme"] == theme
    ensures forall k :: k in st && k != "theme" ==> k in st' && st'[k] == st[k]
    ensures st'.Keys == st.Keys + {"theme"}
  {
    st["theme" := theme]
  }

  /** A theme the page has set is the theme it starts with after a reload. */
  lemma ThemeSurvivesReload(st: Storage, theme: string)
    requires theme != ""
    ensures InitialTheme(PersistTheme(st, theme)) == theme
  {
  }

  /** The open brand on load: the stored one, else none. */
  function InitialOpenBrand(st: Storage): (o: string)
    ensures "openBrand" in st ==> o == st["openBrand"]
    ensures "openBrand" !in st ==> o == ""
  {
    StoredOr(st, "openBrand", "")
  }

  /** The open-brand effect: a non-empty key is stored, an empty one removes the entry. */
  function PersistOpenBrand(st: Storage, open: string): (st': Storage)
    ensures open != "" ==> "openBrand" in st' && st'["openBrand"] == open
    ensures open == "" ==> "openBrand" !in st'
    ensures forall k :: k != "openBrand" ==> (k in st' <==> k in st)
    ensures forall k :: k in st && k != "openBrand" ==> st'[k] == st[k]
  {
    if open != "" then st["openBrand" := open] else st - {"openBrand"}
  }

  /** Every open-brand value, including none, is restored exactly after a reload. */
  lemma OpenBrandSurvivesReload(st: Storage, open: string)
    ensures InitialOpenBrand(PersistOpenBrand(st, open)) == open
  {
  }

  /** The shell's own state. */
  datatype Shell = Shell(brands: seq<Brand>, brand: string, openBrand: string, theme: string)

  /** The state after a load from storage, before any interaction. */
  function Load(st: Storage): (sh: Shell)
    ensures sh.brands == DefaultBrands && sh.brand == "remote100k"
    ensures sh.theme == InitialTheme(st) && sh.openBrand == InitialOpenBrand(st)
  {
    Shell(DefaultBrands, "remote100k", InitialOpenBrand(st), InitialTheme(st))
  }

  /**
   * A click on a brand's button toggles that brand's folder; when the
   * click lands on the name inside the button, the brand is selected as
   * well.
   */
  function ClickBrand(sh: Shell, key: string, onName: bool): (r: Shell)
    ensures r.brands == sh.brands && r.theme == sh.theme
    ensures r.brand == (if onName then key else sh.brand)
    ensures key != "" ==> (IsOpen(r.openBrand, key) <==> !IsOpen(sh.openBrand, key))
    ensures r.openBrand == "" || r.openBrand == key
  {
    sh.(brand := if onName then key else sh.brand, openBrand := Toggle(sh.openBrand, key))
  }

  /** The theme button. */
  function ToggleTheme(sh: Shell): (r: Shell)
    ensures r.theme in {"light", "dark"}
    ensures r.theme == "dark" <==> sh.theme == "light"
    ensures r.(theme := sh.theme) == sh
  {
    sh.(theme := FlipTheme(sh.theme))
  }

  /** Once the theme has been toggled, two more toggles change nothing. */
  lemma ToggleTwiceAfterFirst(sh: Shell)
    ensures ToggleTheme(ToggleTheme(ToggleTheme(sh))) == ToggleTheme(sh)
  {
    FlipTwice(FlipTheme(sh.theme));
  }

  /**
   * `addProject`: a cancelled (`None`) or empty prompt adds nothing;
   * otherwise a brand keyed by the slug of the name, named by the name as
   * typed, is appended. Keys already in use are not checked.
   */
  function AddProject(sh: Shell, name: Option<string>): (r: Shell)
    ensures name.None? || name.value == "" ==> r == sh
    ensures name.Some? && name.value != "" ==> r == sh.(brands := sh.brands + [Brand(Slug(name.value), name.value)])
  {
    if name.None? || name.value == "" then sh
    else sh.(brands := sh.brands + [Brand(Slug(name.value), name.value)])
  }

  /** Adding "Remote100K" to the defaults gives two brands with the key "remote100k". */
  lemma DuplicateKeyAccepted(name: string)
    requires name == "Remote100K"
    ensures var r := AddProject(Load(map[]), Some(name));
      |r.brands| == 4 && r.brands[0].key == r.brands[3].key == "remote100k"
  {
    var r := AddProject(Load(map[]), Some(name));
    assert r.brands == DefaultBrands + [Brand(Slug(name), name)];
    SlugOfDefaultName(name);
  }

  /** The default brand's display name lower-cases to its key and has no whitespace to replace. */
  lemma SlugOfDefaultName(name: string)
    requires name == "Remote100K"
    ensures Slug(name) == "remote100k"
  {
    LowerOfDefaultName(name);
    UnderscoreOfWord("remote100k");
  }

  lemma LowerOfDefaultName(name: string)
    requires name == "Remote100K"
    ensures Lower(name) == "remote100k"
  {
    assert forall i :: 0 <= i < |name| ==> Lower(name)[i] == "remote100k"[i];
  }

  // ---------------------------------------------------------------------
  // Chat
  // ---------------------------------------------------------------------

  datatype ChatMessage = ChatMessage(role: string, content: string, timestamp: Option<string>)

  datatype Chat = Chat(input: string, messages: seq<ChatMessage>)

  /**
   * `send`, up to the request: a blank input changes nothing and sends
   * nothing; otherwise the trimmed text is appended as the user's message
   * stamped `now`, the input is cleared, and that text is sent.
   */
  function Send(c: Chat, now: string): (r: (Chat, Option<string>))
    ensures JsTrim(c.input) == "" ==> r == (c, None)
    ensures JsTrim(c.input) != "" ==>
      && r.1 == Some(JsTrim(c.input))
      && r.0 == Chat("", c.messages + [ChatMessage("user", JsTrim(c.input), Some(now))])
  {
    var text := JsTrim(c.input);
    if text == "" then (c, None)
    else (Chat("", c.messages + [ChatMessage("user", text, Some(now))]), Some(text))
  }

  const ServerError := "Error contacting server."

  /**
   * The request's end: exactly one assistant message is appended, holding
   * the reply and its timestamp, or the fixed error text when the request
   * or its parsing failed.
   */
  function Finish(c: Chat, reply: Option<(string, string)>): (r: Chat)
    ensures r.input == c.input
    ensures |r.messages| == |c.messages| + 1 && r.messages[..|c.messages|] == c.messages
    ensures r.messages[|c.messages|].role == "assistant"
    ensures reply.Some? ==> r.messages[|c.messages|] == ChatMessage("assistant", reply.value.0, Some(reply.value.1))
    ensures reply.None? ==> r.messages[|c.messages|] == ChatMessage("assistant", ServerError, None)
  {
    var m := if reply.Some? then ChatMessage("assistant", reply.value.0, Some(reply.value.1))
             else ChatMessage("assistant", ServerError, None);
    c.(messages := c.messages + [m])
  }

  /** A send and its answer add the user's message and then one assistant message, whatever the outcome. */
  lemma SendThenFinish(c: Chat, now: string, reply: Option<(string, string)>)
    requires JsTrim(c.input) != ""
    ensures var r := Finish(Send(c, now).0, reply);
      && |r.messages| == |c.messages| + 2
      && r.messages[..|c.messages|] == c.messages
      && r.messages[|c.messages|].role == "user" && r.messages[|c.messages|].content == JsTrim(c.input)
      && r.messages[|c.messages| + 1].role == "assistant"
  {
    var s := Send(c, now).0;
    assert s.messages[..|c.messages|] == c.messages;
    var r := Finish(s, reply);
    assert r.messages[..|c.messages|] == s.messages[..|c.messages|];
  }

  // ---------------------------------------------------------------------
  // Upload and history
  // ---------------------------------------------------------------------

  /** The upload form: no request for an empty selection, else the selected brand and every file. */
  function UploadRequest(brand: string, files: seq<string>): (req: Option<(string, seq<string>)>)
    ensures files == [] <==> req.None?
    ensures req.Some? ==> req.value == (brand, files)
  {
    if files == [] then None else Some((brand, files))
  }

  /** The task history panel: newest first, from a reversed copy. */
  function HistoryView<T>(history: seq<T>): (view: seq<T>)
    ensures |view| == |history|
    ensures forall i :: 0 <= i < |history| ==> view[i] == history[|history| - 1 - i]
  {
    Reverse(history)
  }

  /** The newest entry is shown first, and reading the view backwards gives the history in its stored order. */
  lemma HistoryViewNewestFirst<T>(history: seq<T>)
    requires history != []
    ensures HistoryView(history)[0] == history[|history| - 1]
    ensures Reverse(HistoryView(history)) == history
  {
    ReverseTwice(history);
  }
}

=== FILE: backend_chat.dfy ===
/**
 * The Flask back end's chat-command dispatcher, its status record and its
 * task queue (backend/endpoints.py). Each handler is a function from the
 * parsed request fields and the current back-end state to the new state
 * and an HTTP outcome; the JSON files (chat memory, task log, queue) are
 * fields of that state, and timestamps are inputs.
 */
module BackendChat {
  import opened Wrappers
  import opened Text
  import opened AjaxCore

  /** `status_info`, the record `/api/status` reports. */
  datatype Status = Status(mode: string, currentTask: string, history: seq<string>, liveStatus: string)

  const InitialStatus := Status("ajax", "", [], "idle")

  /** How many replies the status history keeps, and how many entries the chat memory keeps. */
  const HistoryCap: nat := 5
  const MemoryCap: nat := 10

  /** Python `s[-n:]` for `n > 0`: the last `n` elements, or all of `s` when it is shorter. */
  function LastN<T>(s: seq<T>, n: nat): (r: seq<T>)
    requires n > 0
    ensures |r| == if |s| <= n then |s| else n
    ensures r == s[|s| - |r|..]
  {
    if |s| <= n then s else s[|s| - n..]
  }

  /**
   * Appending to the history and truncating it to its last five entries:
   * the result is bounded, ends with the new entry, and is the old history
   * plus that entry minus as many oldest entries as needed.
   */
  function PushHistory(h: seq<string>, x: string): (r: seq<string>)
    ensures |r| <= HistoryCap
    ensures r != [] && r[|r| - 1] == x
    ensures |h| < HistoryCap ==> r == h + [x]
    ensures |h| >= HistoryCap ==> r == h[|h| - HistoryCap + 1..] + [x]
  {
    var r := LastN(h + [x], HistoryCap);
    assert |h| >= HistoryCap ==> r == (h + [x])[|h| + 1 - HistoryCap..];
    assert |h| >= HistoryCap ==> (h + [x])[|h| + 1 - HistoryCap..] == h[|h| - HistoryCap + 1..] + [x];
    r
  }

  /** What `process_chat_message` returns and the state it leaves behind. */
  datatype ChatOutcome = ChatOutcome(reply: string, ai: AjaxAI, status: Status)

  /** The text the commands are matched against: stripped and lowercased. */
  function Lowered(message: string): string {
    Lower(PyStrip(message))
  }

  const Greetings: set<string> := {"hey", "hi", "hello", "what's up", "sup"}
  const CapabilityQuestions: set<string> := {"what can you do", "what can you do?"}

  const LoganInReply := "Logan is present. Switching to assistant mode."
  const LoganOutReply := "Logan is away. Speaking on his behalf."
  const DelegateUsage := "Usage: /delegate <agent> <task>"
  const GreetingReply := "Hey there! How can I help you today?"
  const CapabilityReply := "I can help with business automation, content creation, research, task tracking and more."
  const LogTaskReply := "Sure! Please provide the task details so I can log it."

  /** `f'Delegation error: {e}'` where `str(e)` of a `KeyError` is the repr of its message. */
  function DelegationError(e: RegistryError): string {
    "Delegation error: " + PyRepr(ErrorMessage(e))
  }

  /**
   * For an agent name of printable ASCII with no backslash and no double
   * quote, the error text is the missing-name message in double quotes:
   * the message holds single quotes, so Python's repr switches quotes.
   */
  lemma DelegationErrorText(name: string)
    requires forall i :: 0 <= i < |name| ==> ReprPlain(name[i], '"') && name[i] <= '\U{7e}'
    ensures DelegationError(NotRegistered(name))
         == "Delegation error: " + "\"" + ErrorMessage(NotRegistered(name)) + "\""
  {
    var msg := ErrorMessage(NotRegistered(name));
    MissingNameMessagePlain(name);
    ReprBodyPlain(msg, '"');
    assert PyRepr(msg) == ['"'] + msg + ['"'];
  }

  lemma MissingNameMessagePlain(name: string)
    requires forall i :: 0 <= i < |name| ==> ReprPlain(name[i], '"')
    ensures var msg := ErrorMessage(NotRegistered(name));
      && (forall i :: 0 <= i < |msg| ==> ReprPlain(msg[i], '"'))
      && '\'' in msg && '"' !in msg
  {
    var a := "No agent registered under name '";
    var z := "'.";
    var msg := ErrorMessage(NotRegistered(name));
    assert msg == a + name + z;
    assert forall i :: 0 <= i < |a| ==> ReprPlain(a[i], '"');
    assert forall i :: 0 <= i < |z| ==> ReprPlain(z[i], '"');
    forall i | 0 <= i < |msg| ensures ReprPlain(msg[i], '"') {
      if i < |a| { assert msg[i] == a[i]; }
      else if i < |a| + |name| { assert msg[i] == name[i - |a|]; }
      else { assert msg[i] == z[i - |a| - |name|]; }
    }
    assert msg[|a| - 1] == '\'';
  }

  /** None of the commands or fixed questions applies: the message is conversation. */
  predicate IsConversation(message: string) {
    var l := Lowered(message);
    && !("/loganin" <= l) && !("/loganout" <= l) && !("/delegate" <= l)
    && l !in Greetings && l !in CapabilityQuestions && !("log a task" <= l)
  }

  /**
   * `process_chat_message`. Only the presence commands touch the presence
   * flag and the mode, only a delegation touches the current task, the
   * live status and the history, and the history only ever gains the
   * reply; the registry is never touched.
   */
  function ProcessChatMessage(message: string, ai: AjaxAI, st: Status): (r: ChatOutcome)
    ensures r.ai.registry == ai.registry
    ensures r.ai.isLoganPresent != ai.isLoganPresent || r.status.mode != st.mode ==>
      "/loganin" <= Lowered(message) || "/loganout" <= Lowered(message)
    ensures r.status.history == st.history || r.status.history == PushHistory(st.history, r.reply)
    ensures |st.history| <= HistoryCap ==> |r.status.history| <= HistoryCap
    ensures st.liveStatus == "idle" ==> r.status.liveStatus == "idle"
    ensures (r.status.currentTask != st.currentTask || r.status.liveStatus != st.liveStatus
             || r.status.history != st.history) ==> "/delegate" <= Lowered(message)
    ensures IsConversation(message) ==>
      r == ChatOutcome(GenerateResponse(ai.isLoganPresent, message), ai, st)
  {
    var lowered := Lowered(message);
    if "/loganin" <= lowered then
      ChatOutcome(LoganInReply, ai.(isLoganPresent := true), st.(mode := "ajax"))
    else if "/loganout" <= lowered then
      ChatOutcome(LoganOutReply, ai.(isLoganPresent := false), st.(mode := "logan"))
    else if "/delegate" <= lowered then
      var parts := SplitMax(message, 2);
      if |parts| < 3 then ChatOutcome(DelegateUsage, ai, st)
      else
        var agentName := parts[1];
        var task := parts[2];
        var working := st.(currentTask := task, liveStatus := "working");
        match Delegate(ai, agentName, task)
        case Success(result) =>
          ChatOutcome(result, ai, working.(liveStatus := "idle", history := PushHistory(st.history, result)))
        case Failure(e) =>
          ChatOutcome(DelegationError(e), ai, working.(liveStatus := "idle"))
    else if lowered in Greetings then ChatOutcome(GreetingReply, ai, st)
    else if lowered in CapabilityQuestions then ChatOutcome(CapabilityReply, ai, st)
    else if "log a task" <= lowered then ChatOutcome(LogTaskReply, ai, st)
    else ChatOutcome(GenerateResponse(ai.isLoganPresent, message), ai, st)
  }

  /** The presence commands: fixed sentence, presence flag and mode set, nothing else changed. */
  lemma PresenceCommands(message: string, ai: AjaxAI, st: Status)
    ensures "/loganin" <= Lowered(message) ==>
      ProcessChatMessage(message, ai, st) == ChatOutcome(LoganInReply, ai.(isLoganPresent := true), st.(mode := "ajax"))
    ensures !("/loganin" <= Lowered(message)) && "/loganout" <= Lowered(message) ==>
      ProcessChatMessage(message, ai, st) == ChatOutcome(LoganOutReply, ai.(isLoganPresent := false), st.(mode := "logan"))
  {
  }

  /** "/delegate" without both an agent and a task only explains the usage. */
  lemma DelegateNeedsThreeParts(message: string, ai: AjaxAI, st: Status)
    requires !("/loganin" <= Lowered(message)) && !("/loganout" <= Lowered(message))
    requires "/delegate" <= Lowered(message)
    requires |SplitMax(message, 2)| < 3
    ensures ProcessChatMessage(message, ai, st) == ChatOutcome(DelegateUsage, ai, st)
  {
  }

  /**
   * A well-formed "/delegate <agent> <task>": the current task becomes the
   * task and the live status ends idle; on success the agent's reply is
   * returned and appended to the history, on failure the error is returned
   * and the history is untouched.
   */
  lemma DelegateOutcome(message: string, ai: AjaxAI, st: Status)
    ensures DelegateCommand(message) ==>
      var parts := SplitMax(message, 2);
      var r := ProcessChatMessage(message, ai, st);
      && r.status.currentTask == parts[2]
      && r.status.liveStatus == "idle"
      && r.status.mode == st.mode
      && r.ai == ai
      && (parts[1] in ai.registry ==>
            r.reply == AgentHandleTask(ai.registry[parts[1]], parts[2])
            && r.status.history == PushHistory(st.history, r.reply))
      && (parts[1] !in ai.registry ==>
            r.reply == DelegationError(NotRegistered(parts[1]))
            && r.status.history == st.history)
  {
  }

  /** A message the dispatcher reads as "/delegate <agent> <task>": no presence command, the delegate prefix, three parts. */
  predicate DelegateCommand(message: string) {
    && !("/loganin" <= Lowered(message)) && !("/loganout" <= Lowered(message))
    && "/delegate" <= Lowered(message)
    && |SplitMax(message, 2)| == 3
  }

  /** The fixed questions, tested in order after the commands. */
  lemma FixedQuestions(message: string, ai: AjaxAI, st: Status)
    requires !("/loganin" <= Lowered(message)) && !("/loganout" <= Lowered(message))
    requires !("/delegate" <= Lowered(message))
    ensures Lowered(message) in Greetings ==>
      ProcessChatMessage(message, ai, st) == ChatOutcome(GreetingReply, ai, st)
    ensures Lowered(message) !in Greetings && Lowered(message) in CapabilityQuestions ==>
      ProcessChatMessage(message, ai, st) == ChatOutcome(CapabilityReply, ai, st)
    ensures (Lowered(message) !in Greetings && Lowered(message) !in CapabilityQuestions
             && "log a task" <= Lowered(message)) ==>
      ProcessChatMessage(message, ai, st) == ChatOutcome(LogTaskReply, ai, st)
  {
  }

  /**
   * Case and surrounding whitespace do not matter for the commands:
   * "  /LOGANOUT " is the "/loganout" command.
   */
  lemma CommandsIgnoreCase(ai: AjaxAI, st: Status)
    ensures ProcessChatMessage("  /LOGANOUT ", ai, st)
         == ChatOutcome(LoganOutReply, ai.(isLoganPresent := false), st.(mode := "logan"))
  {
    LoweredLogout();
    assert "/loganout"[6] != "/loganin"[6];
    PresenceCommands("  /LOGANOUT ", ai, st);
  }

  lemma LoweredLogout()
    ensures Lowered("  /LOGANOUT ") == "/loganout"
  {
    StripLogout();
    LowerLogout();
  }

  lemma StripLogout()
    ensures PyStrip("  /LOGANOUT ") == "/LOGANOUT"
  {
    assert "  /LOGANOUT " == "  " + "/LOGANOUT" + " ";
    TrimOfPadded("  ", "/LOGANOUT", " ", IsPyWs);
  }

  lemma LowerLogout()
    ensures Lower("/LOGANOUT") == "/loganout"
  {
    var l := Lower("/LOGANOUT");
    assert forall i :: 0 <= i < 9 ==> l[i] == "/loganout"[i];
  }

  lemma LoweredLogin()
    ensures Lowered("/loganin") == "/loganin"
  {
    StripLogin();
    LowerLogin();
  }

  lemma StripLogin()
    ensures PyStrip("/loganin") == "/loganin"
  {
    assert "/loganin" == [] + "/loganin" + [];
    TrimOfPadded([], "/loganin", [], IsPyWs);
  }

  lemma LowerLogin()
    ensures Lower("/loganin") == "/loganin"
  {
    var l := Lower("/loganin");
    assert forall i :: 0 <= i < 8 ==> l[i] == "/loganin"[i];
  }

  /** After "/loganin", plain conversation is framed by the Ajax personality's first phrase. */
  lemma LoganInThenConverse(ai: AjaxAI, st: Status, message: string)
    requires IsConversation(message)
    ensures var o1 := ProcessChatMessage("/loganin", ai, st);
      var o2 := ProcessChatMessage(message, o1.ai, o1.status);
      && o2.ai.isLoganPresent
      && "On it, boss!" <= o2.reply
  {
    LoweredLogin();
    PresenceCommands("/loganin", ai, st);
    var o1 := ProcessChatMessage("/loganin", ai, st);
    assert o1.ai.isLoganPresent;
    var o2 := ProcessChatMessage(message, o1.ai, o1.status);
    assert o2.reply == GenerateResponse(true, message);
    assert LeadIn(true) == "On it, boss!";
  }

  // ---------------------------------------------------------------------
  // The back-end state and the HTTP handlers
  // ---------------------------------------------------------------------

  datatype MemoryEntry = MemoryEntry(role: string, content: string, timestamp: string)
  datatype LogEntry = LogEntry(timestamp: string, task: string, response: string)
  datatype QueueEntry = QueueEntry(id: nat, task: string, timestamp: string, status: string)

  /** Everything the handlers read and write: the Ajax instance, the status record and the three JSON files. */
  datatype Backend = Backend(
    ai: AjaxAI,
    status: Status,
    memory: map<string, seq<MemoryEntry>>,
    taskLog: seq<LogEntry>,
    queue: seq<QueueEntry>)

  datatype HttpError = HttpError(code: nat, error: string)

  datatype ChatReply = ChatReply(response: string, timestamp: string)

  /** `(data.get(field) or '').strip()`: an absent field reads as "". */
  function Field(v: Option<string>): (r: string)
    ensures v.None? ==> r == ""
    ensures v.Some? ==> r == PyStrip(v.value)
  {
    PyStrip(v.GetOr(""))
  }

  /** The 'general' conversation after one exchange: both entries share the timestamp, and only the last ten entries are kept. */
  function Remember(conversation: seq<MemoryEntry>, message: string, reply: string, ts: string): (r: seq<MemoryEntry>)
    ensures |r| == if |conversation| + 2 <= MemoryCap then |conversation| + 2 else MemoryCap
    ensures r[|r| - 2] == MemoryEntry("user", message, ts)
    ensures r[|r| - 1] == MemoryEntry("assistant", reply, ts)
    ensures r == (conversation + [MemoryEntry("user", message, ts), MemoryEntry("assistant", reply, ts)])[|conversation| + 2 - |r|..]
  {
    LastN(conversation + [MemoryEntry("user", message, ts), MemoryEntry("assistant", reply, ts)], MemoryCap)
  }

  /** A status record whose history respects the cap. */
  predicate StatusBounded(b: Backend) {
    |b.status.history| <= HistoryCap
  }

  /** Every conversation the chat memory holds respects the cap. */
  predicate MemoryBounded(b: Backend) {
    forall k :: k in b.memory ==> |b.memory[k]| <= MemoryCap
  }

  /**
   * `api_chat`. A missing, empty or whitespace-only message is rejected
   * with 400 and nothing changes. Otherwise the stripped message is
   * processed, the exchange is remembered under 'general' and logged,
   * the reply is pushed onto the history and becomes the current task's
   * predecessor: the current task is the message itself.
   */
  function ApiChat(b: Backend, message: Option<string>, ts: string): (r: (Backend, Result<ChatReply, HttpError>))
    ensures r.1.Failure? <==> Field(message) == ""
    ensures r.1.Failure? ==> r.0 == b && r.1.error == HttpError(400, "Empty message")
    ensures r.1.Success? ==> r.1.value.timestamp == ts && r.0.status.currentTask == Field(message)
    ensures StatusBounded(b) ==> StatusBounded(r.0)
    ensures MemoryBounded(b) ==> MemoryBounded(r.0)
  {
    var msg := Field(message);
    if msg == [] then (b, Failure(HttpError(400, "Empty message")))
    else
      var out := ProcessChatMessage(msg, b.ai, b.status);
      (Commit(b, msg, out, ts), Success(ChatReply(out.reply, ts)))
  }

  /** The 'general' conversation as `chat_memory.get('general', [])` reads it. */
  function General(b: Backend): seq<MemoryEntry> {
    if "general" in b.memory then b.memory["general"] else []
  }

  /** The state `api_chat` leaves once the dispatcher has answered `msg` with `out`. */
  function Commit(b: Backend, msg: string, out: ChatOutcome, ts: string): (r: Backend)
    ensures r.ai == out.ai && r.queue == b.queue
    ensures r.status == out.status.(history := PushHistory(out.status.history, out.reply), currentTask := msg)
    ensures r.memory == b.memory["general" := Remember(General(b), msg, out.reply, ts)]
    ensures r.taskLog == b.taskLog + [LogEntry(ts, msg, out.reply)]
  {
    var memory := b.memory["general" := Remember(General(b), msg, out.reply, ts)];
    var status := out.status.(history := PushHistory(out.status.history, out.reply), currentTask := msg);
    Backend(out.ai, status, memory, b.taskLog + [LogEntry(ts, msg, out.reply)], b.queue)
  }

  /**
   * What an accepted chat records: the reply is the dispatcher's, both
   * halves of the exchange are remembered under 'general' (cut to the
   * last ten entries) and nothing else in the memory changes, one log
   * entry is added, the queue is untouched and the reply ends the history.
   */
  lemma ApiChatRecords(b: Backend, message: Option<string>, ts: string)
    requires Field(message) != ""
    ensures var msg := Field(message);
      var (b', r) := ApiChat(b, message, ts);
      && r.Success?
      && r.value.response == ProcessChatMessage(msg, b.ai, b.status).reply
      && Records(b, b', msg, r.value.response, ts)
  {
    var msg := Field(message);
    var out := ProcessChatMessage(msg, b.ai, b.status);
    ApiChatCommits(b, message, ts);
    CommitRecords(b, msg, out, ts);
  }

  /**
   * `after` is `before` with one exchange of `msg` and `reply` at `ts`
   * recorded: remembered under 'general' (cut to the last ten entries)
   * with nothing else in the memory changed, logged once, the queue
   * untouched and the reply last in the history.
   */
  predicate Records(before: Backend, after: Backend, msg: string, reply: string, ts: string) {
    && after.memory.Keys == before.memory.Keys + {"general"}
    && (forall k :: k in before.memory && k != "general" ==> after.memory[k] == before.memory[k])
    && |after.memory["general"]| <= MemoryCap
    && |after.memory["general"]| >= 2
    && after.memory["general"][|after.memory["general"]| - 2..]
       == [MemoryEntry("user", msg, ts), MemoryEntry("assistant", reply, ts)]
    && after.taskLog == before.taskLog + [LogEntry(ts, msg, reply)]
    && after.queue == before.queue
    && after.status.history != [] && after.status.history[|after.status.history| - 1] == reply
  }

  lemma CommitRecords(b: Backend, msg: string, out: ChatOutcome, ts: string)
    ensures Records(b, Commit(b, msg, out, ts), msg, out.reply, ts)
  {
    var c := Commit(b, msg, out, ts);
    var g := Remember(General(b), msg, out.reply, ts);
    assert c.memory["general"] == g;
    assert g[|g| - 2..] == [g[|g| - 2], g[|g| - 1]];
  }

  lemma ApiChatCommits(b: Backend, message: Option<string>, ts: string)
    requires Field(message) != ""
    ensures var out := ProcessChatMessage(Field(message), b.ai, b.status);
      ApiChat(b, message, ts) == (Commit(b, Field(message), out, ts), Success(ChatReply(out.reply, ts)))
  {
  }

  /**
   * A successful delegation through the chat endpoint pushes the agent's
   * reply onto the history twice, once inside the dispatcher and once by
   * the endpoint, and the task the dispatcher recorded as current is
   * overwritten by the whole message.
   */
  lemma ChatDelegationPushesTwice(b: Backend, m: string, ts: string)
    requires |b.status.history| + 2 <= HistoryCap
    ensures PyStrip(m) == m && DelegateCommand(m) && SplitMax(m, 2)[1] in b.ai.registry ==>
      var parts := SplitMax(m, 2);
      var reply := AgentHandleTask(b.ai.registry[parts[1]], parts[2]);
      && ApiChat(b, Some(m), ts).1 == Success(ChatReply(reply, ts))
      && ApiChat(b, Some(m), ts).0.status.history == b.status.history + [reply, reply]
      && ApiChat(b, Some(m), ts).0.status.currentTask == m
  {
    if PyStrip(m) == m && DelegateCommand(m) && SplitMax(m, 2)[1] in b.ai.registry {
      assert |Lowered(m)| == |m|;
      assert Field(Some(m)) == m;
      DelegateOutcome(m, b.ai, b.status);
      var out := ProcessChatMessage(m, b.ai, b.status);
      ApiChatCommits(b, Some(m), ts);
      CommitPushesAgain(b, m, out, ts);
    }
  }

  lemma CommitPushesAgain(b: Backend, msg: string, out: ChatOutcome, ts: string)
    requires |b.status.history| + 2 <= HistoryCap
    requires out.status.history == PushHistory(b.status.history, out.reply)
    ensures Commit(b, msg, out, ts).status.history == b.status.history + [out.reply, out.reply]
    ensures Commit(b, msg, out, ts).status.currentTask == msg
  {
  }

  /**
   * `api_task`. An empty task is rejected with 400 and nothing changes;
   * otherwise a pending entry whose id is one more than the queue length
   * is appended at the end and the task log records it as queued.
   */
  function ApiTask(b: Backend, task: Option<string>, ts: string): (r: (Backend, Result<QueueEntry, HttpError>))
    ensures r.1.Failure? <==> Field(task) == ""
    ensures r.1.Failure? ==> r.0 == b && r.1.error == HttpError(400, "Empty task")
    ensures r.1.Success? ==>
      && r.1.value == QueueEntry(|b.queue| + 1, Field(task), ts, "pending")
      && r.0 == b.(queue := b.queue + [r.1.value], taskLog := b.taskLog + [LogEntry(ts, Field(task), "queued")])
  {
    var t := Field(task);
    if t == [] then (b, Failure(HttpError(400, "Empty task")))
    else
      var entry := QueueEntry(|b.queue| + 1, t, ts, "pending");
      (b.(queue := b.queue + [entry], taskLog := b.taskLog + [LogEntry(ts, t, "queued")]), Success(entry))
  }

  /** The queue's ids are 1..n in order, as they are when the queue changes only through `api_task`. */
  predicate IdsSequential(q: seq<QueueEntry>) {
    forall i :: 0 <= i < |q| ==> q[i].id == i + 1
  }

  /** `api_upload`: no file gives 400; otherwise the saved names are reported and one history line lists them. */
  function ApiUpload(b: Backend, fileNames: seq<string>): (r: (Backend, Result<seq<string>, HttpError>))
    ensures r.1.Failure? <==> fileNames == []
    ensures r.1.Failure? ==> r.0 == b && r.1.error == HttpError(400, "no file provided")
    ensures r.1.Success? ==>
      && r.1.value == fileNames
      && r.0 == b.(status := b.status.(history := PushHistory(b.status.history, "Uploaded files: " + Join(fileNames, ", "))))
  {
    if fileNames == [] then (b, Failure(HttpError(400, "no file provided")))
    else
      var line := "Uploaded files: " + Join(fileNames, ", ");
      (b.(status := b.status.(history := PushHistory(b.status.history, line))), Success(fileNames))
  }

  /** One request to a state-changing endpoint. */
  datatype Request =
    | Chat(message: Option<string>, ts: string)
    | QueueTask(task: Option<string>, ts: string)
    | Upload(fileNames: seq<string>)

  function Step(b: Backend, req: Request): Backend {
    match req
    case Chat(m, ts) => ApiChat(b, m, ts).0
    case QueueTask(t, ts) => ApiTask(b, t, ts).0
    case Upload(fs) => ApiUpload(b, fs).0
  }

  function Replay(b: Backend, reqs: seq<Request>): Backend
    decreases |reqs|
  {
    if reqs == [] then b else Replay(Step(b, reqs[0]), reqs[1..])
  }

  /**
   * Whatever the requests, starting from the initial status and an empty
   * memory and queue, the history never holds more than five entries,
   * every conversation at most ten, and the queue ids stay 1..n.
   */
  lemma {:induction false} BoundsHold(b: Backend, reqs: seq<Request>)
    requires StatusBounded(b) && MemoryBounded(b) && IdsSequential(b.queue)
    ensures var e := Replay(b, reqs);
      StatusBounded(e) && MemoryBounded(e) && IdsSequential(e.queue)
    decreases |reqs|
  {
    if reqs != [] {
      var next := Step(b, reqs[0]);
      assert IdsSequential(next.queue) by {
        if reqs[0].QueueTask? {
          var q := next.queue;
          assert q == b.queue || q == b.queue + [q[|q| - 1]];
          assert q != b.queue ==> q[|q| - 1].id == |b.queue| + 1;
        }
      }
      BoundsHold(next, reqs[1..]);
    }
  }

  /** The back end as `create_app` starts it with no files on disk. */
  function InitialBackend(): (b: Backend)
    ensures StatusBounded(b) && MemoryBounded(b) && IdsSequential(b.queue)
  {
    Backend(BuildDefaultAjax(), InitialStatus, map[], [], [])
  }
}

=== FILE: basic_auth.dfy ===
/**
 * The HTTP Basic credential gate that wraps every back-end route and the
 * static front-end fallback (backend/agent.py). Credentials are the
 * user-id and password of section 2 of RFC 7617; the environment is a
 * map, and a gated handler is any state transition.
 */
module BasicAuth {
  import opened Wrappers

  datatype Credentials = Credentials(username: string, password: string)

  /** `os.getenv(key, default)`: the variable when it is set, even to "", else the default. */
  function GetEnv(env: map<string, string>, key: string, default: string): (v: string)
    ensures key in env ==> v == env[key]
    ensures key !in env ==> v == default
  {
    if key in env then env[key] else default
  }

  /** The pair `create_app` reads once: BASIC_USER and BASIC_PASS, falling back to the built-in pair. */
  function Configured(env: map<string, string>): (c: Credentials)
    ensures "BASIC_USER" !in env ==> c.username == "logan"
    ensures "BASIC_PASS" !in env ==> c.password == "AllDay21!!!"
    ensures "BASIC_USER" in env ==> c.username == env["BASIC_USER"]
    ensures "BASIC_PASS" in env ==> c.password == env["BASIC_PASS"]
  {
    Credentials(GetEnv(env, "BASIC_USER", "logan"), GetEnv(env, "BASIC_PASS", "AllDay21!!!"))
  }

  /**
   * The decoded user-pass of section 2 of RFC 7617: the user-id runs up
   * to the first colon and the password is everything after it; without a
   * colon there are no credentials, as werkzeug before version 2.3
   * parses it.
   */
  function ParseUserPass(decoded: string): (r: Option<Credentials>)
    ensures r.None? <==> ':' !in decoded
    ensures r.Some? ==> ':' !in r.value.username
    ensures r.Some? ==> decoded == r.value.username + ":" + r.value.password
  {
    if ':' !in decoded then None
    else
      var i := FirstColon(decoded);
      assert decoded == decoded[..i] + ":" + decoded[i + 1..];
      Some(Credentials(decoded[..i], decoded[i + 1..]))
  }

  function FirstColon(s: string): (i: nat)
    requires ':' in s
    ensures i < |s| && s[i] == ':' && ':' !in s[..i]
  {
    if s[0] == ':' then 0
    else
      var j := FirstColon(s[1..]);
      assert s[..j + 1] == [s[0]] + s[1..][..j];
      j + 1
  }

  /** `ParseUserPass` undoes the user-pass encoding for every user-id without a colon. */
  lemma ParseUserPassRoundTrip(c: Credentials)
    requires ':' !in c.username
    ensures ParseUserPass(c.username + ":" + c.password) == Some(c)
  {
    var s := c.username + ":" + c.password;
    var n := |c.username|;
    var i := FirstColon(s);
    assert s[..n] == c.username && s[n] == ':';
    assert forall j :: 0 <= j < n ==> s[j] != ':';
    assert i <= n by {
      assert forall j :: 0 <= j < i ==> s[..i][j] == s[j] && s[j] != ':';
    }
    assert s[i] == ':';
    assert i == n;
    assert s[n + 1..] == c.password;
  }

  /** What a gated route answers: the 401 challenge, or the handler's own result. */
  datatype Gated<R> =
    | Challenge(status: nat, body: string, headers: map<string, string>)
    | Passed(result: R)

  /** `not auth or auth.username != BASIC_USER or auth.password != BASIC_PASS`, negated. */
  predicate Admits(auth: Option<Credentials>, configured: Credentials) {
    auth.Some? && auth.value.username == configured.username && auth.value.password == configured.password
  }

  /**
   * `require_auth(fn)` applied to a request: without matching credentials
   * the handler does not run, the state is kept and the challenge is
   * answered; with them the handler runs and its result is returned
   * unchanged.
   */
  function Gate<S, R>(auth: Option<Credentials>, configured: Credentials, handler: S -> (S, R), s: S): (r: (S, Gated<R>))
    ensures !Admits(auth, configured) ==>
      r == (s, Challenge(401, "Authentication required", map["WWW-Authenticate" := "Basic realm=Login"]))
    ensures Admits(auth, configured) ==> r == (handler(s).0, Passed(handler(s).1))
    ensures r.1.Passed? <==> auth == Some(configured)
  {
    if !Admits(auth, configured) then
      (s, Challenge(401, "Authentication required", map["WWW-Authenticate" := "Basic realm=Login"]))
    else
      var (s', res) := handler(s);
      (s', Passed(res))
  }

  /** With no environment variables set, exactly the built-in pair passes. */
  lemma DefaultPairOnly<S, R>(auth: Option<Credentials>, handler: S -> (S, R), s: S)
    ensures Gate(auth, Configured(map[]), handler, s).1.Passed?
        <==> auth == Some(Credentials("logan", "AllDay21!!!"))
  {
  }

  /**
   * `serve_frontend`: a non-empty path that exists (`os.path.exists`, so
   * a file or a directory) is handed to `send_from_directory`; anything
   * else falls back to index.html.
   */
  function ServeFrontend(path: string, existing: set<string>): (served: string)
    ensures served == path || served == "index.html"
    ensures served == path <==> (path != "" && path in existing) || path == "index.html"
  {
    if path != "" && path in existing then path else "index.html"
  }
}

=== FILE: brand_sidebar.dfy ===
/**
 * The brand sidebar of frontend/src/Sidebar.jsx: brand folders whose
 * header selects the brand and toggles the accordion, item buttons that
 * mark one (brand, item) pair active, the linked-account list, the
 * presence checkbox and the theme button.
 */
module BrandSidebar {
  import opened Wrappers
  import opened Text
  import opened Ui

  const Socials: seq<string> := ["TikTok", "Instagram", "YouTube", "Gmail"]

  /** The items this sidebar lists under every brand. */
  const ProjectItems: seq<string> := ["Slides", "Captions", "Chat Logs", "Media Uploads"]

  /** The active (brand, item) pair; both "" before any item is clicked. */
  datatype Active = Active(project: string, item: string)

  /**
   * The state the sidebar reads and writes: the page's selected brand and
   * open brand, and its own active item and Link Accounts flag.
   */
  datatype Panel = Panel(brand: string, openBrand: string, active: Active, showLinks: bool)

  const Initial := Panel("", "", Active("", ""), false)

  /** A brand header click: the brand is selected and its folder toggled. */
  function ClickBrand(p: Panel, key: string): (r: Panel)
    ensures r.brand == key && r.active == p.active && r.showLinks == p.showLinks
    ensures r.openBrand == "" || r.openBrand == key
    ensures key != "" ==> (IsOpen(r.openBrand, key) <==> !IsOpen(p.openBrand, key))
  {
    p.(brand := key, openBrand := Toggle(p.openBrand, key))
  }

  /** An item click: the brand is selected and (brand, item) becomes the active pair. */
  function ClickItem(p: Panel, key: string, item: string): (r: Panel)
    ensures r.brand == key && r.openBrand == p.openBrand && r.showLinks == p.showLinks
    ensures Highlighted(r, key, item)
  {
    p.(brand := key, active := Active(key, item))
  }

  /** An item button is highlighted when its brand and item both match the active pair. */
  predicate Highlighted(p: Panel, key: string, item: string) {
    p.active.project == key && p.active.item == item
  }

  /** After an item click exactly that item of exactly that brand is highlighted. */
  lemma ClickHighlightsOnlyItem(p: Panel, key: string, item: string, key': string, item': string)
    ensures Highlighted(ClickItem(p, key, item), key', item') <==> key' == key && item' == item
  {
  }

  /** Before any item click nothing with a non-empty name is highlighted. */
  lemma NothingHighlightedInitially(key: string, item: string)
    requires item != ""
    ensures !Highlighted(Initial, key, item)
  {
  }

  /** The Link Accounts header flips its section open and shut. */
  function ToggleLinks(p: Panel): (r: Panel)
    ensures r.showLinks != p.showLinks
    ensures r.(showLinks := p.showLinks) == p
  {
    p.(showLinks := !p.showLinks)
  }

  // ---------------------------------------------------------------------
  // Linked accounts
  // ---------------------------------------------------------------------

  /**
   * The text of a linked account. The escape sits in JSX text, where it is
   * not interpreted, so the label starts with the six characters
   * backslash, 'u', '2', '7', '0', '5' rather than a check mark.
   */
  function LinkedLabel(name: string): (t: string)
    ensures |t| == 7 + |name|
    ensures t[0] == '\\' && t[6] == ' ' && t[7..] == name
  {
    "\\u2705 " + name
  }

  /** A social account row: a label when linked, otherwise a button that links it. */
  datatype Row = Linked(caption: string) | LinkButton(account: string)

  function AccountRow(linked: seq<string>, account: string): (r: Row)
    ensures r.Linked? <==> account in linked
    ensures r.Linked? ==> r.caption == LinkedLabel(account)
    ensures r.LinkButton? ==> r.account == account
  {
    if account in linked then Linked(LinkedLabel(account)) else LinkButton(account)
  }

  /** The list under Link Accounts: one row per social network, in order. */
  function AccountRows(linked: seq<string>): (rows: seq<Row>)
    ensures |rows| == |Socials|
    ensures forall i :: 0 <= i < |Socials| ==> (rows[i].Linked? <==> Socials[i] in linked)
  {
    seq(|Socials|, i requires 0 <= i < |Socials| => AccountRow(linked, Socials[i]))
  }

  /** The label is not the check-mark character: the escape is shown literally. */
  lemma LabelIsNotCheckMark(name: string)
    ensures LinkedLabel(name)[0] != '✅'
  {
  }

  /** With nothing linked every row is a button, and linking one account turns only its row into a label. */
  lemma LinkingOneAccount(linked: seq<string>, a: string)
    requires a in Socials && a !in linked
    ensures forall i :: 0 <= i < |Socials| ==>
      (AccountRows(linked + [a])[i].Linked? <==> AccountRows(linked)[i].Linked? || Socials[i] == a)
  {
  }

  // ---------------------------------------------------------------------
  // Presence and theme
  // ---------------------------------------------------------------------

  /** `!!isPresent`, with the prop either absent or a boolean. */
  function Checked(isPresent: Option<bool>): (c: bool)
    ensures c <==> isPresent == Some(true)
  {
    isPresent.Some? && isPresent.value
  }

  /** The theme button's caption. */
  function ThemeButtonLabel(theme: string): (t: string)
    ensures theme == "light" ==> t == "Toggle Dark Mode"
    ensures theme != "light" ==> t == "Toggle Light Mode"
  {
    "Toggle " + (if theme == "light" then "Dark" else "Light") + " Mode"
  }

  /** The caption names, capitalised, the theme a click switches to. */
  lemma LabelNamesNextTheme(theme: string)
    ensures ThemeButtonLabel(theme) == "Toggle " + Capitalise(FlipTheme(theme)) + " Mode"
  {
    if theme == "light" {
      assert Capitalise("dark") == "Dark";
    } else {
      assert Capitalise("light") == "Light";
    }
  }
}

=== FILE: crm.dfy ===
/**
 * The JSON-backed CRM of core/crm.py: brands map list names to lists of
 * records, and each `add_*` appends one record to one list, creating the
 * brand and the list when they are missing.
 */
module Crm {
  import opened Wrappers

  datatype Record =
    | Subscriber(email: string, plan: string, entryPoint: string)
    | DemoRequest(timestamp: string, contact: string)
    | TikTokLead(name: string, account: string, source: string)

  type Brand = map<string, seq<Record>>
  type Data = map<string, Brand>

  /** The data a new CRM writes when no file exists yet. */
  const Fresh: Data := map[
    "remote100k" := map["subs" := []],
    "tradeview_ai" := map["demos" := []],
    "app_304" := map["leads" := []]]

  /** `CRM.__init__`: the stored data when the file exists, else the fresh data. */
  function Open(stored: Option<Data>): (d: Data)
    ensures stored.Some? ==> d == stored.value
    ensures stored.None? ==> d == Fresh
  {
    stored.GetOr(Fresh)
  }

  /** `get_brand`: the stored brand, or an empty one. */
  function GetBrand(d: Data, brand: string): (b: Brand)
    ensures brand in d ==> b == d[brand]
    ensures brand !in d ==> b == map[]
  {
    if brand in d then d[brand] else map[]
  }

  /**
   * `data.setdefault(brand, {}).setdefault(key, []).append(r)`: `r` ends
   * the list, every earlier record stays, and no other list of any brand
   * changes.
   */
  function Append(d: Data, brand: string, key: string, r: Record): (d': Data)
    ensures d'.Keys == d.Keys + {brand}
    ensures d'[brand].Keys == GetBrand(d, brand).Keys + {key}
    ensures d'[brand][key] == ListAt(GetBrand(d, brand), key) + [r]
    ensures forall k :: k in d && k != brand ==> d'[k] == d[k]
    ensures forall l :: l in GetBrand(d, brand) && l != key ==> d'[brand][l] == d[brand][l]
  {
    var b := GetBrand(d, brand);
    d[brand := b[key := ListAt(b, key) + [r]]]
  }

  function AddRemote100kSub(d: Data, email: string, plan: string, entryPoint: string): Data {
    Append(d, "remote100k", "subs", Subscriber(email, plan, entryPoint))
  }

  function AddTradeviewDemo(d: Data, timestamp: string, contact: string): Data {
    Append(d, "tradeview_ai", "demos", DemoRequest(timestamp, contact))
  }

  function AddTikTokLead(d: Data, name: string, account: string, source: string): Data {
    Append(d, "app_304", "leads", TikTokLead(name, account, source))
  }

  /** A fresh CRM has exactly the three brands, each with its one empty list. */
  lemma FreshShape()
    ensures Fresh.Keys == {"remote100k", "tradeview_ai", "app_304"}
    ensures GetBrand(Fresh, "remote100k") == map["subs" := []]
    ensures GetBrand(Fresh, "tradeview_ai") == map["demos" := []]
    ensures GetBrand(Fresh, "app_304") == map["leads" := []]
  {
  }

  /**
   * Reading a brand back after an add shows the new record at the end of
   * its list, for the three lists the CRM writes, starting from any data,
   * even one missing that brand or list.
   */
  lemma AddsAreVisible(d: Data, a: string, b: string, c: string)
    ensures ListAt(GetBrand(AddRemote100kSub(d, a, b, c), "remote100k"), "subs")
         == ListAt(GetBrand(d, "remote100k"), "subs") + [Subscriber(a, b, c)]
    ensures ListAt(GetBrand(AddTradeviewDemo(d, a, b), "tradeview_ai"), "demos")
         == ListAt(GetBrand(d, "tradeview_ai"), "demos") + [DemoRequest(a, b)]
    ensures ListAt(GetBrand(AddTikTokLead(d, a, b, c), "app_304"), "leads")
         == ListAt(GetBrand(d, "app_304"), "leads") + [TikTokLead(a, b, c)]
  {
  }

  /** Appends to different lists commute, so records of different kinds never interfere. */
  lemma AppendsCommute(d: Data, b1: string, k1: string, r1: Record, b2: string, k2: string, r2: Record)
    requires b1 != b2 || k1 != k2
    ensures Append(Append(d, b1, k1, r1), b2, k2, r2) == Append(Append(d, b2, k2, r2), b1, k1, r1)
  {
    if b1 != b2 {
      AppendsCommuteAcrossBrands(d, b1, k1, r1, b2, k2, r2);
    } else {
      AppendsCommuteWithinBrand(d, b1, k1, r1, k2, r2);
    }
  }

  lemma AppendsCommuteAcrossBrands(d: Data, b1: string, k1: string, r1: Record, b2: string, k2: string, r2: Record)
    requires b1 != b2
    ensures Append(Append(d, b1, k1, r1), b2, k2, r2) == Append(Append(d, b2, k2, r2), b1, k1, r1)
  {
    var g1 := GetBrand(d, b1);
    var g2 := GetBrand(d, b2);
    var n1 := g1[k1 := ListAt(g1, k1) + [r1]];
    var n2 := g2[k2 := ListAt(g2, k2) + [r2]];
    assert Append(d, b1, k1, r1) == d[b1 := n1];
    assert Append(d, b2, k2, r2) == d[b2 := n2];
    assert GetBrand(d[b1 := n1], b2) == g2;
    assert GetBrand(d[b2 := n2], b1) == g1;
    assert d[b1 := n1][b2 := n2] == d[b2 := n2][b1 := n1];
  }

  lemma AppendsCommuteWithinBrand(d: Data, b: string, k1: string, r1: Record, k2: string, r2: Record)
    requires k1 != k2
    ensures Append(Append(d, b, k1, r1), b, k2, r2) == Append(Append(d, b, k2, r2), b, k1, r1)
  {
    var g := GetBrand(d, b);
    var l1, l2 := ListAt(g, k1) + [r1], ListAt(g, k2) + [r2];
    UpdatesCommute(g, k1, l1, k2, l2);
    AppendTwiceIs(d, b, k1, r1, k2, r2);
    AppendTwiceIs(d, b, k2, r2, k1, r1);
  }

  lemma UpdatesCommute<K, V>(m: map<K, V>, k1: K, v1: V, k2: K, v2: V)
    requires k1 != k2
    ensures m[k1 := v1][k2 := v2] == m[k2 := v2][k1 := v1]
  {
  }

  /** Two appends under one brand, to different keys, are one update of that brand's map. */
  lemma AppendTwiceIs(d: Data, b: string, k1: string, r1: Record, k2: string, r2: Record)
    requires k1 != k2
    ensures var g := GetBrand(d, b);
      Append(Append(d, b, k1, r1), b, k2, r2)
        == d[b := g[k1 := ListAt(g, k1) + [r1]][k2 := ListAt(g, k2) + [r2]]]
  {
    var g := GetBrand(d, b);
    var g1 := g[k1 := ListAt(g, k1) + [r1]];
    AppendIs(d, b, k1, r1);
    AppendIs(d[b := g1], b, k2, r2);
    assert GetBrand(d[b := g1], b) == g1 && ListAt(g1, k2) == ListAt(g, k2);
    assert d[b := g1][b := g1[k2 := ListAt(g, k2) + [r2]]] == d[b := g1[k2 := ListAt(g, k2) + [r2]]];
  }

  /** `Append` as a single update of the brand's map. */
  lemma AppendIs(d: Data, brand: string, key: string, r: Record)
    ensures Append(d, brand, key, r) == d[brand := GetBrand(d, brand)[key := ListAt(GetBrand(d, brand), key) + [r]]]
  {
  }
}

=== FILE: echo_agents.dfy ===
/**
 * The four placeholder agents that the default Ajax registry holds
 * (core/agents/investor_agent.py, fanpage_agent.py, support_agent.py,
 * growth_agent.py). Each one echoes its task between a fixed tag and a
 * fixed "not yet implemented" note, and none of them can fail.
 */
module EchoAgents {
  import opened Text
  import opened Wrappers

  /** Which echo agent; `SupportEcho` and `GrowthEcho` are the `SupportAgent` and `GrowthAgent` of the `*_agent.py` files. */
  datatype EchoKind = Investor | Fanpage | SupportEcho | GrowthEcho

  function Tag(k: EchoKind): string {
    match k
    case Investor => "[InvestorAgent]"
    case Fanpage => "[FanpageAgent]"
    case SupportEcho => "[SupportAgent]"
    case GrowthEcho => "[GrowthAgent]"
  }

  /** Everything of the reply before the task: the tag and " Processing task: ". */
  function Lead(k: EchoKind): string {
    Tag(k) + " Processing task: "
  }

  /** Everything of the reply after the task: a space and the "not yet implemented" note. */
  function Tail(k: EchoKind): string {
    match k
    case Investor => " (stock research functionality not yet implemented)"
    case Fanpage => " (social posting functionality not yet implemented)"
    case SupportEcho => " (customer support functionality not yet implemented)"
    case GrowthEcho => " (growth analysis functionality not yet implemented)"
  }

  /**
   * `handle_task` of an echo agent: the reply is the agent's lead, then
   * the task verbatim, then the agent's note. Defined for every task.
   */
  function EchoReply(k: EchoKind, task: string): (r: string)
    ensures |r| == |Lead(k)| + |task| + |Tail(k)|
    ensures r[..|Lead(k)|] == Lead(k)
    ensures r[|Lead(k)|..|Lead(k)| + |task|] == task
    ensures r[|Lead(k)| + |task|..] == Tail(k)
  {
    Lead(k) + task + Tail(k)
  }

  /** Recovers the task from an echo reply, or `None` when `r` is not one. */
  function ParseEcho(k: EchoKind, r: string): (t: Option<string>)
    ensures t.Some? ==> |r| == |Lead(k)| + |t.value| + |Tail(k)|
  {
    if |r| >= |Lead(k)| + |Tail(k)| && Lead(k) <= r && r[|r| - |Tail(k)|..] == Tail(k)
    then Some(r[|Lead(k)|..|r| - |Tail(k)|])
    else None
  }

  /** Parsing an echo reply gives back exactly the task that was echoed. */
  lemma EchoRoundTrip(k: EchoKind, task: string)
    ensures ParseEcho(k, EchoReply(k, task)) == Some(task)
  {
    var r := EchoReply(k, task);
    assert r[|r| - |Tail(k)|..] == Tail(k);
  }

  /** Conversely, every string the parser accepts is the echo of what it parsed. */
  lemma EchoParseSound(k: EchoKind, r: string)
    requires ParseEcho(k, r).Some?
    ensures r == EchoReply(k, ParseEcho(k, r).value)
  {
    Reassemble(r, Lead(k), Tail(k));
  }

  lemma Reassemble(r: string, lead: string, tail: string)
    requires |r| >= |lead| + |tail| && lead <= r && r[|r| - |tail|..] == tail
    ensures r == lead + r[|lead|..|r| - |tail|] + tail
  {
    assert r == r[..|lead|] + r[|lead|..|r| - |tail|] + r[|r| - |tail|..];
  }

  /** Different tasks give different replies, so no task is lost in the echo. */
  lemma EchoInjective(k: EchoKind, t1: string, t2: string)
    requires EchoReply(k, t1) == EchoReply(k, t2)
    ensures t1 == t2
  {
    EchoRoundTrip(k, t1);
    EchoRoundTrip(k, t2);
  }

  /** The reply starts with the agent's tag and mentions the task verbatim. */
  lemma {:induction false} EchoMentions(k: EchoKind, task: string)
    ensures Tag(k) <= EchoReply(k, task)
    ensures Contains(EchoReply(k, task), Tag(k))
    ensures Contains(EchoReply(k, task), task)
  {
    TagStartsReply(k, task);
    ContainsPrefix(EchoReply(k, task), Tag(k));
    ContainsInfix(Lead(k), task, Tail(k));
  }

  lemma TagStartsReply(k: EchoKind, task: string)
    ensures Tag(k) <= EchoReply(k, task)
  {
    PrefixOfAppend(Tag(k), " Processing task: ", task + Tail(k));
    assert EchoReply(k, task) == Tag(k) + " Processing task: " + (task + Tail(k));
  }

  lemma PrefixOfAppend(t: string, u: string, v: string)
    ensures t <= t + u + v
  {
    assert (t + u + v)[..|t|] == t;
  }

  /** `InvestorAgent.handle_task`. */
  function InvestorHandleTask(task: string): (r: string)
    ensures r == "[InvestorAgent] Processing task: " + task + " (stock research functionality not yet implemented)"
  {
    EchoReply(Investor, task)
  }

  /** `FanpageAgent.handle_task`. */
  function FanpageHandleTask(task: string): (r: string)
    ensures r == "[FanpageAgent] Processing task: " + task + " (social posting functionality not yet implemented)"
  {
    EchoReply(Fanpage, task)
  }

  /** `SupportAgent.handle_task` of support_agent.py. */
  function SupportEchoHandleTask(task: string): (r: string)
    ensures r == "[SupportAgent] Processing task: " + task + " (customer support functionality not yet implemented)"
  {
    EchoReply(SupportEcho, task)
  }

  /** `GrowthAgent.handle_task` of growth_agent.py. */
  function GrowthEchoHandleTask(task: string): (r: string)
    ensures r == "[GrowthAgent] Processing task: " + task + " (growth analysis functionality not yet implemented)"
  {
    EchoReply(GrowthEcho, task)
  }
}

=== FILE: folder_sidebar.dfy ===
/**
 * The folder sidebar of frontend/src/components/Sidebar.jsx: an
 * accordion of brand folders, an input that adds a project, and item
 * buttons that report a (brand, item) selection and close the sidebar.
 */
module FolderSidebar {
  import opened Wrappers
  import opened Text
  import opened Ui

  /** The items listed under every folder. */
  const ProjectItems: seq<string> := ["Slides", "Captions", "Files", "Tasks", "Comments"]

  /** The accordion's open key, the new-project input, and whether the (mobile) sidebar is shown. */
  datatype Sidebar = Sidebar(openKey: string, newProjectName: string, sidebarOpen: bool)

  /** A folder header click: the accordion toggle on that brand's key. */
  function ClickBrand(sb: Sidebar, key: string): (r: Sidebar)
    ensures r.newProjectName == sb.newProjectName && r.sidebarOpen == sb.sidebarOpen
    ensures r.openKey == "" || r.openKey == key
    ensures key != "" ==> (IsOpen(r.openKey, key) <==> !IsOpen(sb.openKey, key))
  {
    sb.(openKey := Toggle(sb.openKey, key))
  }

  /**
   * `handleAdd`: a blank name does nothing. Otherwise the new brand's key
   * is the slug of the untrimmed name, its name is the trimmed input, it
   * is handed to the page, and the input is cleared.
   */
  function HandleAdd(sb: Sidebar): (r: (Sidebar, Option<Brand>))
    ensures JsTrim(sb.newProjectName) == "" ==> r == (sb, None)
    ensures JsTrim(sb.newProjectName) != "" ==>
      && r.1 == Some(Brand(Slug(sb.newProjectName), JsTrim(sb.newProjectName)))
      && r.0 == sb.(newProjectName := "")
    ensures r.1.Some? ==> NoneSatisfy(r.1.value.key, IsJsWs) && r.1.value.name != ""
  {
    if JsTrim(sb.newProjectName) == "" then (sb, None)
    else (sb.(newProjectName := ""), Some(Brand(Slug(sb.newProjectName), JsTrim(sb.newProjectName))))
  }

  /** An item click: the selection reported to the page, and the sidebar closed. */
  function ClickItem(sb: Sidebar, key: string, item: string): (r: (Sidebar, (string, string)))
    ensures r.1 == (key, item)
    ensures !r.0.sidebarOpen && r.0.openKey == sb.openKey
  {
    (sb.(sidebarOpen := false), (key, item))
  }

  /** A padded name keeps its padding in the key (as underscores) but not in the display name. */
  lemma PaddedNameExample(name: string)
    requires name == " x "
    ensures HandleAdd(Sidebar("", name, true)).1 == Some(Brand("_x_", "x"))
  {
    SlugKeepsOuterSpaces(name);
    assert name == [' '] + "x" + [' '];
    TrimOfPadded([' '], "x", [' '], IsJsWs);
  }
}

=== FILE: index_page.dfy ===
/**
 * The main React page of frontend/src/pages/index.jsx: one conversation
 * per (brand, item) folder, kept in a map under the key
 * "<brand>/<item>"; a status line that classifies the message being
 * sent; the brand list the sidebar appends to; and the header text.
 */
module IndexPage {
  import opened Wrappers
  import opened Text
  import opened Ui
  import opened PendingChat

  /** The selected folder; "" when nothing is selected yet. */
  datatype Current = Current(project: string, item: string)

  type Conversations = map<string, seq<Message>>

  /** The map key of the selected folder's conversation. */
  function CurrentKey(c: Current): (k: string)
    ensures |k| == |c.project| + 1 + |c.item|
    ensures k[|c.project|] == '/'
  {
    c.project + "/" + c.item
  }

  /** The index of the first '/' in `k`, or |k| when there is none. */
  function FirstSlash(k: string): (i: nat)
    ensures i <= |k|
    ensures forall j :: 0 <= j < i ==> k[j] != '/'
    ensures i < |k| ==> k[i] == '/'
  {
    if k == [] || k[0] == '/' then 0 else 1 + FirstSlash(k[1..])
  }

  /** The brand part of a key ends at the first '/' when the brand key has none. */
  lemma FirstSlashOfKey(c: Current)
    requires '/' !in c.project
    ensures FirstSlash(CurrentKey(c)) == |c.project|
  {
    var k, i := CurrentKey(c), FirstSlash(CurrentKey(c));
    assert forall j :: 0 <= j < |c.project| ==> k[j] == c.project[j] && c.project[j] in c.project;
  }

  /** Folders without '/' in their brand key get distinct conversation keys. */
  lemma CurrentKeyInjective(a: Current, b: Current)
    requires '/' !in a.project && '/' !in b.project
    requires CurrentKey(a) == CurrentKey(b)
    ensures a == b
  {
    var ka, kb := CurrentKey(a), CurrentKey(b);
    FirstSlashOfKey(a);
    FirstSlashOfKey(b);
    assert a.project == ka[..|a.project|] == kb[..|b.project|] == b.project;
    assert a.item == ka[|a.project| + 1..] == kb[|b.project| + 1..] == b.item;
  }

  /** A brand key holding '/' can share a conversation with another folder. */
  lemma SlashInKeyCollides()
    ensures CurrentKey(Current("a/b", "c")) == CurrentKey(Current("a", "b/c"))
  {
  }

  /**
   * `updateMessages(updater)`: the updater sees the selected folder's list
   * and its result replaces that list; no other folder's conversation
   * changes.
   */
  function UpdateMessages(convs: Conversations, c: Current, updater: seq<Message> -> seq<Message>)
    : (r: Conversations)
    ensures r.Keys == convs.Keys + {CurrentKey(c)}
    ensures r[CurrentKey(c)] == updater(ListAt(convs, CurrentKey(c)))
    ensures forall k :: k in convs && k != CurrentKey(c) ==> r[k] == convs[k]
  {
    var key := CurrentKey(c);
    convs[key := updater(ListAt(convs, key))]
  }

  /** Two updates in different folders commute: each folder sees only its own updates. */
  lemma UpdatesInDifferentFoldersCommute(convs: Conversations, a: Current, f: seq<Message> -> seq<Message>,
                                         b: Current, g: seq<Message> -> seq<Message>)
    requires CurrentKey(a) != CurrentKey(b)
    ensures UpdateMessages(UpdateMessages(convs, a, f), b, g) == UpdateMessages(UpdateMessages(convs, b, g), a, f)
  {
    var ka, kb := CurrentKey(a), CurrentKey(b);
    assert ListAt(UpdateMessages(convs, a, f), kb) == ListAt(convs, kb);
    assert ListAt(UpdateMessages(convs, b, g), ka) == ListAt(convs, ka);
  }

  // ---------------------------------------------------------------------
  // Status line
  // ---------------------------------------------------------------------

  const ScanningTikTok := "Ajax is scanning TikTok comments…"
  const GeneratingSlideshow := "Generating slideshow…"
  const Thinking := "Ajax is thinking…"
  const Waiting := "Waiting for input…"

  /** The status shown while a message is being answered, from its lower-cased text. */
  function StatusText(text: string): (st: string)
    ensures Contains(Lower(text), "tiktok") ==> st == ScanningTikTok
    ensures !Contains(Lower(text), "tiktok") && Contains(Lower(text), "slideshow") ==> st == GeneratingSlideshow
    ensures !Contains(Lower(text), "tiktok") && !Contains(Lower(text), "slideshow") ==> st == Thinking
  {
    var lower := Lower(text);
    if Contains(lower, "tiktok") then ScanningTikTok
    else if Contains(lower, "slideshow") then GeneratingSlideshow
    else Thinking
  }

  /** A message naming both TikTok and a slideshow gets the TikTok status, whatever the case. */
  lemma TikTokWins(a: string, b: string, c: string)
    ensures StatusText(a + "TikTok" + b + "slideshow" + c) == ScanningTikTok
  {
    var t := a + "TikTok" + b + "slideshow" + c;
    var l := Lower(t);
    assert l[|a|..|a| + 6] == "tiktok";
    assert OccursAt(l, "tiktok", |a|);
  }

  /** The task panel: its status text and whether a request is running. */
  datatype TaskPanel = TaskPanel(text: string, running: bool)

  const Idle := TaskPanel(Waiting, false)

  /**
   * `sendMessage`: the panel shows the classified status and runs while
   * the request is out; only a parsed reply (`Some`) resets it, so a
   * failed request leaves it running.
   */
  function SendMessage(text: string, reply: Option<string>): (r: (TaskPanel, TaskPanel))
    ensures r.0 == TaskPanel(StatusText(text), true)
    ensures reply.Some? ==> r.1 == Idle
    ensures reply.None? ==> r.1.running && r.1.text == StatusText(text)
  {
    var started := TaskPanel(StatusText(text), true);
    (started, if reply.Some? then Idle else started)
  }

  // ---------------------------------------------------------------------
  // Brands and header
  // ---------------------------------------------------------------------

  /** `onAddProject`: the brand goes at the end; existing brands stay as they were. */
  function AddProject(brands: seq<Brand>, b: Brand): (r: seq<Brand>)
    ensures |r| == |brands| + 1 && r[|brands|] == b
    ensures r[..|brands|] == brands
  {
    brands + [b]
  }

  /** The name of the first brand with this key, as `find` gives it; "" when there is none. */
  function BrandName(brands: seq<Brand>, key: string): (n: string)
    ensures (forall i :: 0 <= i < |brands| ==> brands[i].key != key) ==> n == ""
    ensures forall i :: 0 <= i < |brands| && brands[i].key == key && (forall j :: 0 <= j < i ==> brands[j].key != key) ==>
      n == brands[i].name
  {
    if brands == [] then ""
    else if brands[0].key == key then brands[0].name
    else BrandName(brands[1..], key)
  }

  /** The header: "<brand name> / <item>" once both parts are chosen, else "Select a folder". */
  function Header(brands: seq<Brand>, c: Current): (h: string)
    ensures c.project == "" || c.item == "" ==> h == "Select a folder"
    ensures c.project != "" && c.item != "" ==> h == BrandName(brands, c.project) + " / " + c.item
  {
    if c.project != "" && c.item != "" then BrandName(brands, c.project) + " / " + c.item
    else "Select a folder"
  }

  /** Choosing the first item of a default brand shows its display name. */
  lemma DefaultHeader()
    ensures Header(DefaultBrands, Current("tradeview_ai", "Slides")) == "Tradeview AI / Slides"
  {
    assert BrandName(DefaultBrands, "tradeview_ai") == "Tradeview AI";
  }
}

=== FILE: memory.dfy ===
/**
 * The persistence helpers of ajax_system/core/memory.py: the personality
 * mode with its 'Ajax' default, the append-only task timeline, and the
 * idle-behaviour configuration. Every write that the source logs adds
 * exactly one task at the end of the timeline.
 */
module Memory {
  import opened SystemStore

  /** `get_state`: the stored state with mode 'Ajax' added when it has none. */
  function GetState(s: Store): (st: map<string, string>)
    ensures "mode" in st
    ensures forall k :: k in ReadJson(s.state, map[]) ==> k in st && st[k] == ReadJson(s.state, map[])[k]
    ensures st.Keys == ReadJson(s.state, map[]).Keys + {"mode"}
    ensures "mode" !in ReadJson(s.state, map[]) ==> st["mode"] == "Ajax"
  {
    var state := ReadJson(s.state, map[]);
    if "mode" !in state then state["mode" := "Ajax"] else state
  }

  /** `get_mode`. */
  function GetMode(s: Store): string {
    GetState(s)["mode"]
  }

  /** `get_tasks`: the timeline, empty when the file is missing or unparsable. */
  function GetTasks(s: Store): seq<Task> {
    ReadJson(s.tasks, [])
  }

  /**
   * `add_task`: the task gets the next id and the given status and time,
   * is appended at the end and returned; earlier tasks and every other
   * file stay as they were.
   */
  function AddTask(s: Store, description: string, status: string, now: string): (r: (Store, Task))
    ensures r.1 == Task(|GetTasks(s)| + 1, description, status, now)
    ensures GetTasks(r.0) == GetTasks(s) + [r.1]
    ensures r.0 == s.(tasks := Stored(GetTasks(s) + [r.1]))
  {
    var tasks := GetTasks(s);
    var task := Task(|tasks| + 1, description, status, now);
    (s.(tasks := Stored(tasks + [task])), task)
  }

  /** `add_task` with its default status. */
  function AddPendingTask(s: Store, description: string, now: string): (r: (Store, Task))
    ensures r.1.status == "pending"
    ensures GetTasks(r.0) == GetTasks(s) + [r.1]
  {
    AddTask(s, description, "pending", now)
  }

  /** A completed task logged by one of the services: one 'done' entry, nothing else changed. */
  function LogDone(s: Store, description: string, now: string): (s': Store)
    ensures GetTasks(s') == GetTasks(s) + [Task(|GetTasks(s)| + 1, description, "done", now)]
    ensures s' == s.(tasks := s'.tasks)
  {
    AddTask(s, description, "done", now).0
  }

  /**
   * `set_mode`: the state keeps every other field and records `mode`,
   * and one 'done' task "Switched mode to <mode>" is logged.
   */
  function SetMode(s: Store, mode: string, now: string): (s': Store)
    ensures GetMode(s') == mode
    ensures forall k :: k in GetState(s) && k != "mode" ==> k in GetState(s') && GetState(s')[k] == GetState(s)[k]
    ensures GetTasks(s') == GetTasks(s) + [Task(|GetTasks(s)| + 1, "Switched mode to " + mode, "done", now)]
    ensures s' == s.(state := s'.state, tasks := s'.tasks)
  {
    var state := GetState(s)["mode" := mode];
    LogDone(s.(state := Stored(state)), "Switched mode to " + mode, now)
  }

  /** `get_idle_behaviors`. */
  function GetIdleBehaviors(s: Store): map<string, string> {
    ReadJson(s.idle, map[])
  }

  /** `set_idle_behaviors`: the configuration is replaced and one 'done' task is logged. */
  function SetIdleBehaviors(s: Store, config: map<string, string>, now: string): (s': Store)
    ensures GetIdleBehaviors(s') == config
    ensures GetTasks(s') == GetTasks(s) + [Task(|GetTasks(s)| + 1, "Updated idle behaviours configuration", "done", now)]
    ensures s' == s.(idle := Stored(config), tasks := s'.tasks)
  {
    LogDone(s.(idle := Stored(config)), "Updated idle behaviours configuration", now)
  }

  /** The mode written is the mode read back, whatever was stored before. */
  lemma SetThenGetMode(s: Store, mode: string, now: string)
    ensures GetMode(SetMode(s, mode, now)) == mode
  {
  }

  /** With no state file, or an unparsable one, the mode is 'Ajax'. */
  lemma DefaultMode(s: Store)
    requires !s.state.Stored?
    ensures GetMode(s) == "Ajax"
  {
  }

  /** The idle configuration written is the one read back. */
  lemma SetThenGetIdle(s: Store, config: map<string, string>, now: string)
    ensures GetIdleBehaviors(SetIdleBehaviors(s, config, now)) == config
  {
  }

  /** The timeline's ids are 1..n in order. */
  predicate IdsSequential(tasks: seq<Task>) {
    forall i :: 0 <= i < |tasks| ==> tasks[i].id == i + 1
  }

  /** Appending the task `add_task` builds keeps the ids 1..n. */
  lemma AddTaskKeepsIds(s: Store, description: string, status: string, now: string)
    requires IdsSequential(GetTasks(s))
    ensures IdsSequential(GetTasks(AddTask(s, description, status, now).0))
  {
    var t := GetTasks(s);
    var t' := GetTasks(AddTask(s, description, status, now).0);
    assert forall i :: 0 <= i < |t| ==> t'[i] == t[i];
  }

  /**
   * An unparsable timeline is read as empty, so the next task gets id 1
   * and overwrites the file: the earlier contents are lost.
   */
  lemma CorruptTimelineRestarts(s: Store, description: string, status: string, now: string)
    requires s.tasks.Corrupt?
    ensures AddTask(s, description, status, now).0.tasks == Stored([Task(1, description, status, now)])
  {
    assert GetTasks(s) == [];
    assert [] + [Task(1, description, status, now)] == [Task(1, description, status, now)];
  }
}

=== FILE: mode_chat.dfy ===
/**
 * The chat box of ajax_system/frontend/components/ChatBox.jsx: the
 * user's message is shown at once, the server's `/respond` reply is
 * appended when it arrives (nothing is appended when the request fails),
 * and every AI bubble is styled by the mode fetched most recently.
 */
module ModeChat {
  import opened Wrappers
  import opened Text
  import opened SystemStore
  import opened Memory
  import Persona
  import Server
  import AjaxDashboard

  datatype Bubble = Bubble(text: string, sender: string)

  datatype Chat = Chat(messages: seq<Bubble>, input: string, mode: string)

  const Initial := Chat([], "", "Ajax")

  /**
   * `sendMessage`, up to the request: a blank input does nothing;
   * otherwise the trimmed text is shown as the user's bubble, the input is
   * cleared, and the text is what gets posted.
   */
  function Send(c: Chat): (r: (Chat, Option<string>))
    ensures JsTrim(c.input) == "" ==> r == (c, None)
    ensures JsTrim(c.input) != "" ==>
      r == (c.(messages := c.messages + [Bubble(JsTrim(c.input), "user")], input := ""), Some(JsTrim(c.input)))
  {
    var trimmed := JsTrim(c.input);
    if trimmed == "" then (c, None)
    else (c.(messages := c.messages + [Bubble(trimmed, "user")], input := ""), Some(trimmed))
  }

  /**
   * The request's end against the server: when it goes through, the
   * reply is appended as an AI bubble and the mode is fetched again; a
   * failed request throws before either, leaving the chat and the store
   * as they were.
   */
  function Receive(c: Chat, s: Store, sent: string, now: string, delivered: bool): (r: (Chat, Store))
    ensures !delivered ==> r == (c, s)
    ensures delivered ==>
      && r.1 == Server.Respond(s, Some(sent), now).0
      && |r.0.messages| == |c.messages| + 1
      && r.0.messages[..|c.messages|] == c.messages
      && r.0.messages[|c.messages|] == Bubble(Server.Respond(s, Some(sent), now).1.body.reply, "ai")
      && r.0.mode == AjaxDashboard.ModeOrDefault(Some(GetMode(r.1)))
      && r.0.input == c.input
  {
    if !delivered then (c, s)
    else
      var (s', reply) := Server.Respond(s, Some(sent), now);
      var text := match reply.body case ReplyBody(t) => t case _ => "";
      (c.(messages := c.messages + [Bubble(text, "ai")], mode := AjaxDashboard.ModeOrDefault(Some(GetMode(s')))), s')
  }

  /** The bubble's style: 'user' for the user's, and for the AI's the style of the current mode. */
  function BubbleClass(b: Bubble, mode: string): (cls: string)
    ensures b.sender == "user" ==> cls == "user"
    ensures b.sender != "user" ==> (cls == "ai-logan" <==> mode == "Logan")
    ensures b.sender != "user" ==> cls in {"ai-logan", "ai-ajax"}
  {
    if b.sender == "user" then "user" else if mode == "Logan" then "ai-logan" else "ai-ajax"
  }

  /** The style is computed when drawing, so all AI bubbles share one style, whatever mode each reply came in. */
  lemma AiBubblesShareStyle(c: Chat, i: nat, j: nat)
    requires i < |c.messages| && j < |c.messages|
    requires c.messages[i].sender == "ai" && c.messages[j].sender == "ai"
    ensures BubbleClass(c.messages[i], c.mode) == BubbleClass(c.messages[j], c.mode)
  {
  }

  /**
   * After a delivered round trip the reply's voice and its bubble's style
   * agree: the bubble is 'ai-logan' exactly when the reply carries the
   * Logan tag, and the reply ends with the message sent.
   */
  lemma StyleMatchesVoice(c: Chat, s: Store, now: string)
    requires JsTrim(c.input) != ""
    ensures var (c1, sent) := Send(c);
      var (c2, s2) := Receive(c1, s, sent.value, now, true);
      var ai := c2.messages[|c2.messages| - 1];
      && (BubbleClass(ai, c2.mode) == "ai-logan" <==> Persona.LoganTag <= ai.text)
      && ai.text[|ai.text| - |sent.value|..] == sent.value
  {
    var (c1, sent) := Send(c);
    var m := sent.value;
    var (c2, s2) := Receive(c1, s, m, now, true);
    assert c2.messages[|c2.messages| - 1].text == Server.Respond(s, Some(m), now).1.body.reply;
    Persona.ReplyRevealsMode(s, m, now);
    Persona.RespondKeepsMode(s, m, now);
  }

  /** A failed request leaves the user's message as the last bubble, with no reply and no error shown. */
  lemma FailureLeavesOnlyUserMessage(c: Chat, s: Store, now: string)
    requires JsTrim(c.input) != ""
    ensures var (c1, sent) := Send(c);
      var (c2, _) := Receive(c1, s, sent.value, now, false);
      |c2.messages| == |c.messages| + 1 && c2.messages[|c.messages|] == Bubble(JsTrim(c.input), "user")
  {
  }
}

=== FILE: pending_chat.dfy ===
/**
 * The React chat box of frontend/src/components/ChatBox.jsx: a send
 * appends the user's message and a pending assistant placeholder and
 * records the placeholder's index in a single slot; the server's answer
 * (or error) later replaces the entry at the recorded index if it is
 * still pending. The asynchronous request is split into a send step and
 * a resolve step, so that interleavings can be stated.
 */
module PendingChat {
  import opened Wrappers
  import opened Text

  datatype Message = Message(role: string, content: string, pending: bool, timestamp: Option<string>)

  function UserMessage(text: string): Message {
    Message("user", text, false, None)
  }

  const Placeholder := Message("assistant", "", true, None)

  /** The text box, the conversation and the placeholder-index slot. */
  datatype ChatBox = ChatBox(input: string, messages: seq<Message>, pendingIdx: Option<nat>)

  /** How the request ended: the server's reply, or a thrown error's message. */
  datatype Outcome = Answered(response: string, timestamp: string) | Threw(message: string)

  /** The Send button is enabled exactly when the trimmed input is non-empty. */
  predicate CanSend(input: string) {
    JsTrim(input) != ""
  }

  /**
   * `handleSend`, up to the request: a blank input changes nothing and
   * sends nothing; otherwise the input is cleared, the trimmed text and a
   * placeholder are appended, the placeholder's index is recorded, and
   * the trimmed text is what gets sent.
   */
  function Send(c: ChatBox): (r: (ChatBox, Option<string>))
    ensures !CanSend(c.input) ==> r == (c, None)
    ensures CanSend(c.input) ==>
      && r.1 == Some(JsTrim(c.input))
      && r.0.input == ""
      && r.0.messages == c.messages + [UserMessage(JsTrim(c.input)), Placeholder]
      && r.0.pendingIdx == Some(|r.0.messages| - 1)
      && r.0.messages[r.0.pendingIdx.value].pending
  {
    var text := JsTrim(c.input);
    if text == "" then (c, None)
    else
      var withUser := c.messages + [UserMessage(text)];
      var arr := withUser + [Placeholder];
      (ChatBox("", arr, Some(|arr| - 1)), Some(text))
  }

  /** The entry that replaces the placeholder. */
  function Resolved(o: Outcome): (m: Message)
    ensures m.role == "assistant" && !m.pending
  {
    match o
    case Answered(response, ts) => Message("assistant", response, false, Some(ts))
    case Threw(msg) => Message("assistant", "Error: " + msg, false, None)
  }

  /** The recorded index names an entry that is still pending. */
  predicate PendingAt(c: ChatBox) {
    c.pendingIdx.Some? && c.pendingIdx.value < |c.messages| && c.messages[c.pendingIdx.value].pending
  }

  /**
   * The answer arriving: the entry at the recorded index becomes the
   * resolved message if it is still pending; the slot is cleared either
   * way; no other entry and not the length change.
   */
  function Resolve(c: ChatBox, o: Outcome): (r: ChatBox)
    ensures r.input == c.input && r.pendingIdx == None
    ensures |r.messages| == |c.messages|
    ensures forall i :: 0 <= i < |c.messages| && (!PendingAt(c) || i != c.pendingIdx.value) ==>
      r.messages[i] == c.messages[i]
    ensures PendingAt(c) ==> r.messages[c.pendingIdx.value] == Resolved(o)
  {
    if PendingAt(c) then c.(messages := c.messages[c.pendingIdx.value := Resolved(o)], pendingIdx := None)
    else c.(pendingIdx := None)
  }

  /** The number of pending entries. */
  function PendingCount(ms: seq<Message>): nat {
    if ms == [] then 0 else (if ms[|ms| - 1].pending then 1 else 0) + PendingCount(ms[..|ms| - 1])
  }

  lemma {:induction false} PendingCountAppend(ms: seq<Message>, m: Message)
    ensures PendingCount(ms + [m]) == PendingCount(ms) + (if m.pending then 1 else 0)
  {
    assert (ms + [m])[..|ms|] == ms;
  }

  lemma {:induction false} PendingCountUpdate(ms: seq<Message>, i: nat, m: Message)
    requires i < |ms|
    ensures PendingCount(ms[i := m]) ==
      PendingCount(ms) - (if ms[i].pending then 1 else 0) + (if m.pending then 1 else 0)
    decreases |ms|
  {
    var ms' := ms[i := m];
    if i < |ms| - 1 {
      assert ms'[..|ms'| - 1] == ms[..|ms| - 1][i := m];
      PendingCountUpdate(ms[..|ms| - 1], i, m);
    } else {
      assert ms'[..|ms'| - 1] == ms[..|ms| - 1];
    }
  }

  /**
   * A send followed by its answer leaves the conversation two entries
   * longer: the user's text and the resolved reply, with no placeholder
   * left behind.
   */
  lemma SendThenResolve(c: ChatBox, o: Outcome)
    requires CanSend(c.input)
    ensures var r := Resolve(Send(c).0, o);
      && r.messages == c.messages + [UserMessage(JsTrim(c.input)), Resolved(o)]
      && r.pendingIdx == None
  {
    var s := Send(c).0;
    assert PendingAt(s);
    var r := Resolve(s, o);
    assert r.messages == c.messages + [UserMessage(JsTrim(c.input)), Resolved(o)];
  }

  /** Resolving removes exactly one pending entry when the slot names one, and none otherwise. */
  lemma {:induction false} ResolveRemovesOnePending(c: ChatBox, o: Outcome)
    ensures PendingCount(Resolve(c, o).messages) ==
      PendingCount(c.messages) - (if PendingAt(c) then 1 else 0)
  {
    if PendingAt(c) {
      PendingCountUpdate(c.messages, c.pendingIdx.value, Resolved(o));
    }
  }

  /** A send adds exactly one pending entry. */
  lemma {:induction false} SendAddsOnePending(c: ChatBox)
    requires CanSend(c.input)
    ensures PendingCount(Send(c).0.messages) == PendingCount(c.messages) + 1
  {
    var u := UserMessage(JsTrim(c.input));
    PendingCountAppend(c.messages, u);
    PendingCountAppend(c.messages + [u], Placeholder);
    assert Send(c).0.messages == (c.messages + [u]) + [Placeholder];
  }

  /**
   * Two sends before either answer: the slot holds only the second
   * placeholder's index, so the first answer fills the second
   * placeholder, the second answer finds the slot empty and is dropped,
   * and the first placeholder stays pending for good.
   */
  lemma OverlappingSends(m1: string, m2: string, a1: Outcome, a2: Outcome)
    requires CanSend(m1) && CanSend(m2)
    ensures
      var c0 := ChatBox(m1, [], None);
      var c1 := Send(c0).0;
      var c2 := Send(c1.(input := m2)).0;
      var c3 := Resolve(c2, a1);
      var c4 := Resolve(c3, a2);
      && c4.messages == [UserMessage(JsTrim(m1)), Placeholder, UserMessage(JsTrim(m2)), Resolved(a1)]
      && c4.messages[1].pending
  {
    var c0 := ChatBox(m1, [], None);
    var c1 := Send(c0).0;
    assert c1.messages == [UserMessage(JsTrim(m1)), Placeholder];
    var c2 := Send(c1.(input := m2)).0;
    assert c2.messages == [UserMessage(JsTrim(m1)), Placeholder, UserMessage(JsTrim(m2)), Placeholder];
    assert c2.pendingIdx == Some(3);
    var c3 := Resolve(c2, a1);
    assert c3.messages == [UserMessage(JsTrim(m1)), Placeholder, UserMessage(JsTrim(m2)), Resolved(a1)];
  }
}

=== FILE: persona.dfy ===
/**
 * The dual personality of ajax_system/core/ajax_ai.py: the stored mode
 * decides the tone of a reply, and every reply is logged on the task
 * timeline.
 */
module Persona {
  import opened SystemStore
  import opened Memory

  const LoganTag := "[Logan] "
  const AjaxTag := "[Ajax] I understand! "

  /**
   * `respond`: mode 'Logan' answers in Logan's voice, every other mode in
   * Ajax's; the message follows the tag verbatim, and one 'done' task
   * "Responded in <mode> mode" is logged.
   */
  function Respond(s: Store, message: string, now: string): (r: (Store, string))
    ensures GetMode(s) == "Logan" ==> r.1 == LoganTag + message
    ensures GetMode(s) != "Logan" ==> r.1 == AjaxTag + message
    ensures GetTasks(r.0) == GetTasks(s) + [Task(|GetTasks(s)| + 1, "Responded in " + GetMode(s) + " mode", "done", now)]
    ensures r.0 == s.(tasks := r.0.tasks)
  {
    var mode := GetMode(s);
    var reply := if mode == "Logan" then LoganTag + message else AjaxTag + message;
    (LogDone(s, "Responded in " + mode + " mode", now), reply)
  }

  /** `current_mode`: the stored mode, or 'Ajax' when none is stored. */
  function CurrentMode(s: Store): (m: string)
    ensures s.state.Stored? && "mode" in s.state.value ==> m == s.state.value["mode"]
    ensures !(s.state.Stored? && "mode" in s.state.value) ==> m == "Ajax"
  {
    GetMode(s)
  }

  /**
   * `switch_mode`, which hands over to `set_mode`: the mode is stored, the
   * rest of the state is kept, and one 'done' task records the switch.
   */
  function SwitchMode(s: Store, mode: string, now: string): (s': Store)
    ensures s'.state.Stored? && "mode" in s'.state.value && s'.state.value["mode"] == mode
    ensures forall k :: k in GetState(s) && k != "mode" ==> k in GetState(s') && GetState(s')[k] == GetState(s)[k]
    ensures GetTasks(s') == GetTasks(s) + [Task(|GetTasks(s)| + 1, "Switched mode to " + mode, "done", now)]
  {
    SetMode(s, mode, now)
  }

  /** The mode switched to is the mode reported. */
  lemma SwitchThenCurrent(s: Store, mode: string, now: string)
    ensures CurrentMode(SwitchMode(s, mode, now)) == mode
  {
  }

  /**
   * A reply carries the Logan tag exactly when the mode is 'Logan', and
   * always ends with the message; so the message is recoverable from the
   * reply and the two voices never give the same reply.
   */
  lemma {:induction false} ReplyRevealsMode(s: Store, message: string, now: string)
    ensures var reply := Respond(s, message, now).1;
      && (LoganTag <= reply <==> GetMode(s) == "Logan")
      && reply[|reply| - |message|..] == message
  {
    var reply := Respond(s, message, now).1;
    if GetMode(s) != "Logan" {
      assert reply[1] == 'A' && LoganTag[1] == 'L';
    }
    if GetMode(s) == "Logan" {
      assert reply[|LoganTag|..] == message;
    } else {
      assert reply[|AjaxTag|..] == message;
    }
  }

  /** Responding never changes the mode. */
  lemma RespondKeepsMode(s: Store, message: string, now: string)
    ensures GetMode(Respond(s, message, now).0) == GetMode(s)
  {
  }
}

=== FILE: project_sidebar.dfy ===
/**
 * The project sidebar of ajax_system/frontend/components/Sidebar.jsx:
 * collapsible project folders listing the five categories, and the
 * prompts that create projects and agents and upload training files
 * through the server's handlers.
 */
module ProjectSidebar {
  import opened Wrappers
  import opened Text
  import opened SystemStore
  import Projects
  import AgentManager
  import Server

  /** Which folders are expanded; a project with no entry is collapsed. */
  type Expanded = map<string, bool>

  predicate IsExpanded(e: Expanded, name: string) {
    name in e && e[name]
  }

  /** `toggleProject`: only the named folder flips. */
  function ToggleProject(e: Expanded, name: string): (r: Expanded)
    ensures IsExpanded(r, name) <==> !IsExpanded(e, name)
    ensures forall p :: p != name ==> (p in r <==> p in e) && (IsExpanded(r, p) <==> IsExpanded(e, p))
  {
    e[name := !IsExpanded(e, name)]
  }

  /** Two clicks on a folder leave every folder as expanded or collapsed as before. */
  lemma ToggleTwiceRestores(e: Expanded, name: string, p: string)
    ensures IsExpanded(ToggleProject(ToggleProject(e, name), name), p) <==> IsExpanded(e, p)
  {
  }

  /** Folders open independently: toggling one never opens or closes another. */
  lemma FoldersIndependent(e: Expanded, a: string, b: string)
    requires a != b
    ensures IsExpanded(ToggleProject(ToggleProject(e, a), b), a) <==> !IsExpanded(e, a)
    ensures IsExpanded(ToggleProject(ToggleProject(e, a), b), b) <==> !IsExpanded(e, b)
  {
  }

  const Categories: seq<string> := ["slides", "captions", "scripts", "comments", "drafts"]

  /** The categories listed are exactly the subfolders a new project gets. */
  lemma CategoriesAreSubfolders()
    ensures Categories == Projects.Subfolders
  {
  }

  /** A category's caption: its first letter upper-cased. */
  function CategoryLabel(cat: string): (t: string)
    ensures |t| == |cat|
    ensures cat != [] ==> t[1..] == cat[1..] && t[0] == UpperChar(cat[0])
  {
    Capitalise(cat)
  }

  /** Lower-case ASCII letters only, as every category name is. */
  predicate IsLowerWord(cat: string) {
    forall k :: 0 <= k < |cat| ==> 'a' <= cat[k] <= 'z'
  }

  lemma CategoriesAreLowerWords()
    ensures forall i :: 0 <= i < |Categories| ==> IsLowerWord(Categories[i])
  {
  }

  /**
   * Lower-casing a caption gives back its category, so captions of
   * different categories differ.
   */
  lemma LabelsNameCategories(cat: string)
    requires IsLowerWord(cat)
    ensures Lower(CategoryLabel(cat)) == cat
  {
    var t := Lower(CategoryLabel(cat));
    assert forall k :: 0 <= k < |cat| ==> t[k] == cat[k];
  }

  lemma CategoryCaptions()
    ensures CategoryLabel("slides") == "Slides" && CategoryLabel("drafts") == "Drafts"
  {
  }

  // ---------------------------------------------------------------------
  // Lists from the server
  // ---------------------------------------------------------------------

  /** `loadProjects` / `loadAgents`: a failed fetch keeps the list; a missing field gives none. */
  function LoadList(cur: seq<string>, f: Fetch<seq<string>>): (r: seq<string>)
    ensures f.FetchFailed? ==> r == cur
    ensures f.Got? ==> r == f.field.GetOr([])
  {
    match f
    case FetchFailed => cur
    case Got(names) => names.GetOr([])
  }

  /** The names a listing shows, as a set. */
  function Shown(list: seq<string>): set<string> {
    set n | n in list
  }

  /**
   * "+ New Project": a cancelled or empty prompt sends nothing; otherwise
   * the name goes to the create handler. `delivered` says whether the
   * fetch was answered: a rejected one is a request the server never saw,
   * and it throws out of the handler before the list is fetched again.
   */
  function NewProject(s: Store, prompt: Option<string>, delivered: bool, createdAt: string, now: string)
    : (r: (Store, Option<Server.Reply>))
    ensures prompt.None? || prompt.value == "" || !delivered ==> r == (s, None)
    ensures prompt.Some? && prompt.value != "" && delivered ==>
      var (s', reply) := Server.CreateProject(s, prompt, createdAt, now);
      r == (s', Some(reply))
  {
    if prompt.None? || prompt.value == "" || !delivered then (s, None)
    else
      var (s', reply) := Server.CreateProject(s, prompt, createdAt, now);
      (s', Some(reply))
  }

  /**
   * Thanks to the guard the server never answers this client with "name
   * is required", and a fresh name is listed once the list is fetched
   * again.
   */
  lemma NewProjectGuarded(s: Store, prompt: Option<string>, delivered: bool, createdAt: string, now: string)
    ensures var (s', reply) := NewProject(s, prompt, delivered, createdAt, now);
      && (reply.Some? ==> reply.value != Server.Bad("name is required"))
      && (reply.Some? && prompt.value !in Projects.ListProjects(s) ==>
            Projects.ListProjects(s') == Projects.ListProjects(s) + {prompt.value})
  {
    var (s', reply) := NewProject(s, prompt, delivered, createdAt, now);
    if reply.Some? {
      if prompt.value !in Projects.ListProjects(s) {
        Projects.CreateThenListed(s, prompt.value, createdAt, now, now);
      } else {
        assert reply.value.body.error == "Project '" + prompt.value + "' already exists";
        assert reply.value.body.error[1] == 'r';
      }
    }
  }

  /**
   * "+ Add AI Agent": a cancelled or empty name sends nothing; otherwise
   * the name and the answers to the role and behaviour prompts go to the
   * create handler. A cancelled prompt is passed as absent; the page sends
   * it as a JSON null. A rejected fetch (`delivered` false) is a request
   * the server never saw.
   */
  function NewAgent(s: Store, name: Option<string>, role: Option<string>, behavior: Option<string>,
                    delivered: bool, createdAt: string, now: string): (r: (Store, Option<Server.Reply>))
    ensures name.None? || name.value == "" || !delivered ==> r == (s, None)
    ensures name.Some? && name.value != "" && delivered ==>
      var (s', reply) := Server.CreateAgent(s, name, role, behavior, createdAt, now);
      r == (s', Some(reply))
  {
    if name.None? || name.value == "" || !delivered then (s, None)
    else
      var (s', reply) := Server.CreateAgent(s, name, role, behavior, createdAt, now);
      (s', Some(reply))
  }

  /**
   * After a non-empty name is submitted and answered the agent is listed,
   * whether it was new or already taken; a rejected request lists nothing new.
   */
  lemma NewAgentListed(s: Store, name: string, role: Option<string>, behavior: Option<string>,
                       delivered: bool, createdAt: string, now: string)
    requires name != ""
    ensures var s' := NewAgent(s, Some(name), role, behavior, delivered, createdAt, now).0;
      && (delivered ==> AgentManager.ListAgents(s') == AgentManager.ListAgents(s) + {name})
      && (!delivered ==> s' == s)
  {
  }

  /**
   * A file chosen under an agent: no file sends nothing; a file is
   * uploaded without a summarise argument, and once the fetch is answered
   * the alert "Training file uploaded for <agent>" follows whatever the
   * server said. A rejected fetch (`delivered` false) throws before the
   * alert and is a request the server never saw.
   */
  function ChooseTrainingFile(s: Store, agent: string, file: Option<Server.Upload>, delivered: bool,
                              decoded: string, docxText: Option<string>, now: string): (r: (Store, Option<string>))
    ensures file.None? || !delivered ==> r == (s, None)
    ensures file.Some? && delivered ==>
      && r.0 == Server.UploadTraining(s, agent, file, None, decoded, docxText, now).0
      && r.1 == Some("Training file uploaded for " + agent)
  {
    if file.None? || !delivered then (s, None)
    else
      var (s', _) := Server.UploadTraining(s, agent, file, None, decoded, docxText, now);
      (s', Some("Training file uploaded for " + agent))
  }

  /** An agent the server does not know still gets the success alert, while the store is unchanged. */
  lemma AlertDespiteMissingAgent(s: Store, agent: string, f: Server.Upload, decoded: string,
                                 docxText: Option<string>, now: string)
    requires agent !in AgentManager.ListAgents(s)
    ensures ChooseTrainingFile(s, agent, Some(f), true, decoded, docxText, now) == (s, Some("Training file uploaded for " + agent))
  {
  }

  /** Uploads from the sidebar are always summarised, since no summarise argument is sent. */
  lemma SidebarUploadsSummarise()
    ensures Server.SummariseFlag(None)
  {
  }
}

=== FILE: projects.dfy ===
/**
 * Project folders of ajax_system/core/tasks.py: creating a project is
 * create-if-absent, with five standard sub-folders and empty metadata,
 * and is logged on the task timeline.
 */
module Projects {
  import opened Wrappers
  import opened SystemStore
  import opened Memory

  /** The sub-folders every project gets, in creation order. */
  const Subfolders: seq<string> := ["slides", "captions", "scripts", "comments", "drafts"]

  /** `list_projects`: the project directories (the source lists them in directory order). */
  function ListProjects(s: Store): set<string> {
    s.projects.Keys
  }

  /** The `project.json` a new project gets: no description and no files in any of the five categories. */
  function NewMetadata(name: string, createdAt: string): (m: ProjectMeta)
    ensures m.name == name && m.description == ""
    ensures m.files.Keys == set f | f in Subfolders
    ensures forall f :: f in m.files ==> m.files[f] == []
  {
    ProjectMeta(name, createdAt, "", map["slides" := [], "captions" := [], "scripts" := [], "comments" := [], "drafts" := []])
  }

  /**
   * `create_project`: an existing name fails with the `FileExistsError`
   * message and changes nothing; a new one adds the project with its
   * metadata and logs one 'done' task "Created project '<name>'".
   */
  function CreateProject(s: Store, name: string, createdAt: string, now: string): (r: Result<Store, string>)
    ensures r.Failure? <==> name in ListProjects(s)
    ensures r.Failure? ==> r.error == "Project '" + name + "' already exists"
    ensures r.Success? ==>
      && r.value.projects == s.projects[name := NewMetadata(name, createdAt)]
      && GetTasks(r.value) == GetTasks(s) + [Task(|GetTasks(s)| + 1, "Created project '" + name + "'", "done", now)]
      && r.value == s.(projects := r.value.projects, tasks := r.value.tasks)
  {
    if name in s.projects then Failure("Project '" + name + "' already exists")
    else
      var s1 := s.(projects := s.projects[name := NewMetadata(name, createdAt)]);
      Success(LogDone(s1, "Created project '" + name + "'", now))
  }

  /**
   * `tasks.add_task`, which hands over to `memory.add_task`: the task gets
   * the next id, ends the timeline and is returned, and only the timeline
   * changes.
   */
  function AddTaskVia(s: Store, description: string, status: string, now: string): (r: (Store, Task))
    ensures r.1 == Task(|GetTasks(s)| + 1, description, status, now)
    ensures GetTasks(r.0) == GetTasks(s) + [r.1]
    ensures r.0 == s.(tasks := r.0.tasks)
  {
    AddTask(s, description, status, now)
  }

  /**
   * A project that has been created is listed, and creating it again
   * fails without touching the store.
   */
  lemma CreateThenListed(s: Store, name: string, createdAt: string, now: string, later: string)
    requires name !in ListProjects(s)
    ensures var s' := CreateProject(s, name, createdAt, now).value;
      && ListProjects(s') == ListProjects(s) + {name}
      && CreateProject(s', name, createdAt, later) == Failure("Project '" + name + "' already exists")
  {
  }

  /** Creating a project never changes an existing project. */
  lemma CreateKeepsOthers(s: Store, name: string, createdAt: string, now: string)
    ensures CreateProject(s, name, createdAt, now).Success? ==>
      forall p :: p in s.projects ==> CreateProject(s, name, createdAt, now).value.projects[p] == s.projects[p]
  {
  }
}

=== FILE: server.dfy ===
/**
 * The REST handlers of ajax_system/main.py, each a function from the
 * parsed request fields and the store to the new store and a reply
 * (status code and JSON body). A JSON field the client left out is
 * `None`; Python's `if not x` treats it like the empty string.
 */
module Server {
  import opened Wrappers
  import opened Text
  import opened SystemStore
  import opened Memory
  import Projects
  import AgentManager
  import Persona

  datatype Body =
    | ModeBody(mode: string)
    | ErrorBody(error: string)
    | AgentsBody(agents: set<string>)
    | AgentCreated(agent: string)
    | Received(file: string)
    | ProjectsBody(projects: set<string>)
    | ProjectCreated(project: string)
    | Saved(keys: seq<string>)
    | TasksBody(tasks: seq<Task>)
    | Added(task: Task)
    | IdleBody(config: map<string, string>)
    | Updated
    | ReplyBody(reply: string)

  datatype Reply = Reply(code: nat, body: Body)

  /** A multipart file field: its name and raw bytes. */
  datatype Upload = Upload(filename: string, content: Bytes)

  /** Python truthiness of an optional string field. */
  predicate Given(v: Option<string>) {
    v.Some? && v.value != ""
  }

  function Bad(msg: string): Reply {
    Reply(400, ErrorBody(msg))
  }

  // ---------------------------------------------------------------------
  // Mode
  // ---------------------------------------------------------------------

  /** The two mode routes: `mode` is stored and returned, and the switch is logged as one done task. */
  function SwitchModeRoute(s: Store, mode: string, now: string): (r: (Store, Reply))
    ensures GetMode(r.0) == mode
    ensures r.1 == Reply(200, ModeBody(mode))
    ensures GetTasks(r.0) == GetTasks(s) + [Task(|GetTasks(s)| + 1, "Switched mode to " + mode, "done", now)]
  {
    var s' := SetMode(s, mode, now);
    (s', Reply(200, ModeBody(GetMode(s'))))
  }

  /** `/loganin`: Logan is present, so the assistant persona 'Ajax' is stored and returned. */
  function LoganIn(s: Store, now: string): (Store, Reply) {
    SwitchModeRoute(s, "Ajax", now)
  }

  /** `/loganout`: Logan is away, so his own persona 'Logan' is stored and returned. */
  function LoganOut(s: Store, now: string): (Store, Reply) {
    SwitchModeRoute(s, "Logan", now)
  }

  // ---------------------------------------------------------------------
  // Agents and projects
  // ---------------------------------------------------------------------

  /**
   * `/agents/create`: a missing or empty name is a 400 before anything
   * happens; an existing agent is a 400 carrying the existence message;
   * otherwise the agent is created.
   */
  function CreateAgent(s: Store, name: Option<string>, role: Option<string>, baseBehavior: Option<string>,
                       createdAt: string, now: string): (r: (Store, Reply))
    ensures !Given(name) ==> r == (s, Bad("name is required"))
    ensures Given(name) && name.value in AgentManager.ListAgents(s) ==>
      r == (s, Bad("Agent '" + name.value + "' already exists"))
    ensures Given(name) && name.value !in AgentManager.ListAgents(s) ==>
      && r.1 == Reply(200, AgentCreated(name.value))
      && r.0 == AgentManager.CreateAgent(s, name.value, role.GetOr(""), baseBehavior.GetOr(""), createdAt, now).value
  {
    if !Given(name) then (s, Bad("name is required"))
    else match AgentManager.CreateAgent(s, name.value, role.GetOr(""), baseBehavior.GetOr(""), createdAt, now)
      case Failure(e) => (s, Bad(e))
      case Success(s') => (s', Reply(200, AgentCreated(name.value)))
  }

  /** The `summarise` query flag: on unless its value lowercases to "false". */
  function SummariseFlag(arg: Option<string>): (on: bool)
    ensures !on <==> arg.Some? && Lower(arg.value) == "false"
  {
    Lower(arg.GetOr("true")) != "false"
  }

  /** Only a case variant of "false" switches summaries off; an absent flag leaves them on. */
  lemma SummariseFlagCases()
    ensures SummariseFlag(None)
    ensures !SummariseFlag(Some("FALSE")) && !SummariseFlag(Some("False"))
    ensures SummariseFlag(Some("no")) && SummariseFlag(Some("0")) && SummariseFlag(Some(""))
  {
  }

  /**
   * `/agents/<name>/upload_training`: no file field is a 400, an unknown
   * agent a 404 with nothing stored, and otherwise the file is received
   * with the summarise flag from the query.
   */
  function UploadTraining(s: Store, agentName: string, file: Option<Upload>, summariseArg: Option<string>,
                          decoded: string, docxText: Option<string>, now: string): (r: (Store, Reply))
    ensures file.None? ==> r == (s, Bad("No file uploaded"))
    ensures file.Some? && agentName !in AgentManager.ListAgents(s) ==>
      r == (s, Reply(404, ErrorBody("Agent " + agentName + " does not exist")))
    ensures file.Some? && agentName in AgentManager.ListAgents(s) ==>
      && r.1 == Reply(200, Received(file.value.filename))
      && r.0 == AgentManager.UploadTrainingFile(s, agentName, file.value.filename, file.value.content,
                                                decoded, docxText, SummariseFlag(summariseArg), now).value
  {
    if file.None? then (s, Bad("No file uploaded"))
    else
      var f := file.value;
      match AgentManager.UploadTrainingFile(s, agentName, f.filename, f.content, decoded, docxText, SummariseFlag(summariseArg), now)
      case Failure(_) => (s, Reply(404, ErrorBody("Agent " + agentName + " does not exist")))
      case Success(s') => (s', Reply(200, Received(f.filename)))
  }

  /** `/projects/create`: the same validation as agents, then `create_project`. */
  function CreateProject(s: Store, name: Option<string>, createdAt: string, now: string): (r: (Store, Reply))
    ensures !Given(name) ==> r == (s, Bad("name is required"))
    ensures Given(name) && name.value in Projects.ListProjects(s) ==>
      r == (s, Bad("Project '" + name.value + "' already exists"))
    ensures Given(name) && name.value !in Projects.ListProjects(s) ==>
      && r.1 == Reply(200, ProjectCreated(name.value))
      && r.0 == Projects.CreateProject(s, name.value, createdAt, now).value
  {
    if !Given(name) then (s, Bad("name is required"))
    else match Projects.CreateProject(s, name.value, createdAt, now)
      case Failure(e) => (s, Bad(e))
      case Success(s') => (s', Reply(200, ProjectCreated(name.value)))
  }

  // ---------------------------------------------------------------------
  // Platform credentials
  // ---------------------------------------------------------------------

  /** The environment-key prefix for a project's account on a platform. */
  function KeyPrefix(project: string, platform: string): (p: string)
    ensures |p| == |project| + 1 + |platform|
    ensures p[|project|] == '_'
    ensures forall i :: 0 <= i < |project| ==> p[i] == UpperChar(project[i])
    ensures forall i :: 0 <= i < |platform| ==> p[|project| + 1 + i] == UpperChar(platform[i])
  {
    Upper(project) + "_" + Upper(platform)
  }

  /** One environment entry when the credential is given, none otherwise. */
  function Entry(key: string, v: Option<string>): (e: seq<(string, string)>)
    ensures Given(v) ==> e == [(key, v.value)]
    ensures !Given(v) ==> e == []
  {
    if Given(v) then [(key, v.value)] else []
  }

  /** The entries `connect_platform` writes, in token, username, password order. */
  function EnvUpdates(prefix: string, token: Option<string>, username: Option<string>, password: Option<string>)
    : (u: seq<(string, string)>)
    ensures u == [] <==> !Given(token) && !Given(username) && !Given(password)
    ensures |u| <= 3
  {
    Entry(prefix + "_TOKEN", token) + Entry(prefix + "_USERNAME", username) + Entry(prefix + "_PASSWORD", password)
  }

  function KeysOf(u: seq<(string, string)>): (ks: seq<string>)
    ensures |ks| == |u|
    ensures forall i :: 0 <= i < |u| ==> ks[i] == u[i].0
  {
    if u == [] then [] else [u[0].0] + KeysOf(u[1..])
  }

  /** The `.env` text of the entries: one `KEY=value` line each, in order. */
  function DotenvLines(u: seq<(string, string)>): (t: string)
    ensures u == [] ==> t == ""
    ensures u != [] ==> t == u[0].0 + "=" + u[0].1 + "\n" + DotenvLines(u[1..])
  {
    if u == [] then "" else u[0].0 + "=" + u[0].1 + "\n" + DotenvLines(u[1..])
  }

  /** `os.environ[key] = value` for each entry in order. */
  function SetEnv(env: map<string, string>, u: seq<(string, string)>): map<string, string>
    decreases |u|
  {
    if u == [] then env else SetEnv(env, u[..|u| - 1])[u[|u| - 1].0 := u[|u| - 1].1]
  }

  /** A variable no entry names keeps its value (or stays unset). */
  lemma {:induction false} SetEnvOther(env: map<string, string>, u: seq<(string, string)>, k: string)
    requires forall i :: 0 <= i < |u| ==> u[i].0 != k
    ensures k in SetEnv(env, u) <==> k in env
    ensures k in env ==> SetEnv(env, u)[k] == env[k]
    decreases |u|
  {
    if u != [] {
      SetEnvOther(env, u[..|u| - 1], k);
    }
  }

  /** A variable gets the value of the last entry that names it. */
  lemma {:induction false} SetEnvLast(env: map<string, string>, u: seq<(string, string)>, i: nat)
    requires i < |u|
    requires forall j :: i < j < |u| ==> u[j].0 != u[i].0
    ensures u[i].0 in SetEnv(env, u) && SetEnv(env, u)[u[i].0] == u[i].1
    decreases |u|
  {
    if i < |u| - 1 {
      SetEnvLast(env, u[..|u| - 1], i);
    }
  }

  /** The three key suffixes are told apart by their second character, so the keys never collide. */
  lemma SuffixesDiffer(prefix: string)
    ensures prefix + "_TOKEN" != prefix + "_USERNAME"
    ensures prefix + "_TOKEN" != prefix + "_PASSWORD"
    ensures prefix + "_USERNAME" != prefix + "_PASSWORD"
  {
    var t, u, p := prefix + "_TOKEN", prefix + "_USERNAME", prefix + "_PASSWORD";
    assert t[|prefix| + 1] == 'T';
    assert u[|prefix| + 1] == 'U';
    assert p[|prefix| + 1] == 'P';
  }

  /**
   * `/connect_platform`: project and platform must both be given, then at
   * least one credential; a rejected request writes nothing. An accepted
   * one appends the entries' lines to `.env`, sets them in the
   * environment and returns their keys; the timeline is untouched.
   */
  function ConnectPlatform(s: Store, project: Option<string>, platform: Option<string>,
                           token: Option<string>, username: Option<string>, password: Option<string>)
    : (r: (Store, Reply))
    ensures !Given(project) || !Given(platform) ==> r == (s, Bad("project and platform are required"))
    ensures Given(project) && Given(platform) && !Given(token) && !Given(username) && !Given(password) ==>
      r == (s, Bad("No credentials provided"))
    ensures Given(project) && Given(platform) && (Given(token) || Given(username) || Given(password)) ==>
      var u := EnvUpdates(KeyPrefix(project.value, platform.value), token, username, password);
      && r.1 == Reply(200, Saved(KeysOf(u)))
      && r.0 == s.(dotenv := s.dotenv + DotenvLines(u), environ := SetEnv(s.environ, u))
  {
    if !Given(project) || !Given(platform) then (s, Bad("project and platform are required"))
    else
      var u := EnvUpdates(KeyPrefix(project.value, platform.value), token, username, password);
      if u == [] then (s, Bad("No credentials provided"))
      else (s.(dotenv := s.dotenv + DotenvLines(u), environ := SetEnv(s.environ, u)), Reply(200, Saved(KeysOf(u))))
  }

  /**
   * Every credential given is readable back from the environment under
   * PROJECT_PLATFORM_TOKEN, _USERNAME or _PASSWORD, and every other
   * variable keeps its value.
   */
  lemma {:induction false} ConnectStoresCredentials(s: Store, project: string, platform: string,
                                                     token: Option<string>, username: Option<string>, password: Option<string>)
    requires project != "" && platform != ""
    requires Given(token) || Given(username) || Given(password)
    ensures var r := ConnectPlatform(s, Some(project), Some(platform), token, username, password);
      var p := KeyPrefix(project, platform);
      && r.1.code == 200
      && (Given(token) ==> p + "_TOKEN" in r.0.environ && r.0.environ[p + "_TOKEN"] == token.value)
      && (Given(username) ==> p + "_USERNAME" in r.0.environ && r.0.environ[p + "_USERNAME"] == username.value)
      && (Given(password) ==> p + "_PASSWORD" in r.0.environ && r.0.environ[p + "_PASSWORD"] == password.value)
      && (forall k :: k in s.environ && k !in {p + "_TOKEN", p + "_USERNAME", p + "_PASSWORD"} ==>
            k in r.0.environ && r.0.environ[k] == s.environ[k])
  {
    ConnectSetsEnviron(s, project, platform, token, username, password);
    UpdatesStoreCredentials(s.environ, KeyPrefix(project, platform), token, username, password);
  }

  /** A connection with some credential answers 200 and applies the updates for its prefix to the environment. */
  lemma ConnectSetsEnviron(s: Store, project: string, platform: string,
                           token: Option<string>, username: Option<string>, password: Option<string>)
    requires project != "" && platform != ""
    requires Given(token) || Given(username) || Given(password)
    ensures var r := ConnectPlatform(s, Some(project), Some(platform), token, username, password);
      && r.1.code == 200
      && r.0.environ == SetEnv(s.environ, EnvUpdates(KeyPrefix(project, platform), token, username, password))
  {
  }

  /** The environment after the updates for prefix `p`: each given credential under its key, every other variable as before. */
  lemma {:induction false} UpdatesStoreCredentials(env: map<string, string>, p: string,
                                                   token: Option<string>, username: Option<string>, password: Option<string>)
    ensures var env' := SetEnv(env, EnvUpdates(p, token, username, password));
      && (Given(token) ==> p + "_TOKEN" in env' && env'[p + "_TOKEN"] == token.value)
      && (Given(username) ==> p + "_USERNAME" in env' && env'[p + "_USERNAME"] == username.value)
      && (Given(password) ==> p + "_PASSWORD" in env' && env'[p + "_PASSWORD"] == password.value)
      && (forall k :: k in env && k !in {p + "_TOKEN", p + "_USERNAME", p + "_PASSWORD"} ==>
            k in env' && env'[k] == env[k])
  {
    if Given(token) {
      UpdatesStoreToken(env, p, token, username, password);
    }
    if Given(username) {
      UpdatesStoreUsername(env, p, token, username, password);
    }
    if Given(password) {
      UpdatesStorePassword(env, p, token, username, password);
    }
    UpdatesKeepOthers(env, p, token, username, password);
  }

  lemma UpdatesStoreToken(env: map<string, string>, p: string,
                          token: Option<string>, username: Option<string>, password: Option<string>)
    requires Given(token)
    ensures var env' := SetEnv(env, EnvUpdates(p, token, username, password));
      p + "_TOKEN" in env' && env'[p + "_TOKEN"] == token.value
  {
    var u := EnvUpdates(p, token, username, password);
    SuffixesDiffer(p);
    var eu, ep := Entry(p + "_USERNAME", username), Entry(p + "_PASSWORD", password);
    assert u == [(p + "_TOKEN", token.value)] + eu + ep;
    assert forall j :: 0 < j < |u| ==> u[j].0 != u[0].0;
    SetEnvLast(env, u, 0);
  }

  lemma UpdatesStoreUsername(env: map<string, string>, p: string,
                             token: Option<string>, username: Option<string>, password: Option<string>)
    requires Given(username)
    ensures var env' := SetEnv(env, EnvUpdates(p, token, username, password));
      p + "_USERNAME" in env' && env'[p + "_USERNAME"] == username.value
  {
    var u := EnvUpdates(p, token, username, password);
    SuffixesDiffer(p);
    var et, ep := Entry(p + "_TOKEN", token), Entry(p + "_PASSWORD", password);
    assert u == et + [(p + "_USERNAME", username.value)] + ep;
    assert forall j :: |et| < j < |u| ==> u[j].0 == p + "_PASSWORD";
    SetEnvLast(env, u, |et|);
  }

  lemma UpdatesStorePassword(env: map<string, string>, p: string,
                             token: Option<string>, username: Option<string>, password: Option<string>)
    requires Given(password)
    ensures var env' := SetEnv(env, EnvUpdates(p, token, username, password));
      p + "_PASSWORD" in env' && env'[p + "_PASSWORD"] == password.value
  {
    var u := EnvUpdates(p, token, username, password);
    assert u[|u| - 1] == (p + "_PASSWORD", password.value);
    SetEnvLast(env, u, |u| - 1);
  }

  lemma UpdatesKeepOthers(env: map<string, string>, p: string,
                          token: Option<string>, username: Option<string>, password: Option<string>)
    ensures var env' := SetEnv(env, EnvUpdates(p, token, username, password));
      forall k :: k in env && k !in {p + "_TOKEN", p + "_USERNAME", p + "_PASSWORD"} ==>
        k in env' && env'[k] == env[k]
  {
    var u := EnvUpdates(p, token, username, password);
    var et, eu, ep := Entry(p + "_TOKEN", token), Entry(p + "_USERNAME", username), Entry(p + "_PASSWORD", password);
    assert u == et + eu + ep;
    forall k | k in env && k !in {p + "_TOKEN", p + "_USERNAME", p + "_PASSWORD"}
      ensures k in SetEnv(env, u) && SetEnv(env, u)[k] == env[k]
    {
      forall i | 0 <= i < |u| ensures u[i].0 != k {
        if i < |et| {
          assert u[i] == et[i];
        } else if i < |et| + |eu| {
          assert u[i] == eu[i - |et|];
        } else {
          assert u[i] == ep[i - |et| - |eu|];
        }
      }
      SetEnvOther(env, u, k);
    }
  }

  /** The key a credential contributes to the answer: its own when given, none otherwise. */
  function KeyIf(key: string, v: Option<string>): seq<string> {
    if Given(v) then [key] else []
  }

  lemma KeysOfAppend(a: seq<(string, string)>, b: seq<(string, string)>)
    ensures KeysOf(a + b) == KeysOf(a) + KeysOf(b)
  {
    assert forall i :: 0 <= i < |a + b| ==> KeysOf(a + b)[i] == (KeysOf(a) + KeysOf(b))[i];
  }

  /**
   * The keys of the updates are PREFIX_TOKEN, PREFIX_USERNAME and
   * PREFIX_PASSWORD in that order, each present exactly when its
   * credential is given and non-empty.
   */
  lemma {:induction false} EnvUpdatesKeys(prefix: string, token: Option<string>, username: Option<string>, password: Option<string>)
    ensures KeysOf(EnvUpdates(prefix, token, username, password))
      == KeyIf(prefix + "_TOKEN", token) + KeyIf(prefix + "_USERNAME", username) + KeyIf(prefix + "_PASSWORD", password)
  {
    var et := Entry(prefix + "_TOKEN", token);
    var eu := Entry(prefix + "_USERNAME", username);
    var ep := Entry(prefix + "_PASSWORD", password);
    KeysOfAppend(et + eu, ep);
    KeysOfAppend(et, eu);
  }

  /**
   * A connection with some credential answers with the keys in token,
   * username, password order, skipping the ones not given, for every
   * combination of credentials.
   */
  lemma {:induction false} ConnectKeysInOrder(s: Store, project: Option<string>, platform: Option<string>,
                                              token: Option<string>, username: Option<string>, password: Option<string>)
    ensures Given(project) && Given(platform) && (Given(token) || Given(username) || Given(password)) ==>
      var p := KeyPrefix(project.value, platform.value);
      ConnectPlatform(s, project, platform, token, username, password).1.body
        == Saved(KeyIf(p + "_TOKEN", token) + KeyIf(p + "_USERNAME", username) + KeyIf(p + "_PASSWORD", password))
  {
    if Given(project) && Given(platform) {
      EnvUpdatesKeys(KeyPrefix(project.value, platform.value), token, username, password);
    }
  }

  // ---------------------------------------------------------------------
  // Tasks, idle behaviours and replies
  // ---------------------------------------------------------------------

  /** `/tasks/add`: a missing or empty description is a 400; otherwise the task (status default 'pending') is added and returned. */
  function AddTask(s: Store, description: Option<string>, status: Option<string>, now: string): (r: (Store, Reply))
    ensures !Given(description) ==> r == (s, Bad("description is required"))
    ensures Given(description) ==>
      var t := Task(|GetTasks(s)| + 1, description.value, status.GetOr("pending"), now);
      && r.1 == Reply(200, Added(t))
      && GetTasks(r.0) == GetTasks(s) + [t]
      && r.0 == s.(tasks := r.0.tasks)
  {
    if !Given(description) then (s, Bad("description is required"))
    else
      var (s', t) := Projects.AddTaskVia(s, description.value, status.GetOr("pending"), now);
      (s', Reply(200, Added(t)))
  }

  /** `POST /idle_behaviors`: the configuration is replaced. */
  function SetIdle(s: Store, config: map<string, string>, now: string): (r: (Store, Reply))
    ensures r.1 == Reply(200, Updated)
    ensures GetIdleBehaviors(r.0) == config
  {
    (SetIdleBehaviors(s, config, now), Reply(200, Updated))
  }

  /**
   * `/respond`: the persona reply to the message, which defaults to "";
   * the mode is kept and the reply is logged as one task.
   */
  function Respond(s: Store, message: Option<string>, now: string): (r: (Store, Reply))
    ensures r.1.code == 200 && r.1.body.ReplyBody?
    ensures GetMode(s) == "Logan" ==> r.1.body.reply == Persona.LoganTag + message.GetOr("")
    ensures GetMode(s) != "Logan" ==> r.1.body.reply == Persona.AjaxTag + message.GetOr("")
    ensures GetMode(r.0) == GetMode(s)
    ensures GetTasks(r.0) == GetTasks(s) + [Task(|GetTasks(s)| + 1, "Responded in " + GetMode(s) + " mode", "done", now)]
  {
    var (s', reply) := Persona.Respond(s, message.GetOr(""), now);
    (s', Reply(200, ReplyBody(reply)))
  }

  // ---------------------------------------------------------------------
  // All handlers
  // ---------------------------------------------------------------------

  datatype Request =
    | GetModeReq
    | LoganInReq
    | LoganOutReq
    | ListAgentsReq
    | CreateAgentReq(name: Option<string>, role: Option<string>, baseBehavior: Option<string>, createdAt: string)
    | UploadTrainingReq(agent: string, file: Option<Upload>, summarise: Option<string>, decoded: string, docxText: Option<string>)
    | ListProjectsReq
    | CreateProjectReq(project: Option<string>, createdAt: string)
    | ConnectPlatformReq(proj: Option<string>, platform: Option<string>, token: Option<string>, username: Option<string>, password: Option<string>)
    | ListTasksReq
    | AddTaskReq(description: Option<string>, status: Option<string>)
    | GetIdleReq
    | SetIdleReq(config: map<string, string>)
    | RespondReq(message: Option<string>)

  /** Dispatch of one request at time `now`. */
  function Handle(s: Store, req: Request, now: string): (r: (Store, Reply))
    ensures req.GetModeReq? || req.ListAgentsReq? || req.ListProjectsReq? || req.ListTasksReq? || req.GetIdleReq? ==>
      r.0 == s && r.1.code == 200
  {
    match req
    case GetModeReq => (s, Reply(200, ModeBody(GetMode(s))))
    case LoganInReq => LoganIn(s, now)
    case LoganOutReq => LoganOut(s, now)
    case ListAgentsReq => (s, Reply(200, AgentsBody(AgentManager.ListAgents(s))))
    case CreateAgentReq(name, role, behavior, createdAt) => CreateAgent(s, name, role, behavior, createdAt, now)
    case UploadTrainingReq(agent, file, flag, decoded, docxText) => UploadTraining(s, agent, file, flag, decoded, docxText, now)
    case ListProjectsReq => (s, Reply(200, ProjectsBody(Projects.ListProjects(s))))
    case CreateProjectReq(name, createdAt) => CreateProject(s, name, createdAt, now)
    case ConnectPlatformReq(project, platform, token, username, password) =>
      ConnectLogsNothing(s, project, platform, token, username, password);
      ConnectPlatform(s, project, platform, token, username, password)
    case ListTasksReq => (s, Reply(200, TasksBody(GetTasks(s))))
    case AddTaskReq(description, status) => AddTask(s, description, status, now)
    case GetIdleReq => (s, Reply(200, IdleBody(GetIdleBehaviors(s))))
    case SetIdleReq(config) => SetIdle(s, config, now)
    case RespondReq(message) => Respond(s, message, now)
  }

  /** One request leaves the timeline alone or appends one task carrying the next id. */
  predicate LogsAtMostOne(before: seq<Task>, after: seq<Task>) {
    after == before || (|after| == |before| + 1 && after[..|before|] == before && after[|before|].id == |before| + 1)
  }

  lemma HandleLogsAtMostOne(s: Store, req: Request, now: string)
    ensures LogsAtMostOne(GetTasks(s), GetTasks(Handle(s, req, now).0))
  {
    match req
    case GetModeReq | ListAgentsReq | ListProjectsReq | ListTasksReq | GetIdleReq =>
    case LoganInReq =>
      ModeLogsOne(s, now);
    case LoganOutReq =>
      ModeLogsOne(s, now);
    case CreateAgentReq(name, role, behavior, createdAt) =>
      CreateAgentLogsAtMostOne(s, name, role, behavior, createdAt, now);
    case UploadTrainingReq(agent, file, flag, decoded, docxText) =>
      UploadLogsAtMostOne(s, agent, file, flag, decoded, docxText, now);
    case CreateProjectReq(name, createdAt) =>
      CreateProjectLogsAtMostOne(s, name, createdAt, now);
    case ConnectPlatformReq(project, platform, token, username, password) =>
      ConnectLogsNothing(s, project, platform, token, username, password);
    case AddTaskReq(description, status) =>
      AddTaskLogsAtMostOne(s, description, status, now);
    case SetIdleReq(config) =>
      SetIdleLogsOne(s, config, now);
    case RespondReq(message) =>
      RespondLogsOne(s, message, now);
  }

  lemma ModeLogsOne(s: Store, now: string)
    ensures LogsAtMostOne(GetTasks(s), GetTasks(LoganIn(s, now).0))
    ensures LogsAtMostOne(GetTasks(s), GetTasks(LoganOut(s, now).0))
  {
    AppendLogsOne(GetTasks(s), Task(|GetTasks(s)| + 1, "Switched mode to " + "Ajax", "done", now));
    AppendLogsOne(GetTasks(s), Task(|GetTasks(s)| + 1, "Switched mode to " + "Logan", "done", now));
  }

  lemma ConnectLogsNothing(s: Store, project: Option<string>, platform: Option<string>,
                           token: Option<string>, username: Option<string>, password: Option<string>)
    ensures GetTasks(ConnectPlatform(s, project, platform, token, username, password).0) == GetTasks(s)
  {
  }

  lemma SetIdleLogsOne(s: Store, config: map<string, string>, now: string)
    ensures LogsAtMostOne(GetTasks(s), GetTasks(SetIdle(s, config, now).0))
  {
    AppendLogsOne(GetTasks(s), Task(|GetTasks(s)| + 1, "Updated idle behaviours configuration", "done", now));
  }

  lemma RespondLogsOne(s: Store, message: Option<string>, now: string)
    ensures LogsAtMostOne(GetTasks(s), GetTasks(Respond(s, message, now).0))
  {
    AppendLogsOne(GetTasks(s), Task(|GetTasks(s)| + 1, "Responded in " + GetMode(s) + " mode", "done", now));
  }

  lemma CreateAgentLogsAtMostOne(s: Store, name: Option<string>, role: Option<string>, baseBehavior: Option<string>,
                                 createdAt: string, now: string)
    ensures LogsAtMostOne(GetTasks(s), GetTasks(CreateAgent(s, name, role, baseBehavior, createdAt, now).0))
  {
    if Given(name) && name.value !in AgentManager.ListAgents(s) {
      AppendLogsOne(GetTasks(s), Task(|GetTasks(s)| + 1, "Created agent '" + name.value + "'", "done", now));
    }
  }

  lemma UploadLogsAtMostOne(s: Store, agentName: string, file: Option<Upload>, summariseArg: Option<string>,
                            decoded: string, docxText: Option<string>, now: string)
    ensures LogsAtMostOne(GetTasks(s), GetTasks(UploadTraining(s, agentName, file, summariseArg, decoded, docxText, now).0))
  {
    if file.Some? && agentName in AgentManager.ListAgents(s) {
      AppendLogsOne(GetTasks(s), Task(|GetTasks(s)| + 1, "Training file received: " + file.value.filename, "done", now));
    }
  }

  lemma CreateProjectLogsAtMostOne(s: Store, name: Option<string>, createdAt: string, now: string)
    ensures LogsAtMostOne(GetTasks(s), GetTasks(CreateProject(s, name, createdAt, now).0))
  {
    if Given(name) && name.value !in Projects.ListProjects(s) {
      AppendLogsOne(GetTasks(s), Task(|GetTasks(s)| + 1, "Created project '" + name.value + "'", "done", now));
    }
  }

  lemma AddTaskLogsAtMostOne(s: Store, description: Option<string>, status: Option<string>, now: string)
    ensures LogsAtMostOne(GetTasks(s), GetTasks(AddTask(s, description, status, now).0))
  {
    if Given(description) {
      AppendLogsOne(GetTasks(s), Task(|GetTasks(s)| + 1, description.value, status.GetOr("pending"), now));
    }
  }

  lemma AppendLogsOne(t: seq<Task>, task: Task)
    requires task.id == |t| + 1
    ensures LogsAtMostOne(t, t + [task])
  {
    assert (t + [task])[..|t|] == t;
  }

  /** Serving requests one after another, with one timestamp per request. */
  function Serve(s: Store, reqs: seq<Request>, nows: seq<string>): Store
    requires |nows| == |reqs|
    decreases |reqs|
  {
    if reqs == [] then s else Serve(Handle(s, reqs[0], nows[0]).0, reqs[1..], nows[1..])
  }

  /** Whatever the requests, a timeline whose ids are 1..n keeps them 1..n. */
  lemma {:induction false} ServeKeepsIds(s: Store, reqs: seq<Request>, nows: seq<string>)
    requires |nows| == |reqs|
    requires IdsSequential(GetTasks(s))
    ensures IdsSequential(GetTasks(Serve(s, reqs, nows)))
    decreases |reqs|
  {
    if reqs != [] {
      var s1 := Handle(s, reqs[0], nows[0]).0;
      HandleLogsAtMostOne(s, reqs[0], nows[0]);
      StepKeepsIds(GetTasks(s), GetTasks(s1));
      ServeKeepsIds(s1, reqs[1..], nows[1..]);
    }
  }

  lemma StepKeepsIds(t: seq<Task>, t1: seq<Task>)
    requires IdsSequential(t) && LogsAtMostOne(t, t1)
    ensures IdsSequential(t1)
  {
    if t1 != t {
      assert forall i :: 0 <= i < |t| ==> t1[i] == t1[..|t|][i];
    }
  }
}

=== FILE: social.dfy ===
/**
 * The credentials form of
 * ajax_system/frontend/components/SocialIntegrations.jsx: which fields
 * the chosen platform shows, the JSON body it sends to
 * `/connect_platform`, and the message and field clearing that follow
 * the server's answer.
 */
module Social {
  import opened Wrappers
  import opened Text
  import opened SystemStore
  import Server

  datatype Form = Form(projects: seq<string>, project: string, platform: string,
                       token: string, username: string, password: string, message: string)

  const Blank := Form([], "", "", "", "", "", "")

  /**
   * The project list on mount: the listing replaces the options, and a
   * non-empty listing preselects its first project; a failed fetch
   * changes nothing.
   */
  function LoadProjects(f: Form, fetched: Fetch<seq<string>>): (r: Form)
    ensures fetched.FetchFailed? ==> r == f
    ensures fetched.Got? ==> r.projects == fetched.field.GetOr([])
    ensures fetched.Got? && r.projects != [] ==> r.project == r.projects[0]
    ensures fetched.Got? && r.projects == [] ==> r.project == f.project
    ensures r.(projects := f.projects, project := f.project) == f
  {
    match fetched
    case FetchFailed => f
    case Got(ps) =>
      var list := ps.GetOr([]);
      f.(projects := list, project := if list != [] then list[0] else f.project)
  }

  /** The credential inputs a platform shows. */
  datatype Fields = NoFields | TokenField | UserPassFields

  /** No platform, no inputs; TikTok, Instagram and Facebook in any case take a token; anything else a username and password. */
  function FieldsFor(platform: string): (fs: Fields)
    ensures platform == "" <==> fs == NoFields
    ensures fs == TokenField <==> Lower(platform) in {"tiktok", "instagram", "facebook"}
  {
    if platform == "" then NoFields
    else if Lower(platform) in {"tiktok", "instagram", "facebook"} then TokenField
    else UserPassFields
  }

  lemma FieldsExamples()
    ensures FieldsFor("TikTok") == TokenField
    ensures FieldsFor("Gmail") == UserPassFields
  {
    assert Lower("TikTok") == "tiktok";
    assert Lower("Gmail") == "gmail";
  }

  /** A form field that goes into the body only when filled in. */
  function Filled(v: string): (o: Option<string>)
    ensures o.Some? <==> v != ""
    ensures o.Some? ==> o.value == v
  {
    if v != "" then Some(v) else None
  }

  /** The JSON body: project and platform always, each credential only when non-empty. */
  datatype CredBody = CredBody(project: string, platform: string,
                               token: Option<string>, username: Option<string>, password: Option<string>)

  function BodyOf(f: Form): (b: CredBody)
    ensures b.project == f.project && b.platform == f.platform
    ensures b.token == Filled(f.token) && b.username == Filled(f.username) && b.password == Filled(f.password)
  {
    CredBody(f.project, f.platform, Filled(f.token), Filled(f.username), Filled(f.password))
  }

  /**
   * The body does not follow the fields shown: a token typed for TikTok
   * is still sent after switching to Gmail, whose form shows no token
   * input.
   */
  lemma HiddenTokenStillSent(f: Form)
    requires f.token != ""
    ensures var g := f.(platform := "Gmail");
      FieldsFor(g.platform) == UserPassFields && BodyOf(g).token == Some(f.token)
  {
    FieldsExamples();
  }

  const SaveFailed := "Failed to save credentials"

  /**
   * `handleSubmit` against the server: a 200 answer shows
   * "Saved credentials for <platform> on <project>." and clears the three
   * credentials; any other answer shows its error text (or a fixed text
   * when it has none) and keeps them.
   */
  function Submit(s: Store, f: Form): (r: (Store, Form))
    ensures var b := BodyOf(f);
      r.0 == Server.ConnectPlatform(s, Some(b.project), Some(b.platform), b.token, b.username, b.password).0
    ensures r.1.projects == f.projects && r.1.project == f.project && r.1.platform == f.platform
  {
    var b := BodyOf(f);
    var (s', reply) := Server.ConnectPlatform(s, Some(b.project), Some(b.platform), b.token, b.username, b.password);
    (s', Answer(f, reply))
  }

  /** The form after the server's answer. */
  function Answer(f: Form, reply: Server.Reply): (r: Form)
    ensures reply.code == 200 ==>
      r == f.(token := "", username := "", password := "",
              message := "Saved credentials for " + f.platform + " on " + f.project + ".")
    ensures reply.code != 200 ==> r.(message := f.message) == f
    ensures reply.code != 200 && reply.body.ErrorBody? && reply.body.error != "" ==> r.message == reply.body.error
    ensures reply.code != 200 && !(reply.body.ErrorBody? && reply.body.error != "") ==> r.message == SaveFailed
  {
    if reply.code == 200 then
      f.(token := "", username := "", password := "",
         message := "Saved credentials for " + f.platform + " on " + f.project + ".")
    else if reply.body.ErrorBody? && reply.body.error != "" then f.(message := reply.body.error)
    else f.(message := SaveFailed)
  }

  /**
   * The form and the handler agree: a submit is saved exactly when
   * project, platform and some credential are filled in, and the form
   * shows the server's reason otherwise, never the fixed fallback.
   */
  lemma SubmitOutcomes(s: Store, f: Form)
    ensures var f' := Submit(s, f).1;
      && (f.project == "" || f.platform == "" ==> f'.message == "project and platform are required")
      && (f.project != "" && f.platform != "" && f.token == "" && f.username == "" && f.password == "" ==>
            f'.message == "No credentials provided")
      && (f.project != "" && f.platform != "" && (f.token != "" || f.username != "" || f.password != "") ==>
            f'.token == "" && f'.username == "" && f'.password == "" &&
            f'.message == "Saved credentials for " + f.platform + " on " + f.project + ".")
      && f'.message != SaveFailed
  {
    var b := BodyOf(f);
    var reply := Server.ConnectPlatform(s, Some(b.project), Some(b.platform), b.token, b.username, b.password).1;
    if f.project == "" || f.platform == "" {
      assert reply == Server.Bad("project and platform are required");
      assert "project and platform are required"[0] != SaveFailed[0];
    } else if f.token == "" && f.username == "" && f.password == "" {
      assert reply == Server.Bad("No credentials provided");
      assert "No credentials provided"[0] != SaveFailed[0];
    } else {
      assert reply.code == 200;
      assert Submit(s, f).1.message[0] == 'S';
    }
  }

  /** A saved token is readable from the server's environment under PROJECT_PLATFORM_TOKEN. */
  lemma SavedTokenReachesEnvironment(s: Store, f: Form)
    requires f.project != "" && f.platform != "" && f.token != ""
    ensures var s' := Submit(s, f).0;
      var key := Server.KeyPrefix(f.project, f.platform) + "_TOKEN";
      key in s'.environ && s'.environ[key] == f.token
  {
    var b := BodyOf(f);
    Server.ConnectStoresCredentials(s, f.project, f.platform, b.token, b.username, b.password);
  }
}

=== FILE: system_store.dfy ===
/**
 * Everything the ajax_system back end persists, as one value: the state,
 * task-timeline and idle-behaviour JSON files, the project and agent
 * directories, the uploaded knowledge files, the `.env` file and the
 * process environment. A JSON file may be missing or unparsable, which
 * the readers treat alike.
 */
module SystemStore {

  /** A JSON file on disk: absent, present but not parsable, or holding a value. */
  datatype File<T> = Missing | Corrupt | Stored(value: T)

  /** `_read_json(path, default)` (ajax_system/core/memory.py): the stored value, else the default. */
  function ReadJson<T>(f: File<T>, default: T): (v: T)
    ensures f.Stored? ==> v == f.value
    ensures !f.Stored? ==> v == default
  {
    if f.Stored? then f.value else default
  }

  /** One entry of the task timeline (logs/tasks.json). */
  datatype Task = Task(id: nat, description: string, status: string, timestamp: string)

  /** core/projects/<name>/project.json. */
  datatype ProjectMeta = ProjectMeta(name: string, createdAt: string, description: string, files: map<string, seq<string>>)

  /** core/agents/<name>/config.json. */
  datatype AgentConfig = AgentConfig(name: string, role: string, baseBehavior: string, createdAt: string, permissions: seq<string>)

  /** core/agents/<name>/: its config and its training.md text. */
  datatype AgentDir = AgentDir(config: AgentConfig, training: string)

  type Bytes = seq<bv8>

  datatype Store = Store(
    state: File<map<string, string>>,        // core/agent_state.json
    tasks: File<seq<Task>>,                  // logs/tasks.json
    idle: File<map<string, string>>,         // core/idle_behaviors.json
    projects: map<string, ProjectMeta>,      // core/projects/<name>/
    agents: map<string, AgentDir>,           // core/agents/<name>/
    knowledge: map<string, map<string, Bytes>>,  // core/knowledge/<agent>/<file>
    dotenv: string,                          // .env
    environ: map<string, string>)            // os.environ

  /** A store with nothing on disk and an empty environment. */
  const EmptyStore := Store(Missing, Missing, Missing, map[], map[], map[], "", map[])
}

=== FILE: text.dfy ===
/**
 * String helpers shared by the Python back end and the JavaScript front
 * ends, restricted to ASCII: whitespace classes, trimming, case mapping,
 * whitespace splitting, joining and substring search.
 */
module Text {

  /** Python `str.isspace` on ASCII: space, \t \n \v \f \r and the separators \x1c-\x1f. */
  predicate IsPyWs(c: char) {
    c == ' ' || ('\t' <= c <= '\r') || ('\U{1c}' <= c <= '\U{1f}')
  }

  predicate IsNotPyWs(c: char) {
    !IsPyWs(c)
  }

  /** JavaScript `\s` (and `String.prototype.trim`) on ASCII: space and \t \n \v \f \r. */
  predicate IsJsWs(c: char) {
    c == ' ' || ('\t' <= c <= '\r')
  }

  predicate AllSatisfy(s: string, p: char -> bool) {
    forall i :: 0 <= i < |s| ==> p(s[i])
  }

  predicate NoneSatisfy(s: string, p: char -> bool) {
    forall i :: 0 <= i < |s| ==> !p(s[i])
  }

  // ---------------------------------------------------------------------
  // Trimming
  // ---------------------------------------------------------------------

  /** Length of the longest prefix of `s` whose characters satisfy `p`. */
  function LeadingCount(s: string, p: char -> bool): (k: nat)
    ensures k <= |s|
    ensures forall i :: 0 <= i < k ==> p(s[i])
    ensures k < |s| ==> !p(s[k])
  {
    if s == [] || !p(s[0]) then 0
    else 1 + LeadingCount(s[1..], p)
  }

  /** Length of the longest suffix of `s` whose characters satisfy `p`. */
  function TrailingCount(s: string, p: char -> bool): (k: nat)
    ensures k <= |s|
    ensures forall i :: |s| - k <= i < |s| ==> p(s[i])
    ensures k < |s| ==> !p(s[|s| - k - 1])
  {
    if s == [] || !p(s[|s| - 1]) then 0
    else 1 + TrailingCount(s[..|s| - 1], p)
  }

  /** `s` without its leading and trailing characters of class `ws`. */
  function Trim(s: string, ws: char -> bool): (r: string)
    ensures |r| <= |s|
    ensures r == [] <==> AllSatisfy(s, ws)
    ensures r != [] ==> !ws(r[0]) && !ws(r[|r| - 1])
  {
    var a := LeadingCount(s, ws);
    var rest := s[a..];
    var b := TrailingCount(rest, ws);
    if a == |s| then []
    else
      rest[..|rest| - b]
  }

  /**
   * Trimming is determined by its result: whatever whitespace surrounds a
   * core that starts and ends with a non-whitespace character is removed.
   */
  lemma {:induction false} TrimOfPadded(a: string, m: string, b: string, ws: char -> bool)
    requires AllSatisfy(a, ws) && AllSatisfy(b, ws)
    requires m != [] ==> !ws(m[0]) && !ws(m[|m| - 1])
    ensures Trim(a + m + b, ws) == m
  {
    var s := a + m + b;
    var lead := LeadingCount(s, ws);
    if m == [] {
      assert AllSatisfy(s, ws) by {
        forall i | 0 <= i < |s| ensures ws(s[i]) {
          if i < |a| { assert s[i] == a[i]; } else { assert s[i] == b[i - |a|]; }
        }
      }
    } else {
      assert s[|a|] == m[0];
      assert forall i :: 0 <= i < |a| ==> s[i] == a[i];
      assert lead == |a|;
      var rest := s[lead..];
      assert rest == m + b;
      var trail := TrailingCount(rest, ws);
      assert rest[|m| - 1] == m[|m| - 1];
      assert forall i :: |m| <= i < |rest| ==> rest[i] == b[i - |m|];
      assert trail == |b|;
      assert rest[..|rest| - trail] == m;
    }
  }

  /** Python `str.strip()` with no argument. */
  function PyStrip(s: string): string {
    Trim(s, IsPyWs)
  }

  /** JavaScript `String.prototype.trim()`. */
  function JsTrim(s: string): string {
    Trim(s, IsJsWs)
  }

  // ---------------------------------------------------------------------
  // Case mapping (ASCII only)
  // ---------------------------------------------------------------------

  function LowerChar(c: char): char {
    if 'A' <= c <= 'Z' then (c as int + 32) as char else c
  }

  function UpperChar(c: char): char {
    if 'a' <= c <= 'z' then (c as int - 32) as char else c
  }

  /** Python `str.lower()` / JavaScript `toLowerCase()` on ASCII. */
  function Lower(s: string): (r: string)
    ensures |r| == |s|
    ensures forall i :: 0 <= i < |s| ==> r[i] == LowerChar(s[i])
  {
    if s == [] then [] else [LowerChar(s[0])] + Lower(s[1..])
  }

  /** Python `str.upper()` on ASCII. */
  function Upper(s: string): (r: string)
    ensures |r| == |s|
    ensures forall i :: 0 <= i < |s| ==> r[i] == UpperChar(s[i])
  {
    if s == [] then [] else [UpperChar(s[0])] + Upper(s[1..])
  }

  /** `s.charAt(0).toUpperCase() + s.slice(1)` on ASCII: the first letter upper-cased, the rest kept. */
  function Capitalise(s: string): (r: string)
    ensures |r| == |s|
    ensures s != [] ==> r[0] == UpperChar(s[0]) && r[1..] == s[1..]
  {
    if s == [] then [] else [UpperChar(s[0])] + s[1..]
  }

  // ---------------------------------------------------------------------
  // Search
  // ---------------------------------------------------------------------

  /** `sub` occurs in `s` starting at index `i`. */
  predicate OccursAt(s: string, sub: string, i: nat) {
    i + |sub| <= |s| && s[i..i + |sub|] == sub
  }

  /** Python `sub in s` / JavaScript `s.includes(sub)`. */
  predicate Contains(s: string, sub: string) {
    exists i: nat :: i <= |s| && OccursAt(s, sub, i)
  }

  lemma ContainsPrefix(s: string, p: string)
    requires p <= s
    ensures Contains(s, p)
  {
    assert OccursAt(s, p, 0);
  }

  lemma ContainsInfix(a: string, m: string, b: string)
    ensures Contains(a + m + b, m)
  {
    var s := a + m + b;
    assert s[|a|..|a| + |m|] == m;
    assert OccursAt(s, m, |a|);
  }

  /** An occurrence stays an occurrence when text is put in front. */
  lemma ContainsAfter(a: string, s: string, sub: string)
    requires Contains(s, sub)
    ensures Contains(a + s, sub)
  {
    var i: nat :| i <= |s| && OccursAt(s, sub, i);
    assert (a + s)[|a| + i..|a| + i + |sub|] == s[i..i + |sub|];
    assert OccursAt(a + s, sub, |a| + i);
  }

  // ---------------------------------------------------------------------
  // Splitting and joining
  // ---------------------------------------------------------------------

  /** A word as Python's whitespace `split` produces it. */
  predicate IsWord(w: string) {
    w != [] && NoneSatisfy(w, IsPyWs)
  }

  /** Python `str.split()` with no separator. */
  function Words(s: string): (r: seq<string>)
    ensures forall i :: 0 <= i < |r| ==> IsWord(r[i])
    decreases |s|
  {
    var t := s[LeadingCount(s, IsPyWs)..];
    if t == [] then []
    else
      var n := LeadingCount(t, IsNotPyWs);
      HeadWord(t);
      var rest := Words(t[n..]);
      assert forall i :: 0 < i < |rest| + 1 ==> ([t[..n]] + rest)[i] == rest[i - 1];
      [t[..n]] + rest
  }

  /** The run of non-whitespace at the front of a text that starts with a non-space is a word. */
  lemma HeadWord(t: string)
    requires t != [] && !IsPyWs(t[0])
    ensures IsWord(t[..LeadingCount(t, IsNotPyWs)])
  {
    var n := LeadingCount(t, IsNotPyWs);
    assert n >= 1;
    assert forall i :: 0 <= i < n ==> t[..n][i] == t[i];
  }

  /**
   * Python `str.split(None, maxsplit)`: at most `maxsplit` words are split
   * off; what follows (after its leading whitespace) is the last part,
   * trailing whitespace included.
   */
  function SplitMax(s: string, maxsplit: nat): (r: seq<string>)
    ensures |r| <= maxsplit + 1
    ensures forall i :: 0 <= i < |r| ==> r[i] != []
    decreases maxsplit
  {
    var t := s[LeadingCount(s, IsPyWs)..];
    if t == [] then []
    else if maxsplit == 0 then [t]
    else
      var n := LeadingCount(t, IsNotPyWs);
      [t[..n]] + SplitMax(t[n..], maxsplit - 1)
  }

  /** Python `sep.join(parts)`. */
  function Join(parts: seq<string>, sep: string): string {
    if parts == [] then []
    else if |parts| == 1 then parts[0]
    else parts[0] + sep + Join(parts[1..], sep)
  }

  /** Every part appears in the joined text. */
  lemma {:induction false} JoinContainsEach(parts: seq<string>, sep: string, i: nat)
    requires i < |parts|
    ensures Contains(Join(parts, sep), parts[i])
    decreases |parts|
  {
    if |parts| == 1 {
      ContainsPrefix(parts[0], parts[0]);
    } else if i == 0 {
      ContainsPrefix(Join(parts, sep), parts[0]);
    } else {
      JoinContainsEach(parts[1..], sep, i - 1);
      ContainsAfter(parts[0] + sep, Join(parts[1..], sep), parts[i]);
    }
  }

  lemma LeadingCountAllNot(w: string)
    requires NoneSatisfy(w, IsPyWs)
    ensures LeadingCount(w, IsNotPyWs) == |w|
  {
    var k := LeadingCount(w, IsNotPyWs);
    assert forall i :: 0 <= i < |w| ==> IsNotPyWs(w[i]);
  }

  lemma LeadingCountOfWordThen(w: string, rest: string)
    requires NoneSatisfy(w, IsPyWs)
    requires rest != [] ==> IsPyWs(rest[0])
    ensures LeadingCount(w + rest, IsNotPyWs) == |w|
  {
    var s := w + rest;
    var k := LeadingCount(s, IsNotPyWs);
    assert forall i :: 0 <= i < |w| ==> s[i] == w[i] && IsNotPyWs(s[i]);
    if rest != [] {
      assert s[|w|] == rest[0];
    }
  }

  /** A single word splits into itself. */
  lemma WordsOfWord(w: string)
    requires IsWord(w)
    ensures Words(w) == [w]
  {
    assert LeadingCount(w, IsPyWs) == 0;
    assert w[0..] == w;
    LeadingCountAllNot(w);
    assert w[|w|..] == [] && w[..|w|] == w;
    assert Words([]) == [];
  }

  /** A word, one space and a text starting with a non-space split into the word and the text's words. */
  lemma WordsOfWordSpace(w: string, j: string)
    requires IsWord(w) && j != [] && !IsPyWs(j[0])
    ensures Words(w + " " + j) == [w] + Words(j)
  {
    var rest := " " + j;
    var s := w + rest;
    assert w + " " + j == s;
    assert s[0] == w[0];
    assert LeadingCount(s, IsPyWs) == 0;
    assert s[0..] == s;
    LeadingCountOfWordThen(w, rest);
    assert s[..|w|] == w && s[|w|..] == rest;
    assert rest[1..] == j;
    assert LeadingCount(rest, IsPyWs) == 1;
    assert LeadingCount(j, IsPyWs) == 0 && j[0..] == j;
    assert Words(rest) == Words(j);
  }

  /** Splitting words joined by single spaces gives the words back. */
  lemma {:induction false} WordsOfJoin(ws: seq<string>)
    requires forall i :: 0 <= i < |ws| ==> IsWord(ws[i])
    ensures Words(Join(ws, " ")) == ws
    decreases |ws|
  {
    if |ws| == 1 {
      WordsOfWord(ws[0]);
    } else if ws != [] {
      var j := Join(ws[1..], " ");
      JoinNonEmpty(ws[1..]);
      assert Join(ws, " ") == ws[0] + " " + j;
      WordsOfWordSpace(ws[0], j);
      WordsOfJoin(ws[1..]);
      assert ws == [ws[0]] + ws[1..];
    }
  }

  lemma {:induction false} JoinLast(ws: seq<string>)
    requires ws != [] && ws[|ws| - 1] != []
    ensures Join(ws, " ") != []
    ensures Join(ws, " ")[|Join(ws, " ")| - 1] == ws[|ws| - 1][|ws[|ws| - 1]| - 1]
    decreases |ws|
  {
    if |ws| > 1 {
      JoinLast(ws[1..]);
      assert ws[1..][|ws| - 2] == ws[|ws| - 1];
    }
  }

  /** Words joined by single spaces have nothing for `strip` to remove. */
  lemma StripOfJoinedWords(ws: seq<string>)
    requires forall i :: 0 <= i < |ws| ==> IsWord(ws[i])
    ensures PyStrip(Join(ws, " ")) == Join(ws, " ")
  {
    var j := Join(ws, " ");
    if ws != [] {
      JoinNonEmpty(ws);
      JoinLast(ws);
    }
    assert [] + j + [] == j;
    TrimOfPadded([], j, [], IsPyWs);
  }

  lemma JoinNonEmpty(ws: seq<string>)
    requires ws != [] && ws[0] != []
    ensures Join(ws, " ") != [] && Join(ws, " ")[0] == ws[0][0]
  {
  }

  // ---------------------------------------------------------------------
  // Python string repr (used in exception messages)
  // ---------------------------------------------------------------------

  const HexDigits: string := "0123456789abcdef"

  /** One character as it appears inside a Python repr quoted with `quote`. */
  function ReprChar(c: char, quote: char): string {
    if c == '\\' then "\\\\"
    else if c == quote then ['\\', quote]
    else if c == '\t' then "\\t"
    else if c == '\n' then "\\n"
    else if c == '\r' then "\\r"
    else if c < ' ' || c == '\U{7f}' then
      "\\x" + [HexDigits[c as int / 16], HexDigits[c as int % 16]]
    else [c]
  }

  function ReprBody(s: string, quote: char): string {
    if s == [] then [] else ReprChar(s[0], quote) + ReprBody(s[1..], quote)
  }

  /** A character that a repr quoted with `quote` keeps as it is. */
  predicate ReprPlain(c: char, quote: char) {
    ' ' <= c && c != '\U{7f}' && c != '\\' && c != quote
  }

  /** A string of plain characters is its own repr body. */
  lemma {:induction false} ReprBodyPlain(s: string, quote: char)
    requires forall i :: 0 <= i < |s| ==> ReprPlain(s[i], quote)
    ensures ReprBody(s, quote) == s
  {
    if s != [] {
      ReprBodyPlain(s[1..], quote);
      assert ReprChar(s[0], quote) == [s[0]];
      assert s == [s[0]] + s[1..];
    }
  }

  /** Python `repr(s)` for a `str`: double quotes only when `s` has a single quote and no double quote. */
  function PyRepr(s: string): string {
    var quote := if '\'' in s && '"' !in s then '"' else '\'';
    [quote] + ReprBody(s, quote) + [quote]
  }
}

=== FILE: ui.dfy ===
/**
 * Small pieces of client state shared by several React components: the
 * accordion's single open key, the light/dark theme switch, the folder
 * key derived from a project name, and newest-first display of a list.
 */
module Ui {
  import opened Text

  /** A brand (project folder) in the React sidebars: its key and its display name. */
  datatype Brand = Brand(key: string, name: string)

  /** The three brands the React pages start with. */
  const DefaultBrands: seq<Brand> := [
    Brand("remote100k", "Remote100K"),
    Brand("tradeview_ai", "Tradeview AI"),
    Brand("app_304", "304 App")]

  // ---------------------------------------------------------------------
  // Accordion
  // ---------------------------------------------------------------------

  /**
   * Clicking folder `key`: the open folder closes, any other opens, and
   * "" means none is open. A single key holds the state, so at most one
   * folder is ever open.
   */
  function Toggle(open: string, key: string): (r: string)
    ensures r == "" || r == key
    ensures key != "" ==> (r == key <==> open != key)
  {
    if open == key then "" else key
  }

  /** Which folders show as open. */
  predicate IsOpen(open: string, key: string) {
    open != "" && open == key
  }

  /**
   * After a click on `key`, `key` is open exactly when it was closed,
   * and every other folder is closed.
   */
  lemma ToggleOpensOnlyKey(open: string, key: string, other: string)
    requires key != "" && other != key
    ensures IsOpen(Toggle(open, key), key) <==> !IsOpen(open, key)
    ensures !IsOpen(Toggle(open, key), other)
  {
  }

  /**
   * Two clicks on the same folder restore the earlier state exactly when
   * that folder or no folder was open; if another folder was open, it
   * ends up closed.
   */
  lemma ToggleTwice(open: string, key: string)
    requires key != ""
    ensures Toggle(Toggle(open, key), key) == open <==> (open == key || open == "")
    ensures Toggle(Toggle(open, key), key) == (if open == key then key else "")
  {
  }

  // ---------------------------------------------------------------------
  // Theme
  // ---------------------------------------------------------------------

  /** `t === 'light' ? 'dark' : 'light'`. */
  function FlipTheme(t: string): (r: string)
    ensures r == "dark" <==> t == "light"
    ensures r in {"light", "dark"}
  {
    if t == "light" then "dark" else "light"
  }

  /** Two flips are the identity on the two real themes; any other stored value ends up 'dark'. */
  lemma FlipTwice(t: string)
    ensures FlipTheme(FlipTheme(t)) == t <==> t in {"light", "dark"}
    ensures t !in {"light", "dark"} ==> FlipTheme(FlipTheme(t)) == "dark"
  {
  }

  // ---------------------------------------------------------------------
  // Folder keys
  // ---------------------------------------------------------------------

  /** `s.replace(/\s+/g, '_')` on ASCII: every maximal whitespace run becomes one underscore. */
  function Underscore(s: string): (r: string)
    ensures NoneSatisfy(r, IsJsWs)
    ensures |r| <= |s|
    decreases |s|
  {
    if s == [] then []
    else if IsJsWs(s[0]) then
      var k := LeadingCount(s, IsJsWs);
      var rest := Underscore(s[k..]);
      assert forall i :: 0 <= i < |rest| ==> ("_" + rest)[i + 1] == rest[i];
      "_" + rest
    else
      var rest := Underscore(s[1..]);
      assert forall i :: 0 <= i < |rest| ==> ([s[0]] + rest)[i + 1] == rest[i];
      [s[0]] + rest
  }

  /** Text with no whitespace passes through unchanged. */
  lemma {:induction false} UnderscoreOfWord(w: string)
    requires NoneSatisfy(w, IsJsWs)
    ensures Underscore(w) == w
    decreases |w|
  {
    if w != [] {
      UnderscoreOfWord(w[1..]);
      assert [w[0]] + w[1..] == w;
    }
  }

  /** A whitespace-free head is copied. */
  lemma {:induction false} UnderscoreWordThen(w: string, rest: string)
    requires NoneSatisfy(w, IsJsWs)
    ensures Underscore(w + rest) == w + Underscore(rest)
    decreases |w|
  {
    if w != [] {
      var s := w + rest;
      assert s[0] == w[0] && s[1..] == w[1..] + rest;
      assert !IsJsWs(s[0]);
      assert Underscore(s) == [s[0]] + Underscore(s[1..]);
      UnderscoreWordThen(w[1..], rest);
      assert Underscore(s[1..]) == w[1..] + Underscore(rest);
      assert [w[0]] + w[1..] == w;
      assert [w[0]] + (w[1..] + Underscore(rest)) == w + Underscore(rest);
    } else {
      assert w + rest == rest;
    }
  }

  /** A whitespace run followed by a non-whitespace character (or the end) becomes one underscore. */
  lemma {:induction false} UnderscoreRunThen(run: string, rest: string)
    requires run != [] && AllSatisfy(run, IsJsWs)
    requires rest != [] ==> !IsJsWs(rest[0])
    ensures Underscore(run + rest) == "_" + Underscore(rest)
  {
    var s := run + rest;
    assert s[0] == run[0];
    LeadingCountOfRun(run, rest);
    assert s[|run|..] == rest;
  }

  lemma {:induction false} LeadingCountOfRun(run: string, rest: string)
    requires AllSatisfy(run, IsJsWs)
    requires rest != [] ==> !IsJsWs(rest[0])
    ensures LeadingCount(run + rest, IsJsWs) == |run|
    decreases |run|
  {
    if run == [] {
      assert run + rest == rest;
    } else {
      LeadingCountOfRun(run[1..], rest);
      assert (run + rest)[1..] == run[1..] + rest;
    }
  }

  /** The folder key for a project name: lower-cased, whitespace runs turned into "_". */
  function Slug(name: string): (key: string)
    ensures NoneSatisfy(key, IsJsWs)
    ensures |key| <= |name|
  {
    Underscore(Lower(name))
  }

  /** Lower-casing keeps whitespace where it was. */
  lemma LowerKeepsWs(s: string)
    ensures forall i :: 0 <= i < |s| ==> (IsJsWs(Lower(s)[i]) <==> IsJsWs(s[i]))
  {
  }

  /** Lower-casing distributes over concatenation. */
  lemma LowerAppend(a: string, b: string)
    ensures Lower(a + b) == Lower(a) + Lower(b)
  {
    assert forall i :: 0 <= i < |a + b| ==> Lower(a + b)[i] == (Lower(a) + Lower(b))[i];
  }

  /** A whitespace-free head of the name is lower-cased into the key. */
  lemma SlugWordThen(w: string, rest: string)
    requires NoneSatisfy(w, IsJsWs)
    ensures Slug(w + rest) == Lower(w) + Slug(rest)
  {
    LowerAppend(w, rest);
    LowerKeepsWs(w);
    UnderscoreWordThen(Lower(w), Lower(rest));
  }

  /** A whitespace run in the name, up to the next non-whitespace character or the end, becomes one underscore. */
  lemma SlugRunThen(run: string, rest: string)
    requires run != [] && AllSatisfy(run, IsJsWs)
    requires rest != [] ==> !IsJsWs(rest[0])
    ensures Slug(run + rest) == "_" + Slug(rest)
  {
    LowerAppend(run, rest);
    LowerKeepsWs(run);
    LowerKeepsWs(rest);
    UnderscoreRunThen(Lower(run), Lower(rest));
  }

  /** A name without whitespace is only lower-cased. */
  lemma SlugOfWord(w: string)
    requires NoneSatisfy(w, IsJsWs)
    ensures Slug(w) == Lower(w)
  {
    LowerKeepsWs(w);
    UnderscoreOfWord(Lower(w));
  }

  /** Two words around a whitespace run give their lower-cased forms joined by one underscore. */
  lemma SlugOfWordSpaceWord(w1: string, run: string, w2: string)
    requires NoneSatisfy(w1, IsJsWs) && NoneSatisfy(w2, IsJsWs)
    requires run != [] && AllSatisfy(run, IsJsWs)
    ensures Slug(w1 + run + w2) == Lower(w1) + "_" + Lower(w2)
  {
    assert w1 + run + w2 == w1 + (run + w2);
    SlugWordThen(w1, run + w2);
    SlugRunThen(run, w2);
    SlugOfWord(w2);
  }

  /** The name is not trimmed first, so outer spaces become outer underscores. */
  lemma SlugKeepsOuterSpaces(name: string)
    requires name == " x "
    ensures Slug(name) == "_x_"
  {
    var l := Lower(name);
    assert l == " " + ("x" + " ");
    UnderscoreRunThen(" ", "x" + " ");
    UnderscoreWordThen("x", " ");
    assert " " + "" == " ";
    UnderscoreRunThen(" ", "");
  }

  // ---------------------------------------------------------------------
  // Newest first
  // ---------------------------------------------------------------------

  /** `list.slice().reverse()`: a reversed copy; the list itself is left as it is. */
  function Reverse<T>(s: seq<T>): (r: seq<T>)
    ensures |r| == |s|
    ensures forall i :: 0 <= i < |s| ==> r[i] == s[|s| - 1 - i]
  {
    if s == [] then [] else Reverse(s[1..]) + [s[0]]
  }

  /** Reversing twice gives the list back. */
  lemma ReverseTwice<T>(s: seq<T>)
    ensures Reverse(Reverse(s)) == s
  {
  }
}

=== FILE: upload_panel.dfy ===
/**
 * The upload panel of frontend/src/components/UploadPanel.jsx: a drag
 * flag, and a file list to which every drop or selection appends its
 * batch, while the upload callback is handed only that batch.
 */
module UploadPanel {

  /** The list shown under the drop zone and whether a drag is over it. */
  datatype Panel<F> = Panel(files: seq<F>, dragging: bool)

  function Initial<F>(): (p: Panel<F>)
    ensures p.files == [] && !p.dragging
  {
    Panel([], false)
  }

  /** `handleDragOver`. */
  function DragOver<F>(p: Panel<F>): (r: Panel<F>)
    ensures r.dragging && r.files == p.files
  {
    p.(dragging := true)
  }

  /** `handleDragLeave`. */
  function DragLeave<F>(p: Panel<F>): (r: Panel<F>)
    ensures !r.dragging && r.files == p.files
  {
    p.(dragging := false)
  }

  /**
   * `handleDrop`: the drag ends, the dropped files are appended after the
   * earlier ones, and the callback receives the dropped files alone.
   */
  function Drop<F>(p: Panel<F>, items: seq<F>): (r: (Panel<F>, seq<F>))
    ensures !r.0.dragging
    ensures |r.0.files| == |p.files| + |items|
    ensures r.0.files[..|p.files|] == p.files && r.0.files[|p.files|..] == items
    ensures r.1 == items
  {
    (Panel(p.files + items, false), items)
  }

  /**
   * `handleChange`: the selected files (none when the picker gives none)
   * are appended and handed to the callback, which is called even for an
   * empty selection; the drag flag is untouched. Clearing the picker is
   * outside the state.
   */
  function Select<F>(p: Panel<F>, items: seq<F>): (r: (Panel<F>, seq<F>))
    ensures r.0.dragging == p.dragging
    ensures |r.0.files| == |p.files| + |items|
    ensures r.0.files[..|p.files|] == p.files && r.0.files[|p.files|..] == items
    ensures r.1 == items
  {
    (p.(files := p.files + items), items)
  }

  /** One user action on the panel. */
  datatype Event<F> = Over | Leave | Dropped(items: seq<F>) | Selected(items: seq<F>)

  /** The batch an event adds; drag events add none. */
  function Batch<F>(e: Event<F>): (b: seq<F>)
    ensures e.Over? || e.Leave? ==> b == []
  {
    match e
    case Over => []
    case Leave => []
    case Dropped(items) => items
    case Selected(items) => items
  }

  function Step<F>(p: Panel<F>, e: Event<F>): (r: (Panel<F>, seq<F>))
    ensures r.1 == Batch(e)
    ensures r.0.files == p.files + Batch(e)
  {
    match e
    case Over => (DragOver(p), [])
    case Leave => (DragLeave(p), [])
    case Dropped(items) => Drop(p, items)
    case Selected(items) => Select(p, items)
  }

  /** The panel after a run of events, with the batches the callback received in order. */
  function Run<F>(p: Panel<F>, es: seq<Event<F>>): (r: (Panel<F>, seq<seq<F>>))
    ensures |r.1| == |es|
    decreases |es|
  {
    if es == [] then (p, [])
    else
      var (p1, b) := Step(p, es[0]);
      var (p2, bs) := Run(p1, es[1..]);
      (p2, [b] + bs)
  }

  /** Concatenation of the callback's batches. */
  function Flatten<F>(bs: seq<seq<F>>): seq<F> {
    if bs == [] then [] else bs[0] + Flatten(bs[1..])
  }

  /**
   * The panel's list is always the earlier list followed by every batch
   * handed to the callback, in order: nothing is lost, repeated or
   * reordered, and no batch is sent twice.
   */
  lemma {:induction false} ListIsEarlierPlusBatches<F>(p: Panel<F>, es: seq<Event<F>>)
    ensures Run(p, es).0.files == p.files + Flatten(Run(p, es).1)
    decreases |es|
  {
    if es != [] {
      var (p1, b) := Step(p, es[0]);
      ListIsEarlierPlusBatches(p1, es[1..]);
      var bs := Run(p1, es[1..]).1;
      assert Run(p, es).1 == [b] + bs;
      assert Flatten([b] + bs) == b + Flatten(bs) by {
        assert ([b] + bs)[1..] == bs;
      }
      assert p1.files == p.files + b;
    }
  }

  /** Dragging ends exactly with a leave or a drop, and starts only with a drag-over. */
  lemma DragFlagFollowsLastDragEvent<F>(p: Panel<F>, e: Event<F>)
    ensures Step(p, e).0.dragging == (if e.Over? then true else if e.Leave? || e.Dropped? then false else p.dragging)
  {
  }

  /** Two drops: the callback sees each batch once, while the list holds both. */
  lemma TwoDrops<F>(a: F, b: F)
    ensures var (p1, s1) := Drop(Initial(), [a]);
      var (p2, s2) := Drop(p1, [b]);
      s1 == [a] && s2 == [b] && p2.files == [a, b]
  {
  }
}

=== FILE: vanilla_dashboard.dfy ===
/**
 * The plain-JavaScript dashboard of frontend/app.js: the Running/Idle
 * status derived from the queue and the history, the newest-first
 * history list, per-project chat, and the upload form's status line.
 *
 * Chat keeps one array per project in `conversations`. A submit pushes
 * onto the array it looked up, which is the stored one when the project
 * was loaded, and on success stores that array under whichever project
 * is active when the reply arrives. Both the aliasing and the late
 * lookup are modelled.
 */
module VanillaDashboard {
  import opened Wrappers
  import opened Text
  import opened Ui

  /** A queue or history entry as the server lists it. */
  datatype Item = Item(timestamp: string, task: string)

  /** How an entry is written in the panels. */
  function Line(it: Item): (t: string)
    ensures t == it.timestamp + " – " + it.task
  {
    it.timestamp + " – " + it.task
  }

  const Dash := "—"

  /** `loadQueue` / `loadHistory`: a failed fetch or parse yields the empty list. */
  function Loaded(fetched: Option<seq<Item>>): (items: seq<Item>)
    ensures fetched.None? ==> items == []
    ensures fetched.Some? ==> items == fetched.value
  {
    fetched.GetOr([])
  }

  /** The three status fields. */
  datatype Status = Status(text: string, next: string, last: string)

  /**
   * `updateStatus`: Running with the queue's head as the next task when
   * the queue is non-empty, otherwise Idle with a dash; the last task is
   * the history's final entry, or a dash.
   */
  function UpdateStatus(queue: Option<seq<Item>>, history: Option<seq<Item>>): (st: Status)
    ensures st.text == "Running" <==> Loaded(queue) != []
    ensures st.text in {"Running", "Idle"}
    ensures Loaded(queue) != [] ==> st.next == Line(Loaded(queue)[0])
    ensures Loaded(queue) == [] ==> st.next == Dash
    ensures Loaded(history) != [] ==> st.last == Line(Loaded(history)[|Loaded(history)| - 1])
    ensures Loaded(history) == [] ==> st.last == Dash
  {
    var q, h := Loaded(queue), Loaded(history);
    Status(if q != [] then "Running" else "Idle",
           if q != [] then Line(q[0]) else Dash,
           if h != [] then Line(h[|h| - 1]) else Dash)
  }

  /** An unreachable queue reads as Idle, never as Running. */
  lemma FailedQueueIsIdle(history: Option<seq<Item>>)
    ensures UpdateStatus(None, history) == Status("Idle", Dash, UpdateStatus(None, history).last)
  {
  }

  /** The history panel: one line per entry, newest first. */
  function HistoryLines(history: seq<Item>): (lines: seq<string>)
    ensures |lines| == |history|
    ensures forall i :: 0 <= i < |history| ==> lines[i] == Line(history[|history| - 1 - i])
  {
    var r := Reverse(history);
    seq(|r|, i requires 0 <= i < |r| => Line(r[i]))
  }

  /** The top of the history panel and the status's last task name the same entry. */
  lemma HistoryTopIsLastTask(history: seq<Item>)
    requires history != []
    ensures HistoryLines(history)[0] == UpdateStatus(None, Some(history)).last
  {
  }

  // ---------------------------------------------------------------------
  // Chat
  // ---------------------------------------------------------------------

  datatype Msg = Msg(role: string, content: string)

  type Conversations = map<string, seq<Msg>>

  /**
   * A request in flight: the project it was sent from, the array's
   * contents after the user's message, and whether that array is the one
   * stored for the project.
   */
  datatype InFlight = InFlight(project: string, msgs: seq<Msg>, shared: bool)

  /**
   * The chat form's submit, up to the request: a blank input does
   * nothing; otherwise the user's message is pushed onto the project's
   * array (visible at once only when that array is stored) and the input
   * is cleared.
   */
  function Submit(convs: Conversations, active: string, input: string): (r: (Conversations, string, Option<InFlight>))
    ensures JsTrim(input) == "" ==> r == (convs, input, None)
    ensures JsTrim(input) != "" ==>
      && r.1 == ""
      && r.2 == Some(InFlight(active, ListAt(convs, active) + [Msg("user", JsTrim(input))], active in convs))
      && (active in convs ==> r.0 == convs[active := r.2.value.msgs])
      && (active !in convs ==> r.0 == convs)
  {
    var content := JsTrim(input);
    if content == "" then (convs, input, None)
    else
      var msgs := ListAt(convs, active) + [Msg("user", content)];
      var convs' := if active in convs then convs[active := msgs] else convs;
      (convs', "", Some(InFlight(active, msgs, active in convs)))
  }

  const ChatError := "Error: could not reach server"

  /**
   * The reply arriving. One assistant entry is pushed onto the request's
   * array; `stillShared` says whether that array is still the one stored
   * for its project (a reload of the project replaces it). On success the
   * array is then stored under the project active at this moment.
   */
  function Reply(convs: Conversations, f: InFlight, stillShared: bool, activeNow: string, reply: Option<string>)
    : (r: Conversations)
    ensures var msgs := f.msgs + [Msg("assistant", if reply.Some? then reply.value else ChatError)];
      && (reply.Some? ==> activeNow in r && r[activeNow] == msgs)
      && (f.shared && stillShared ==> f.project in r && r[f.project] == msgs)
      && (forall p :: p in convs && p != activeNow && (p != f.project || !(f.shared && stillShared)) ==>
            p in r && r[p] == convs[p])
      && (reply.None? && !(f.shared && stillShared) ==> r == convs)
  {
    var msgs := f.msgs + [Msg("assistant", if reply.Some? then reply.value else ChatError)];
    var pushed := if f.shared && stillShared then convs[f.project := msgs] else convs;
    if reply.Some? then pushed[activeNow := msgs] else pushed
  }

  /** Switching to another project while a request is out: `loadConversation` stores a fresh array for it. */
  function SwitchProject(convs: Conversations, project: string, loaded: seq<Msg>): (r: Conversations)
    ensures project in r && r[project] == loaded
    ensures forall p :: p in convs && p != project ==> p in r && r[p] == convs[p]
  {
    convs[project := loaded]
  }

  /**
   * Submitting in project a, switching to project b, then getting a
   * reply: b's loaded conversation is replaced by a's, and both projects
   * now hold the same list.
   */
  lemma SwitchMidRequest(convs: Conversations, a: string, b: string, input: string, loaded: seq<Msg>, reply: string)
    requires a in convs && a != b && JsTrim(input) != ""
    ensures var (c1, _, f) := Submit(convs, a, input);
      var c2 := SwitchProject(c1, b, loaded);
      var c3 := Reply(c2, f.value, true, b, Some(reply));
      var expected := convs[a] + [Msg("user", JsTrim(input)), Msg("assistant", reply)];
      c3[b] == expected && c3[a] == expected
  {
    var (c1, _, f) := Submit(convs, a, input);
    assert f.value.msgs + [Msg("assistant", reply)] == convs[a] + [Msg("user", JsTrim(input)), Msg("assistant", reply)];
  }

  /**
   * In a project that was never loaded, the pushed array is not stored:
   * after a failed request the project still has no conversation, so
   * neither the user's message nor the error is shown.
   */
  lemma UnloadedFailureShowsNothing(convs: Conversations, p: string, input: string)
    requires p !in convs && JsTrim(input) != ""
    ensures var (c1, _, f) := Submit(convs, p, input);
      var c2 := Reply(c1, f.value, true, p, None);
      ListAt(c2, p) == []
  {
  }

  /** Without a project switch, a loaded project gets its user entry and one reply entry, success or not. */
  lemma SameProjectRoundTrip(convs: Conversations, p: string, input: string, reply: Option<string>)
    requires p in convs && JsTrim(input) != ""
    ensures var (c1, _, f) := Submit(convs, p, input);
      var c2 := Reply(c1, f.value, true, p, reply);
      && |c2[p]| == |convs[p]| + 2
      && c2[p][..|convs[p]|] == convs[p]
      && c2[p][|convs[p]|] == Msg("user", JsTrim(input))
      && c2[p][|convs[p]| + 1].role == "assistant"
  {
    var (c1, _, f) := Submit(convs, p, input);
    var c2 := Reply(c1, f.value, true, p, reply);
    assert c2[p][..|convs[p]|] == convs[p];
  }

  // ---------------------------------------------------------------------
  // Upload
  // ---------------------------------------------------------------------

  const NoFilesSelected := "No files selected."
  const Uploading := "Uploading…"

  /** The upload form's submit: no request without files; otherwise the brand and the files are sent. */
  function UploadStart(brand: string, files: seq<string>): (r: (string, Option<(string, seq<string>)>))
    ensures files == [] ==> r == (NoFilesSelected, None)
    ensures files != [] ==> r == (Uploading, Some((brand, files)))
  {
    if files == [] then (NoFilesSelected, None) else (Uploading, Some((brand, files)))
  }

  /** The server's answer: `Failed` when the request or its parsing threw, else its `files` field if any. */
  datatype UploadAnswer = Failed | Answered(files: Option<seq<string>>)

  /** The status line once the answer is in. */
  function UploadDone(a: UploadAnswer): (t: string)
    ensures a.Failed? ==> t == "Upload failed."
    ensures a.Answered? && (a.files.None? || a.files.value == []) ==> t == "No files uploaded."
    ensures a.Answered? && a.files.Some? && a.files.value != [] ==>
      t == "Uploaded: " + Join(a.files.value, ", ")
  {
    match a
    case Failed => "Upload failed."
    case Answered(files) =>
      if files.Some? && files.value != [] then "Uploaded: " + Join(files.value, ", ")
      else "No files uploaded."
  }

  /** A success message names every uploaded file. */
  lemma UploadedNamesEveryFile(files: seq<string>, i: nat)
    requires i < |files|
    ensures Contains(UploadDone(Answered(Some(files))), files[i])
  {
    JoinContainsEach(files, ", ", i);
    ContainsAfter("Uploaded: ", Join(files, ", "), files[i]);
  }

  /** Two files are listed with a comma and a space between them. */
  lemma TwoFilesMessage()
    ensures UploadDone(Answered(Some(["a.txt", "b.md"]))) == "Uploaded: a.txt, b.md"
  {
  }
}

=== FILE: web_browser.dfy ===
/**
 * URL resolution of tools/web_browser.py: an explicit URL wins, an
 * http(s) query is itself the URL, and any other query becomes a Google
 * search whose `q` parameter is the query percent-encoded the way
 * Python's `urllib.parse.quote` does it (UTF-8 bytes; letters, digits,
 * "_.-~" and "/" left alone; every other byte as "%XX" in upper-case hex,
 * following section 2.1 of RFC 3986). Loading the page is outside the
 * model: its title and body text are parameters.
 */
module WebBrowser {
  import opened Wrappers

  newtype Byte = x: int | 0 <= x < 0x100

  // ---------------------------------------------------------------------
  // UTF-8
  // ---------------------------------------------------------------------

  /** A continuation byte: the marker bits 10 followed by the low six bits of `n`. */
  function Cont(n: nat): (b: Byte)
    ensures b >= 0x80
  {
    (0x80 + n % 0x40) as Byte
  }

  /** A lead byte: the `marker` bits followed by the bits of `n` left for it. */
  function Lead(n: nat, marker: nat, room: nat): (b: Byte)
    requires marker + room <= 0x100 && n < room
    ensures b as int >= marker
  {
    (marker + n) as Byte
  }

  /** The UTF-8 encoding of one Unicode scalar value. */
  function Utf8Char(c: char): (bs: seq<Byte>)
    ensures 1 <= |bs| <= 4
    ensures c < '\U{80}' <==> |bs| == 1
    ensures c < '\U{80}' ==> bs[0] as int == c as int
    ensures c >= '\U{80}' ==> forall i :: 0 <= i < |bs| ==> bs[i] >= 0x80
  {
    var n := c as int;
    if n < 0x80 then [n as Byte]
    else if n < 0x800 then [Lead(n / 0x40, 0xC0, 0x20), Cont(n)]
    else if n < 0x1_0000 then [Lead(n / 0x1000, 0xE0, 0x10), Cont(n / 0x40), Cont(n)]
    else [Lead(n / 0x4_0000, 0xF0, 0x08), Cont(n / 0x1000), Cont(n / 0x40), Cont(n)]
  }

  function Utf8(s: string): (bs: seq<Byte>)
    ensures |bs| >= |s|
  {
    if s == [] then [] else Utf8Char(s[0]) + Utf8(s[1..])
  }

  // ---------------------------------------------------------------------
  // Percent-encoding
  // ---------------------------------------------------------------------

  const UpperHex: string := "0123456789ABCDEF"

  /** The bytes `quote` keeps as they are: ASCII letters and digits, "_.-~", and the default safe "/". */
  predicate Unreserved(b: Byte) {
    || (0x41 <= b <= 0x5A) || (0x61 <= b <= 0x7A) || (0x30 <= b <= 0x39)
    || b == 0x5F || b == 0x2E || b == 0x2D || b == 0x7E || b == 0x2F
  }

  /** One byte as `quote` writes it. */
  function QuoteByte(b: Byte): (t: string)
    ensures Unreserved(b) ==> t == [b as int as char]
    ensures !Unreserved(b) ==> |t| == 3 && t[0] == '%' && t[1] in UpperHex && t[2] in UpperHex
    ensures forall i :: 0 <= i < |t| ==> QuotedChar(t[i])
  {
    if Unreserved(b) then
      assert (b as int as char) as int as Byte == b;
      [b as int as char]
    else
      HexDigitsQuoted();
      ['%', UpperHex[b as int / 16], UpperHex[b as int % 16]]
  }

  lemma HexDigitsQuoted()
    ensures forall k :: 0 <= k < |UpperHex| ==> QuotedChar(UpperHex[k])
  {
  }

  function QuoteBytes(bs: seq<Byte>): string {
    if bs == [] then [] else QuoteByte(bs[0]) + QuoteBytes(bs[1..])
  }

  /** `urllib.parse.quote(s)` with its default safe set. */
  function Quote(s: string): string {
    QuoteBytes(Utf8(s))
  }

  /** The characters that can appear in quoted text: unreserved ones, '%', and upper-case hex digits. */
  predicate QuotedChar(c: char) {
    (c < '\U{100}' && Unreserved(c as int as Byte)) || c == '%'
  }

  /** The value of a hex digit, for the decoder. */
  function HexValue(c: char): Option<nat> {
    if '0' <= c <= '9' then Some(c as int - '0' as int)
    else if 'A' <= c <= 'F' then Some(c as int - 'A' as int + 10)
    else if 'a' <= c <= 'f' then Some(c as int - 'a' as int + 10)
    else None
  }

  /**
   * Percent-decoding to bytes, the inverse direction: "%XX" is one byte,
   * any other character below U+0080 is its own byte, and a stray '%' or a
   * non-ASCII character is an error.
   */
  function Unquote(t: string): (r: Option<seq<Byte>>)
    decreases |t|
  {
    if t == [] then Some([])
    else if t[0] == '%' then
      if |t| < 3 then None
      else match (HexValue(t[1]), HexValue(t[2]))
        case (Some(h), Some(l)) =>
          (match Unquote(t[3..])
           case Some(rest) => Some([(h * 16 + l) as Byte] + rest)
           case None => None)
        case _ => None
    else if t[0] < '\U{80}' then
      match Unquote(t[1..])
      case Some(rest) => Some([t[0] as int as Byte] + rest)
      case None => None
    else None
  }

  lemma UpperHexValues(i: nat)
    requires i < 16
    ensures HexValue(UpperHex[i]) == Some(i)
  {
  }

  /** Decoding the quoted form of one byte gives the byte back in front of whatever follows. */
  lemma UnquoteByte(b: Byte, rest: string)
    ensures Unquote(QuoteByte(b) + rest) ==
      (match Unquote(rest) case Some(bs) => Some([b] + bs) case None => None)
  {
    if Unreserved(b) {
      UnquoteKept(b, rest);
    } else {
      UnquoteEscaped(b, rest);
    }
  }

  lemma UnquoteKept(b: Byte, rest: string)
    requires Unreserved(b)
    ensures Unquote(QuoteByte(b) + rest) ==
      (match Unquote(rest) case Some(bs) => Some([b] + bs) case None => None)
  {
    var c := b as int as char;
    var t := [c] + rest;
    assert c as int as Byte == b;
    assert t[0] == c && t[1..] == rest;
    assert c != '%' && c < '\U{80}';
  }

  lemma UnquoteEscaped(b: Byte, rest: string)
    requires !Unreserved(b)
    ensures Unquote(QuoteByte(b) + rest) ==
      (match Unquote(rest) case Some(bs) => Some([b] + bs) case None => None)
  {
    var h, l := b as int / 16, b as int % 16;
    var t := QuoteByte(b) + rest;
    assert t[0] == '%' && t[1] == UpperHex[h] && t[2] == UpperHex[l] && t[3..] == rest;
    EscapeDecodes(b);
    UnquotePercent(t);
    var hv, lv := HexValue(t[1]).value, HexValue(t[2]).value;
    assert (hv * 16 + lv) as Byte == b;
  }

  /** One escape at the front decodes to its byte in front of the rest's decoding. */
  lemma UnquotePercent(t: string)
    requires |t| >= 3 && t[0] == '%' && HexValue(t[1]).Some? && HexValue(t[2]).Some?
    ensures HexValue(t[1]).value * 16 + HexValue(t[2]).value < 0x100
    ensures Unquote(t) ==
      (match Unquote(t[3..])
       case Some(bs) => Some([(HexValue(t[1]).value * 16 + HexValue(t[2]).value) as Byte] + bs)
       case None => None)
  {
  }

  /** The two hex digits of an escape decode to the byte they were made from. */
  lemma EscapeDecodes(b: Byte)
    ensures HexValue(UpperHex[b as int / 16]).Some? && HexValue(UpperHex[b as int % 16]).Some?
    ensures (HexValue(UpperHex[b as int / 16]).value * 16 + HexValue(UpperHex[b as int % 16]).value) as Byte == b
  {
    var h, l := b as int / 16, b as int % 16;
    UpperHexValues(h);
    UpperHexValues(l);
  }

  /** Percent-decoding undoes `quote` on every byte string. */
  lemma {:induction false} UnquoteQuoteBytes(bs: seq<Byte>)
    ensures Unquote(QuoteBytes(bs)) == Some(bs)
    decreases |bs|
  {
    if bs != [] {
      UnquoteQuoteBytes(bs[1..]);
      UnquoteByte(bs[0], QuoteBytes(bs[1..]));
      assert [bs[0]] + bs[1..] == bs;
    }
  }

  /** Percent-decoding the quoted query gives back its UTF-8 bytes: no information is lost. */
  lemma UnquoteQuote(s: string)
    ensures Unquote(Quote(s)) == Some(Utf8(s))
  {
    UnquoteQuoteBytes(Utf8(s));
  }

  /**
   * Quoted text holds only unreserved characters and '%', so no space,
   * '&', '#' or '?' of the query can end or split the `q` parameter.
   */
  lemma {:induction false} QuotedChars(bs: seq<Byte>)
    ensures forall i :: 0 <= i < |QuoteBytes(bs)| ==> QuotedChar(QuoteBytes(bs)[i])
    decreases |bs|
  {
    if bs != [] {
      QuotedChars(bs[1..]);
      var head, tail := QuoteByte(bs[0]), QuoteBytes(bs[1..]);
      var q := QuoteBytes(bs);
      assert q == head + tail;
      forall i | 0 <= i < |q| ensures QuotedChar(q[i]) {
        if i < |head| {
          assert q[i] == head[i];
        } else {
          assert q[i] == tail[i - |head|];
        }
      }
    }
  }

  /** Text of safe ASCII characters is its own quoted form. */
  lemma {:induction false} QuoteOfSafe(s: string)
    requires forall i :: 0 <= i < |s| ==> s[i] < '\U{80}' && Unreserved(s[i] as int as Byte)
    ensures Quote(s) == s
    decreases |s|
  {
    if s != [] {
      QuoteOfSafe(s[1..]);
      assert (s[0] as int as Byte) as int as char == s[0];
      assert [s[0]] + s[1..] == s;
    }
  }

  // ---------------------------------------------------------------------
  // Resolution
  // ---------------------------------------------------------------------

  const SearchPrefix := "https://www.google.com/search?q="

  predicate StartsWith(s: string, p: string) {
    |p| <= |s| && s[..|p|] == p
  }

  /** A query the tool treats as a URL: it starts with "http://" or "https://", case-sensitively. */
  predicate IsHttpUrl(q: string) {
    StartsWith(q, "http://") || StartsWith(q, "https://")
  }

  /**
   * The URL `run` visits. `query` defaults to "" when absent; a missing or
   * empty `url` falls back to the query.
   */
  function ResolveUrl(query: Option<string>, url: Option<string>): (r: string)
    ensures url.Some? && url.value != "" ==> r == url.value
    ensures (url.None? || url.value == "") && IsHttpUrl(query.GetOr("")) ==> r == query.value
    ensures (url.None? || url.value == "") && !IsHttpUrl(query.GetOr("")) ==>
      StartsWith(r, SearchPrefix) && Unquote(r[|SearchPrefix|..]) == Some(Utf8(query.GetOr("")))
  {
    var q := query.GetOr("");
    if url.Some? && url.value != "" then url.value
    else if IsHttpUrl(q) then q
    else
      UnquoteQuote(q);
      var r := SearchPrefix + Quote(q);
      assert r[..|SearchPrefix|] == SearchPrefix && r[|SearchPrefix|..] == Quote(q);
      r
  }

  /** With no URL and no query the tool searches for the empty string. */
  lemma EmptyQuerySearches()
    ensures ResolveUrl(None, None) == SearchPrefix
  {
    assert Quote("") == "";
    assert SearchPrefix + "" == SearchPrefix;
  }

  /** A plain word is searched for as it is, and a search URL's parameter is made only of quoted characters. */
  lemma SearchParameterIsQuoted(q: string)
    requires !IsHttpUrl(q)
    ensures var r := ResolveUrl(Some(q), None);
      forall i :: |SearchPrefix| <= i < |r| ==> QuotedChar(r[i])
  {
    QuotedChars(Utf8(q));
    var r := ResolveUrl(Some(q), None);
    assert r == SearchPrefix + Quote(q);
  }

  /** A space is sent as "%20". */
  lemma SpaceQuoted()
    ensures Quote(" ") == "%20"
  {
    assert Utf8(" ") == [0x20];
    assert QuoteBytes([0x20]) == QuoteByte(0x20) + QuoteBytes([]);
  }

  /** What `run` returns: the resolved URL with the page's title and body text. */
  datatype Page = Page(url: string, title: string, body: string)

  function Run(query: Option<string>, url: Option<string>, title: string, body: string): (p: Page)
    ensures p.url == ResolveUrl(query, url) && p.title == title && p.body == body
  {
    Page(ResolveUrl(query, url), title, body)
  }
}

=== FILE: wrappers.dfy ===
/**
 * Failure-carrying values shared by every module: an optional value for
 * the source's `None`/absent fields, a result for operations that raise
 * or return an error status, and the outcome of a client-side fetch.
 */
module Wrappers {

  datatype Option<+T> = None | Some(value: T) {

    /** The value, or `default` when absent (Python `x if x is not None else d`). */
    function GetOr(default: T): T {
      match this
      case Some(v) => v
      case None => default
    }
  }

  /** The list a map holds under `k`, empty when `k` is absent (`d.get(k, [])`, `m[k] || []`). */
  function ListAt<K, V>(m: map<K, seq<V>>, k: K): (l: seq<V>)
    ensures k in m ==> l == m[k]
    ensures k !in m ==> l == []
  {
    if k in m then m[k] else []
  }

  datatype Result<+R, +E> = Success(value: R) | Failure(error: E) {

    predicate IsFailure() {
      Failure?
    }

    function PropagateFailure<U>(): Result<U, E>
      requires Failure?
    {
      Failure(error)
    }

    function Extract(): R
      requires Success?
    {
      value
    }
  }

  /**
   * A browser fetch whose JSON body has one field of interest: the
   * request failed (its `.then` handlers never run), or it answered with
   * the field present or absent.
   */
  datatype Fetch<+T> = FetchFailed | Got(field: Option<T>)
}
